=== FILE: README.md ===
# libmetro MWOB reader, modelled in Dafny

libmetro reads the object libraries that the Metrowerks CodeWarrior
68k tool chain writes (`MWOB` libraries). A library is a 28-byte header and then a
list of 20-byte file descriptors. Each descriptor points into the library at a
file name, an optional full path and the bytes of one 68k object. An
object (magic `0xFEEDBEAD`) is made of:

- a 64-byte header;
- a name table: a hash, a NUL-terminated name, and ids counted from 1;
- an optional symbol table (magic `0x53594D48`): routines with their
  statement locations and local variables, then an optional type table;
- a stream of code hunks, read by a state machine keyed on a 16-bit tag
  from `0x4567` to `0x4596`.

The project models the reading side of that core.

- Every `try_from` becomes a decoding function that returns a `Result`. A
  Rust panic (an out-of-range slice, a failed `unwrap`, a failed
  `assert_eq!`, an integer underflow) is the error `Panic`. Each returned
  error message is its own tag (`BadMagic`, `BadFlags`, `ReservedNotZero`,
  `BadStorageKind`, `BadStorageClass`, `BadRoutineType`, `BadEnumType`,
  `BadHunkTag`, `BadTypeTag`, `ReservedHunk`, `BadBranch`, `InvalidInput`).
- Every loop in the source is a method with a `while` loop. Each method is
  proved equal to its decoding function.
- Every record reader has a writer as its partner: the `serialize_out`
  encoders of the type records and, where the source has no writer, an
  encoder of the layout the reader expects. Lemmas prove that reading what
  the writer produces gives back the value (round trips). For the type
  records they also prove that writing what was read gives back the bytes.
- Further lemmas state what a successful read guarantees about its input
  (magic words, zero reserved fields, counts, ids numbered from 1, the
  order of hunks) and which inputs each error comes from.
- Where the source does not do what it evidently means to (see "## Findings"),
  the model holds both the reader as written and the intended one, with a
  lemma relating them.

The modules follow the source files:

- `Util` (util.rs): big-endian conversions and the name-table hash.
- `Outcomes`: the `Result` type, `unwrap` and list helpers.
- `DataTypes` (types_m68k.rs): `DataType` and its codes.
- `TypeRecords` (types_m68k.rs): the nine type records.
- `TypeTables` (types_m68k.rs): the type-table state machine.
- `Symtab` (symtable_m68k.rs): the symbol table.
- `HunkKinds` and `CodeHunks` (code_m68k.rs): hunk kinds and the hunk
  state machine.
- `Names` and `Objects` (objects_m68k.rs): name entries and the object.
- `Library` (mwob_library.rs): the library.

## Model

| member | source | states |
|---|---|---|
| Util.BeU16Bytes | src/util.rs:42-45 | the two bytes of a big-endian u16 are those of the value it decodes to, so `convert_be_u16` loses nothing |
| Util.BeU32Bytes | src/util.rs:47-50 | the four bytes of a big-endian u32 are those of the value it decodes to |
| Util.U16RoundTrip | src/util.rs:42-45 | decoding the big-endian bytes of any u16 gives it back |
| Util.U32RoundTrip | src/util.rs:47-50 | decoding the big-endian bytes of any u32 gives it back |
| Util.BeI16 | src/util.rs:52-55 | the i16 read is the u16 reading taken modulo 2^16, and it is negative exactly when the top bit of the first byte is set |
| Util.BeI32 | src/util.rs:57-60 | the i32 read is the u32 reading taken modulo 2^32, and it is negative exactly when the top bit of the first byte is set |
| Util.I32RoundTrip | src/util.rs:57-60 | decoding the two's-complement big-endian bytes of any i32 gives it back |
| Util.AllOnesIsMinusOne | src/util.rs:57-60 | four `0xFF` bytes read as an i32 are -1, the value that ends a statement list |
| Util.Ror3 | src/util.rs:33 | `(u >> 3) \| (u << 5)` on a byte is a rotation right by three bits |
| Util.ShiftJoinMask | src/util.rs:36-39 | for a non-zero length byte, joining it with `u` and masking with `NAMEHASH - 1` keeps the length's two low bits above the eight bits of `u` |
| Util.NametableHash | src/util.rs:23-40 | the loop over the name's bytes computes the hash that the fold over the bytes defines |
| Util.NameHashBound | src/util.rs:39 | every hash is below `NAMEHASH` (1024) |
| Util.NameHashEmpty | src/util.rs:28-30 | the empty name hashes to 0 |
| Util.NameHashLengthMod4 | src/util.rs:28-39 | two names with non-zero length bytes, the same length modulo 4 and the same folded byte have the same hash |
| DataTypes.BasicOfCode | src/types_m68k.rs:78-165 | a code names a basic type exactly when it is one of the basic codes (0 to 17, 100 to 108), and the type found has that code |
| DataTypes.LowBasic | src/types_m68k.rs:78-165 | the codes 0 to 17 select the basic type with that code |
| DataTypes.HighBasic | src/types_m68k.rs:78-165 | the codes 100 to 108 select the basic type with that code |
| DataTypes.BasicCodeInverse | src/types_m68k.rs:66-165 | every basic type's code is a basic code and reads back as that type |
| DataTypes.FromU32 | src/types_m68k.rs:78-165 | `From<u32>` never yields `Undefined`; it yields a basic type exactly for basic codes (with that code) and otherwise an `Other` carrying the id |
| DataTypes.ToU32 | src/types_m68k.rs:66-76 | `TryInto<u32>` fails with invalid input exactly on `Undefined`; a basic type gives its code and an `Other` its id |
| DataTypes.ToU16 | src/types_m68k.rs:54-64 | `TryInto<u16>` succeeds exactly on basic types, with their code, and fails with invalid input otherwise |
| DataTypes.CodeRoundTrip | src/types_m68k.rs:66-165 | any 32-bit code read as a type and converted back gives the same code |
| DataTypes.TypeRoundTrip | src/types_m68k.rs:66-165 | a defined type survives conversion to its code and back exactly when it is canonical (an `Other` id that is not a basic code) |
| DataTypes.NarrowCodeAgrees | src/types_m68k.rs:54-76 | for a basic type the 16-bit and 32-bit codes agree |
| TypeRecords.Pointer.RawLength | src/types_m68k.rs:213-217 | no contract of its own: six bytes, the length `Pointer.Serialize` writes and `ParsePointer` reads |
| TypeRecords.Pointer.Serialize | src/types_m68k.rs:185-197 | writing a pointer fails exactly when its type is `Undefined`; otherwise it writes `raw_length` (6) bytes |
| TypeRecords.ParsePointer | src/types_m68k.rs:173-183 | a pointer is read exactly from six or more bytes, and its type is canonical |
| TypeRecords.PointerRoundTrip | src/types_m68k.rs:173-197 | reading what `serialize_out` writes for a pointer with a canonical type gives the pointer back, whatever follows |
| TypeRecords.PointerParseSerialize | src/types_m68k.rs:173-197 | writing a pointer read from bytes gives back the six bytes it was read from |
| TypeRecords.Array.RawLength | src/types_m68k.rs:271-275 | no contract of its own: twelve bytes, the length `Array.Serialize` writes and `ParseArray` reads |
| TypeRecords.Array.Serialize | src/types_m68k.rs:240-251 | writing an array fails exactly when its element type is `Undefined`; otherwise it writes 12 bytes |
| TypeRecords.ParseArray | src/types_m68k.rs:226-238 | an array is read exactly from twelve or more bytes, with a canonical type |
| TypeRecords.ArrayRoundTrip | src/types_m68k.rs:226-251 | reading a written array gives it back |
| TypeRecords.ArrayParseSerialize | src/types_m68k.rs:226-251 | writing an array read from bytes gives back the twelve bytes |
| TypeRecords.StructMember.RawLength | src/types_m68k.rs:308-312 | no contract of its own: twelve bytes, the length `StructMember.Serialize` writes and the struct member loop advances by |
| TypeRecords.StructMember.Serialize | src/types_m68k.rs:327-338 | writing a member fails with invalid input exactly when its type is `Undefined`; otherwise it writes 12 bytes |
| TypeRecords.ParseStructMember | src/types_m68k.rs:314-325 | a member is read exactly from twelve or more bytes, with a canonical type |
| TypeRecords.StructMemberRoundTrip | src/types_m68k.rs:314-338 | reading a written member gives it back |
| TypeRecords.StructMemberParseSerialize | src/types_m68k.rs:314-338 | writing a member read from bytes gives back its twelve bytes |
| TypeRecords.Struct.RawLength | src/types_m68k.rs:409-413 | no contract of its own: ten bytes plus the members' twelve each, the length `Struct.Serialize` writes and `StructParseSerialize` gives back |
| TypeRecords.Struct.Serialize | src/types_m68k.rs:386-401 | writing a struct succeeds exactly when its member count fits in 16 bits and every member type is defined, and then writes `raw_length` bytes |
| TypeRecords.SerializeStructMembers | src/types_m68k.rs:394-399 | the members are written, 12 bytes each, exactly when every member type is defined |
| TypeRecords.DecodeStruct | src/types_m68k.rs:361-384 | a struct read from bytes fits in them, has at most 0xFFFF members, and all member types are canonical |
| TypeRecords.StructMembersAt | src/types_m68k.rs:371-376 | `n` members are read, each with a canonical type |
| TypeRecords.ParseStruct | src/types_m68k.rs:361-384 | the member loop computes the struct the decoding function defines |
| TypeRecords.StructMembersSerializeAt | src/types_m68k.rs:394-399 | member `k` occupies bytes `12k` to `12k + 12` of the written members |
| TypeRecords.StructRoundTrip | src/types_m68k.rs:361-401 | reading a written struct with canonical member types gives it back |
| TypeRecords.StructMembersReadBack | src/types_m68k.rs:371-376 | the member loop reads back the written members in order |
| TypeRecords.StructMemberReadBack | src/types_m68k.rs:371-376 | the member at position `k` of written members reads back as member `k` |
| TypeRecords.StructParseSerialize | src/types_m68k.rs:361-401 | writing a struct read from bytes gives back the `raw_length` bytes it was read from |
| TypeRecords.EnumMember.RawLength | src/types_m68k.rs:437-441 | no contract of its own: eight bytes, the length `EnumMember.Serialize` writes |
| TypeRecords.EnumMember.Serialize | src/types_m68k.rs:454-459 | an enum member is written as `raw_length` (8) bytes |
| TypeRecords.ParseEnumMember | src/types_m68k.rs:443-452 | an enum member is read exactly from eight or more bytes |
| TypeRecords.EnumMemberRoundTrip | src/types_m68k.rs:443-459 | reading a written enum member gives it back |
| TypeRecords.EnumMemberParseSerialize | src/types_m68k.rs:443-459 | writing an enum member read from bytes gives back its eight bytes |
| TypeRecords.Enum.RawLength | src/types_m68k.rs:496-500 | no contract of its own: eight bytes plus the members' eight each, the length `Enum.Serialize` writes and `EnumParseSerialize` gives back |
| TypeRecords.Enum.Serialize | src/types_m68k.rs:502-520 | writing an enum succeeds exactly when its type is basic (its code must fit in 16 bits) and its member count fits in 16 bits, and then writes `raw_length` bytes |
| TypeRecords.SerializeEnumMembers | src/types_m68k.rs:513-518 | the members are written eight bytes each |
| TypeRecords.DecodeEnum | src/types_m68k.rs:522-556 | an enum read from bytes fits in them, has at most 0xFFFF members and a basic type; when its bytes are all there, the only failure is the bad-enum-type error |
| TypeRecords.EnumMembersAt | src/types_m68k.rs:533-543 | `n` members are read |
| TypeRecords.ParseEnum | src/types_m68k.rs:522-556 | the member loop and the type check compute the enum the decoding function defines |
| TypeRecords.EnumMembersSerializeAt | src/types_m68k.rs:513-518 | member `k` occupies bytes `8k` to `8k + 8` of the written members |
| TypeRecords.EnumRoundTrip | src/types_m68k.rs:502-556 | reading a writable enum gives it back |
| TypeRecords.EnumMembersReadBack | src/types_m68k.rs:533-543 | the member loop reads back the written members in order |
| TypeRecords.EnumMemberReadBack | src/types_m68k.rs:533-543 | the member at position `k` of written members reads back as member `k` |
| TypeRecords.EnumParseSerialize | src/types_m68k.rs:502-556 | writing an enum read from bytes gives back the `raw_length` bytes it was read from |
| TypeRecords.PascalArray.RawLength | src/types_m68k.rs:633-637 | no contract of its own: twenty bytes, the length `PascalArray.Serialize` writes |
| TypeRecords.PascalArray.Serialize | src/types_m68k.rs:573-585 | writing a Pascal array fails exactly when its element type is `Undefined`; otherwise it writes 20 bytes |
| TypeRecords.ParsePascalArray | src/types_m68k.rs:587-603 | a Pascal array is read exactly from twenty or more bytes, with a canonical element type |
| TypeRecords.PascalArrayRoundTrip | src/types_m68k.rs:573-603 | reading a written Pascal array gives it back |
| TypeRecords.PascalArrayParseSerialize | src/types_m68k.rs:573-603 | writing a Pascal array read from bytes gives back its bytes, except that the packed word becomes 0 or 1 |
| TypeRecords.PascalRange.RawLength | src/types_m68k.rs:715-719 | no contract of its own: twenty bytes, the length `PascalRange.Serialize` writes |
| TypeRecords.PascalRange.Serialize | src/types_m68k.rs:654-667 | writing a Pascal range fails exactly when its type is `Undefined`; otherwise it writes 20 bytes |
| TypeRecords.ParsePascalRange | src/types_m68k.rs:669-685 | a Pascal range is read exactly from twenty or more bytes, with a canonical type |
| TypeRecords.PascalRangeRoundTrip | src/types_m68k.rs:654-685 | reading a written Pascal range gives it back |
| TypeRecords.PascalRangeParseSerialize | src/types_m68k.rs:654-685 | writing a Pascal range read from bytes gives back its twenty bytes |
| TypeRecords.PascalSet.RawLength | src/types_m68k.rs:786-790 | no contract of its own: twelve bytes, the length `PascalSet.Serialize` writes |
| TypeRecords.PascalSet.Serialize | src/types_m68k.rs:740-752 | writing a Pascal set fails exactly when its base type is `Undefined`; otherwise it writes 12 bytes |
| TypeRecords.ParsePascalSet | src/types_m68k.rs:754-766 | a Pascal set is read exactly from twelve or more bytes, with a canonical base type |
| TypeRecords.PascalSetRoundTrip | src/types_m68k.rs:740-766 | reading a written Pascal set gives it back |
| TypeRecords.PascalSetParseSerialize | src/types_m68k.rs:740-766 | writing a Pascal set read from bytes gives back its twelve bytes |
| TypeRecords.PascalString.RawLength | src/types_m68k.rs:902-906 | no contract of its own: eight bytes, the length `PascalString.Serialize` writes |
| TypeRecords.PascalString.Serialize | src/types_m68k.rs:873-878 | a Pascal string record is written as 8 bytes |
| TypeRecords.ParsePascalString | src/types_m68k.rs:880-890 | a Pascal string record is read exactly from eight or more bytes |
| TypeRecords.PascalStringRoundTrip | src/types_m68k.rs:873-890 | reading a written Pascal string record gives it back |
| TypeRecords.PascalStringParseSerialize | src/types_m68k.rs:873-890 | writing a Pascal string record read from bytes gives back its eight bytes |
| TypeRecords.PascalEnum.RawLength | src/types_m68k.rs:855-859 | no contract of its own: eight bytes plus four per member, the length `PascalEnum.Serialize` writes |
| TypeRecords.PascalEnum.Serialize | src/types_m68k.rs:818-830 | a Pascal enum is written as `raw_length` bytes: its name, its 32-bit count, four bytes per member |
| TypeRecords.TryIntoArray | src/types_m68k.rs:837 | `try_into().unwrap()` of a slice into a fixed-size array succeeds exactly when the lengths agree, and panics otherwise |
| TypeRecords.PascalEnumMembers | src/types_m68k.rs:839-850 | `n` members are read exactly when their bytes are present |
| TypeRecords.ParsePascalEnumAsWritten | src/types_m68k.rs:832-853 | `PascalEnum::from` as written, with the count converted into a 2-byte array: its only failure is a panic (and it always fails, TypeRecords.PascalEnumAsWrittenPanics) |
| TypeRecords.DecodePascalEnum | src/types_m68k.rs:832-853 | the corrected reader, with the count read as a u32: the enum read fits in the bytes |
| TypeRecords.ParsePascalEnum | src/types_m68k.rs:832-853 | the member loop computes the enum the corrected reader defines |
| TypeRecords.PascalEnumAsWrittenPanics | src/types_m68k.rs:837 | the reader as written panics on every input |
| TypeRecords.PascalEnumAsWrittenRejectsOwnOutput | src/types_m68k.rs:818-853 | the reader as written panics on what `serialize_out` writes, while the corrected reader reads it back |
| TypeRecords.PascalEnumRoundTrip | src/types_m68k.rs:818-853 | the corrected reader reads back every written Pascal enum |
| TypeRecords.PascalEnumLayout | src/types_m68k.rs:818-830 | the written Pascal enum holds its name at 0, its count at 4 and member `k` at `8 + 4k` |
| TypeTables.OtherDataType.RawLength | src/types_m68k.rs:922-937 | no contract of its own: the record's own length for each kind; TypeTables.EncodeType writes exactly that many bytes and the table machine advances by it |
| TypeTables.TypeDefinition.RawLength | src/types_m68k.rs:945-949 | no contract of its own: two bytes more than the record, although an entry occupies six more (TypeTables.EncodedTableLength) |
| TypeTables.TypeTable.RawLength | src/types_m68k.rs:1073-1077 | no contract of its own: two bytes per entry on top of the definitions' `raw_length`s, which already count two, so four per entry in all; a written table takes two bytes per entry more (TypeTables.EncodedTableLength) |
| TypeTables.KindOfTag | src/types_m68k.rs:980-1013 | a tag selects a record kind exactly when it is 0 to 8, and that kind's tag is the tag |
| TypeTables.KindTagInverse | src/types_m68k.rs:968-1013 | every kind's tag is at most 8 and selects that kind again |
| TypeTables.StateOfTag | src/types_m68k.rs:980-1013 | `TypeParseState::try_from((tag, id))` succeeds exactly for tags 0 to 8, giving the parse state of that kind with the id; other tags give the bad-tag error |
| TypeTables.DecodeRecord | src/types_m68k.rs:1103-1139 | a record read for a kind is defined, has that kind and fits in the bytes; only the enum arm has an error of its own |
| TypeTables.DecodeCRecord | src/types_m68k.rs:1103-1119 | the pointer, array, struct and enum arms: the record has the kind asked for and fits |
| TypeTables.DecodePascalRecord | src/types_m68k.rs:1120-1139 | the Pascal arms: the record has the kind asked for and fits; every failure is a panic |
| TypeTables.ParseRecord | src/types_m68k.rs:1103-1139 | calling the looping record readers computes the record the decoding function defines |
| TypeTables.ParseTypeTable | src/types_m68k.rs:1079-1158 | the state-machine loop computes the table the machine's run defines |
| TypeTables.RunCommitsRemaining | src/types_m68k.rs:1141-1152 | a run keeps the entries already committed, in order, and commits exactly as many more as remain |
| TypeTables.TypeTableCount | src/types_m68k.rs:1084-1086 | a count of 0 gives the empty table without reading a byte; a table read has exactly `num_types` entries |
| TypeTables.TypeTableFirstEntry | src/types_m68k.rs:1096-1139 | the first entry has the id that follows the first tag, a defined type, and the kind that tag selects |
| TypeTables.BadTagPanics | src/types_m68k.rs:1096-1100 | a first tag above 8 makes `try_from(..).unwrap()` panic |
| TypeTables.EncodeType | src/types_m68k.rs:185-878 | a writable record is written as `raw_length` bytes |
| TypeTables.EncodeEntry | src/types_m68k.rs:1096-1100 | an entry is the tag, the id and the record: six bytes more than the record |
| TypeTables.RecordRoundTrip | src/types_m68k.rs:1103-1139 | the arm for a record's kind reads back the written record, whatever follows |
| TypeTables.CRecordRoundTrip | src/types_m68k.rs:1103-1119 | the pointer, array, struct and enum arms read back written records |
| TypeTables.PascalRecordRoundTrip | src/types_m68k.rs:1120-1139 | the Pascal arms read back written records |
| TypeTables.EntryStep | src/types_m68k.rs:1096-1152 | the machine reads one written entry (tag, id, record), commits it and stops when no entries remain |
| TypeTables.EntryHeader | src/types_m68k.rs:1096-1100 | the six header bytes of an entry give back its tag and id |
| TypeTables.RunEncoded | src/types_m68k.rs:1079-1158 | a run over written entries commits them all, in order, after those already committed |
| TypeTables.TypeTableRoundTrip | src/types_m68k.rs:1079-1158 | reading a written table, followed by any bytes, gives back every entry with its id and kind, in order |
| TypeTables.EncodedTableLength | src/types_m68k.rs:1073-1077 | a written table takes its `raw_length` plus two bytes per entry |
| TypeTables.DecodeRecordAsWritten | src/types_m68k.rs:1103-1139 | the record arms as written: the Pascal-enum arm (1132-1135, calling `PascalEnum::from`) always panics; every other arm is the corrected reader's |
| TypeTables.RunAsWrittenAgrees | src/types_m68k.rs:1079-1158 | outside a commit, the machine as written fails wherever the corrected machine fails; where the corrected machine reads entries, the machine as written reads the same entries, or panics when one of them is a Pascal enum |
| TypeTables.TypeTableAsWritten | src/types_m68k.rs:1079-1158 | the table reader as written equals the corrected reader on tables without a Pascal enum, panics on a table the corrected reader reads that holds one, and fails wherever the corrected reader fails |
| TypeTables.ParseTypeTableAsWritten | src/types_m68k.rs:1079-1158 | the state-machine loop with the Pascal-enum arm as written computes the table the machine as written defines |
| TypeTables.PascalEnumTagPanics | src/types_m68k.rs:1096-1135 | as written, a first entry with tag 7 makes the table read panic |
| TypeTables.TypeTableAsWrittenRoundTrip | src/types_m68k.rs:1079-1158 | as written, a written table reads back exactly when no entry is a Pascal enum, and otherwise panics |
| Symtab.ParseStatementLocation | src/symtable_m68k.rs:47-57 | a statement location is read exactly from eight or more bytes, and it ends the list exactly when its offset bytes are all `0xFF` |
| Symtab.StorageKindOf | src/symtable_m68k.rs:67-80 | a storage kind byte is accepted exactly when it is at most 2, with that code; otherwise the bad-kind error |
| Symtab.StorageClassOf | src/symtable_m68k.rs:91-106 | a storage class byte is accepted exactly when it is at most 3, with that code; otherwise the bad-class error |
| Symtab.StorageCodesInverse | src/symtable_m68k.rs:61-106 | every storage kind and class reads back from its own code |
| Symtab.ParseLocalVar | src/symtable_m68k.rs:117-133 | a local variable is read exactly from fourteen or more bytes whose kind and class bytes are valid; a bad one panics at the `unwrap`; its type is canonical |
| Symtab.RoutineTypeOf | src/symtable_m68k.rs:206-213 | routine type 0 is a procedure, 1 a function, and anything else is the bad-routine-type error |
| Symtab.StatementList | src/symtable_m68k.rs:215-222 | the statement loop reads at least one location, stops at the first one that ends the list and stays within the bytes |
| Symtab.LocalVarList | src/symtable_m68k.rs:227-234 | the local loop reads exactly the count of variables, within the bytes |
| Symtab.DecodeRoutine | src/symtable_m68k.rs:197-242 | a routine read fits in the bytes (`raw_length`), has a known type, one end-of-list location and at most 0xFFFF locals; a type above 1 is the bad-type error |
| Symtab.RoutineParts | src/symtable_m68k.rs:215-234 | the statements and locals after a routine's type fit in the bytes |
| Symtab.RoutineLocals | src/symtable_m68k.rs:224-234 | the number of locals read is the 16-bit count and they fit in the bytes |
| Symtab.ParseRoutine | src/symtable_m68k.rs:197-242 | the routine reader computes the routine the decoding function defines |
| Symtab.ParseStatements | src/symtable_m68k.rs:215-222 | the statement loop computes the list the decoding function defines |
| Symtab.ParseLocalVars | src/symtable_m68k.rs:227-234 | the local loop computes the list the decoding function defines |
| Symtab.LocalVarListStep | src/symtable_m68k.rs:227-234 | one step of the local loop: a bad variable panics, a good one is followed by the rest |
| Symtab.DefaultSymbolTable | src/symtable_m68k.rs:355-364 | the default table's `raw_length` is the 32-byte header |
| Symtab.RoutineList | src/symtable_m68k.rs:436-448 | the routine loop consumes exactly the bytes after the header: the routines' lengths add up to them |
| Symtab.Reserved | src/symtable_m68k.rs:311-314 | the reserved field is four words |
| Symtab.TypesAt | src/symtable_m68k.rs:451-456 | the type table read with the table reader as written: a zero type offset gives the empty table; any failure is a panic |
| Symtab.TypesAtIntended | src/symtable_m68k.rs:451-456 | the type table read with the corrected Pascal-enum arm: a zero type offset gives the empty table, a table read has `num_types` entries, any failure is a panic |
| Symtab.TypesAtAsWritten | src/symtable_m68k.rs:451-456 | the type table as written is the corrected one when that holds no Pascal enum, and a panic when it holds one or when the corrected read fails |
| Symtab.DecodeSymbolTable | src/symtable_m68k.rs:416-465 | the reader as written (its type table read by TypesAt, as written): a table read starts with the symbol-table magic word; a wrong magic word is the bad-magic error; any other failure is a panic |
| Symtab.ParseSymbolTable | src/symtable_m68k.rs:416-465 | the reader computes the table the decoding function defines |
| Symtab.PascalEnumTypePanics | src/symtable_m68k.rs:451-454 | a symbol table whose type table starts with a Pascal enum (tag 7) panics, whatever its routines |
| Symtab.ParseRoutines | src/symtable_m68k.rs:436-448 | the routine loop computes the list the decoding function defines |
| Symtab.RawLengthWithoutTypes | src/symtable_m68k.rs:324-329 | without a type table, a table read has no types and its `raw_length` is the number of bytes it was read from |
| Symtab.PushType | src/symtable_m68k.rs:386-388 | pushing a type through `borrow_types_mut` appends it and leaves the rest of the table unchanged (on values; the update in place is not modelled) |
| Symtab.RoutineStartStep | src/symtable_m68k.rs:398-402 | each routine begins `raw_length` bytes after the one before it |
| Symtab.RoutineStartIncreasing | src/symtable_m68k.rs:398-402 | routine starts strictly increase, so an offset starts at most one routine |
| Symtab.RoutineAtOffset | src/symtable_m68k.rs:390-405 | `routine_at_offset` returns routine `k` exactly when the offset is where routine `k` begins, and panics on every other offset |
| Symtab.StatementLocation.RawLength | src/symtable_m68k.rs:42-44 | no contract of its own: eight bytes, the length Symtab.EncodeStatement writes and the statement loop advances by |
| Symtab.LocalVar.RawLength | src/symtable_m68k.rs:152-154 | no contract of its own: fourteen bytes, the length Symtab.EncodeLocal writes and the local loop advances by |
| Symtab.Routine.RawLength | src/symtable_m68k.rs:297-309 | no contract of its own: four bytes plus its statements' and locals' lengths; Symtab.DecodeRoutine reads within it and Symtab.EncodeRoutine writes exactly it |
| Symtab.SymbolTable.RawLength | src/symtable_m68k.rs:324-329 | no contract of its own: the header, the routines and the type definitions' `raw_length`s; Symtab.RawLengthWithoutTypes and Symtab.EncodeSymbolTableWithTypes relate it to the bytes |
| Symtab.EncodeStatement | src/symtable_m68k.rs:42-44 | a statement location is written as its `raw_length` (8) bytes |
| Symtab.EncodeLocal | src/symtable_m68k.rs:152-154 | a local variable is written as its `raw_length` (14) bytes |
| Symtab.EncodeRoutine | src/symtable_m68k.rs:297-308 | a routine is written as its `raw_length` bytes |
| Symtab.StatementRoundTrip | src/symtable_m68k.rs:47-57 | reading a written statement location gives it back |
| Symtab.StatementListRoundTrip | src/symtable_m68k.rs:215-222 | the statement loop reads back written locations that end the list once, at the last |
| Symtab.LocalRoundTrip | src/symtable_m68k.rs:117-133 | reading a written local variable with a canonical type gives it back |
| Symtab.LocalVarListRoundTrip | src/symtable_m68k.rs:227-234 | the local loop reads back written variables |
| Symtab.DecodeRoutineFields | src/symtable_m68k.rs:197-242 | a routine is read from its type, its statements and its locals, when each reads back |
| Symtab.DecodeRoutineParts | src/symtable_m68k.rs:197-242 | a routine is read from the concatenation of its written type, statements, count and locals |
| Symtab.RoutineLayout | src/symtable_m68k.rs:206-225 | in a written routine the type is at 0 and the local count follows the statements |
| Symtab.RoutineRoundTrip | src/symtable_m68k.rs:197-242 | reading a written routine gives it back, whatever follows |
| Symtab.EncodeRoutines | src/symtable_m68k.rs:324-329 | written routines take the sum of their `raw_length`s |
| Symtab.RoutineListRoundTrip | src/symtable_m68k.rs:436-448 | the routine loop reads back written routines |
| Symtab.EncodeSymbolTable | src/symtable_m68k.rs:324-329 | a table without types is written as its header and routines |
| Symtab.SymbolTableRoundTrip | src/symtable_m68k.rs:416-465 | reading a written table without types gives it back |
| Symtab.SymbolTableLayout | src/symtable_m68k.rs:421-433 | a written table holds the magic word, a zero type offset and count, the unnamed count and the reserved words, then the routines |
| Symtab.EncodeHeader | src/symtable_m68k.rs:421-433 | the header the reader expects takes 32 bytes |
| Symtab.HeaderLayout | src/symtable_m68k.rs:421-433 | a written header gives back the magic word, the type offset and count, the unnamed count and the reserved words, and the bytes after it are what follows it |
| Symtab.EncodeSymbolTableWithTypes | src/symtable_m68k.rs:324-329 | a table written with its type table after its routines takes its `raw_length` plus four bytes per type: `raw_length` counts two of each entry's six header bytes |
| Symtab.TypedSymbolTableMisread | src/symtable_m68k.rs:436-454 | as written, for a table written with a non-empty type table after its routines, the routine loop reads over the type table too: any routines it reads span the routine bytes and the type table, so the table never reads back |
| Symtab.TypedSymbolTablePanics | src/symtable_m68k.rs:436-444 | as written, a table with no routines whose first type is neither a pointer nor an array panics: the type's tag is read as a routine type |
| Symtab.RoutineRegion | src/symtable_m68k.rs:436-454 | the intended routine bytes run from the end of the header to the type offset, or to the end without a type table; an offset inside the header or past the end panics |
| Symtab.DecodeSymbolTableIntended | src/symtable_m68k.rs:416-465 | the intended reader (routine loop stopping at the type offset, corrected Pascal-enum arm) is the reader as written when the type offset is 0; with a type table, the routines read end exactly at the type offset |
| Symtab.EncodedParts | src/symtable_m68k.rs:421-454 | a table written with its types gives back its header words, its routine bytes up to the type offset and its type table |
| Symtab.SymbolTableIntendedRoundTrip | src/symtable_m68k.rs:416-465 | the intended reader reads back every written table, with its routines and its type table |
| HunkKinds.Ordinal | src/code_m68k.rs:347-396 | there are 48 hunk kinds |
| HunkKinds.OrdinalKindAtLow | src/code_m68k.rs:347-372 | the first 24 positions each hold the kind at that position |
| HunkKinds.OrdinalKindAtHigh | src/code_m68k.rs:372-396 | the last 24 positions each hold the kind at that position |
| HunkKinds.KindAtOrdinal | src/code_m68k.rs:347-396 | every kind is at its own position |
| HunkKinds.Tag | src/code_m68k.rs:345-396 | every kind's discriminant lies in `0x4567` to `0x4596` |
| HunkKinds.KindOfTag | src/code_m68k.rs:445-597 | a tag names a kind exactly when it lies in `0x4567` to `0x4596`, and the kind named has that tag |
| HunkKinds.TagInverse | src/code_m68k.rs:445-597 | every kind is found again from its tag, so distinct kinds have distinct tags |
| HunkKinds.LayoutOf | src/code_m68k.rs:445-597 | no contract of its own: the parse state `HunkParseState::try_from` selects for each kind; HunkKinds.ReservedKinds and CodeHunks.DecodeHunk state its classes |
| HunkKinds.IsNamedReserved | src/code_m68k.rs:655-671 | no contract of its own: the seven kinds the reserved arm names; HunkKinds.ReservedKinds places them among the reserved-state kinds |
| HunkKinds.ReservedKinds | src/code_m68k.rs:445-680 | the reserved state is selected by exactly the seven named reserved kinds plus `HUNK_FORCE_ACTIVE` and `HUNK_CFM_INTERNAL`; every initialised-data kind selects the data state |
| CodeHunks.ObjCodeHunk.RawLength | src/code_m68k.rs:46-50 | no contract of its own: twelve bytes more than the code; CodeHunks.CodeLength ties it to the bytes a code hunk takes |
| CodeHunks.ObjCodeHunk.HasSymtab | src/code_m68k.rs:52-55 | no contract of its own: whether the symbol offset is not 0x80000000; CodeHunks.CodeSymtab ties it to the word read |
| CodeHunks.FlagOf | src/code_m68k.rs:682-687 | a code hunk gets a flag other than none exactly when the hunk before it is a CFM export, a global overload or a global multi-definition |
| CodeHunks.XRefPairsAt | src/code_m68k.rs:834-844 | the xref pair loop reads exactly the count of pairs |
| CodeHunks.ClassPairsAt | src/code_m68k.rs:1098-1108 | the class pair loop reads exactly the count of pairs |
| CodeHunks.DecodeHunk | src/code_m68k.rs:631-1131 | a hunk read has the tag's kind, fits in the bytes and follows the hunk before it; a reserved layout always fails (the reserved error for the named reserved kinds, a bad branch for the others); other failures are panics or bad branches |
| CodeHunks.DecodeBody | src/code_m68k.rs:631-1131 | each `Parse...` arm: the hunk read has the tag's kind and the arm's layout and fits in the bytes |
| CodeHunks.DecodeCode | src/code_m68k.rs:681-718 | the code arm: the hunk carries the flag of the hunk before it and its code fits; every failure is a panic |
| CodeHunks.DecodeSized | src/code_m68k.rs:720-743 | the init-code and exception-info arms read a size and that many bytes; every failure is a panic |
| CodeHunks.DecodeData | src/code_m68k.rs:745-800 | the data arm keeps its bytes only for initialised data; every failure is a panic |
| CodeHunks.DecodeXRef | src/code_m68k.rs:826-873 | the xref arm reads the name, the pair count and the pairs; every failure is a panic |
| CodeHunks.DecodeClass | src/code_m68k.rs:1090-1131 | the class arm reads the name, the method count, the pair count and the pairs; every failure is a panic |
| CodeHunks.FixedBody | src/code_m68k.rs:802-1089 | each fixed-size arm (entry, container, import, pointers, vectors, source, segment, method) gives a body of its own layout |
| CodeHunks.StateOfTag | src/code_m68k.rs:445-597 | `HunkParseState::try_from` succeeds exactly for tags `0x4567` to `0x4596`, giving the parse state of that kind with its layout; other tags give the bad-tag error |
| CodeHunks.ParseCodeHunks | src/code_m68k.rs:613-1147 | the state-machine loop computes the hunks the machine's run defines |
| CodeHunks.ParseHunk | src/code_m68k.rs:631-1131 | the arm dispatch computes what the decoding function defines |
| CodeHunks.ParseBody | src/code_m68k.rs:631-1131 | each arm computes what the decoding function defines |
| CodeHunks.ParseXRef | src/code_m68k.rs:826-873 | the xref pair loop computes what the decoding function defines |
| CodeHunks.ParseClass | src/code_m68k.rs:1090-1131 | the class pair loop computes what the decoding function defines |
| CodeHunks.WellFormedAt | src/code_m68k.rs:681-687 | in a well-formed stream every hunk fits the one before it |
| CodeHunks.RunWellFormed | src/code_m68k.rs:622-1144 | a run keeps the hunks already committed, adds at least one unless it has ended, and every hunk it adds fits the one before it |
| CodeHunks.CommitWellFormed | src/code_m68k.rs:1133-1141 | a commit pushes the hunk and what follows stays well formed |
| CodeHunks.DecodedWellFormed | src/code_m68k.rs:613-1147 | a stream read holds at least one hunk and is well formed |
| CodeHunks.WellFormedFacts | src/code_m68k.rs:681-687 | in a stream read no hunk has a reserved layout, the first hunk is not code, and each code hunk carries the flag of the hunk before it |
| CodeHunks.EmptyPanics | src/code_m68k.rs:624-626 | an empty stream panics at its first tag |
| CodeHunks.BadTagPanics | src/code_m68k.rs:624-629 | a tag outside the hunk range makes `try_from(tag).unwrap()` panic |
| CodeHunks.ReservedAborts | src/code_m68k.rs:655-680 | a reserved kind stops the read: the reserved error for the named kinds, a bad branch for the others |
| CodeHunks.CodeLength | src/code_m68k.rs:46-50 | a code hunk takes its `raw_length` plus 4 bytes of the stream |
| CodeHunks.CodeSymtab | src/code_m68k.rs:52-55 | a code hunk read carries the word at bytes 8 to 11 after its tag (code_m68k.rs:691) as its symbol offset, and has symbols exactly when that word is not 0x80000000 |
| CodeHunks.DataLength | src/code_m68k.rs:745-800 | a data hunk takes 16 bytes plus the bytes it keeps |
| CodeHunks.PairsLength | src/code_m68k.rs:826-1131 | an xref hunk takes 6 bytes and a class hunk 8 bytes, plus 8 bytes per pair |
| CodeHunks.XRefPairsRoundTrip | src/code_m68k.rs:834-844 | the xref pair loop reads back written pairs |
| CodeHunks.ClassPairsRoundTrip | src/code_m68k.rs:1098-1108 | the class pair loop reads back written pairs |
| CodeHunks.CodeRoundTrip | src/code_m68k.rs:681-718 | the code arm reads back a written code hunk whose flag is that of the hunk before it |
| CodeHunks.DataRoundTrip | src/code_m68k.rs:745-800 | the data arm reads back a written data hunk (its bytes only for initialised data) |
| CodeHunks.SizedRoundTrip | src/code_m68k.rs:720-743 | the init-code and exception-info arms read back their written bodies |
| CodeHunks.XRefRoundTrip | src/code_m68k.rs:826-873 | the xref arm reads back a written xref hunk |
| CodeHunks.ClassRoundTrip | src/code_m68k.rs:1090-1131 | the class arm reads back a written class hunk |
| CodeHunks.FixedRoundTrip | src/code_m68k.rs:802-1089 | each fixed-size arm reads back its written body |
| CodeHunks.HunkRoundTrip | src/code_m68k.rs:631-1131 | a written hunk that fits the one before it reads back, whatever follows |
| CodeHunks.BodyRoundTrip | src/code_m68k.rs:631-1131 | each arm reads back a written body, whatever follows |
| CodeHunks.RunRoundTrip | src/code_m68k.rs:622-1144 | the machine reads back a written well-formed stream after the hunks already committed |
| CodeHunks.CommitRest | src/code_m68k.rs:1133-1141 | after a commit the machine ends when the bytes are used up and otherwise reads the rest |
| CodeHunks.HunkStep | src/code_m68k.rs:624-1131 | reading a written hunk leads to the commit of that hunk |
| CodeHunks.HunksRoundTrip | src/code_m68k.rs:613-1147 | reading a written non-empty well-formed stream gives back every hunk, in order |
| Names.Hash | src/objects_m68k.rs:64-66 | a name entry's hash is the name-table hash of its name and is below `NAMEHASH` |
| Names.GetReference | src/types_m68k.rs:284-288 | `get_reference` finds nothing exactly when no name has the id, and otherwise the first entry with that id |
| Names.GetReferenceAppend | src/types_m68k.rs:284-288 | a lookup in a joined list is decided by the front part when it holds the id, and by the back part otherwise |
| Objects.FlagBits | src/objects_m68k.rs:16-24 | the flag set's bits fit in four bits |
| Objects.FlagsFromBits | src/objects_m68k.rs:258 | `from_bits` accepts exactly the values below 0x10, with those bits |
| Objects.FlagsRoundTrip | src/objects_m68k.rs:16-24 | every flag set is found again from its bits |
| Objects.NoFlags | src/objects_m68k.rs:128-151 | the empty flag set has no bits |
| Objects.DecodeHeader | src/objects_m68k.rs:247-294 | a header read is 64 bytes long, starts with `0xFEEDBEAD` and has zero reserved fields; a wrong magic word is exactly the bad-magic error; other failures are panics or the reserved error, in the order the fields are read (Objects.ReservedAndFlagsFail) |
| Objects.HeaderFields | src/objects_m68k.rs:257-294 | the header fields are read from their offsets |
| Objects.HeaderRoundTrip | src/objects_m68k.rs:247-294 | reading a written header with zero reserved fields gives it back |
| Objects.NulFrom | src/objects_m68k.rs:304 | the NUL found lies inside the window |
| Objects.NulFromFirst | src/objects_m68k.rs:304 | the NUL found is the first one in the window |
| Objects.NulFromAfter | src/objects_m68k.rs:304 | a NUL after NUL-free bytes is the one found |
| Objects.WindowEnd | src/objects_m68k.rs:304 | the name window ends at 257 bytes or the end of the bytes, whichever comes first |
| Objects.ParseNameEntry | src/objects_m68k.rs:302-320 | a name entry takes 2 bytes, the name and its NUL, within the bytes, and has the id given; every failure is a panic |
| Objects.NameEntryFacts | src/objects_m68k.rs:302-320 | the name read has no NUL, is at most 254 bytes, is followed by a NUL, and its stored hash matches (the `assert_eq!`) |
| Objects.NameList | src/objects_m68k.rs:301-322 | the name loop reads exactly the number of names remaining; every failure is a panic |
| Objects.NameListIds | src/objects_m68k.rs:300-321 | the names are numbered one after another from the first id |
| Objects.NameTable | src/objects_m68k.rs:296-326 | every failure of the name table is a panic |
| Objects.ParseNameTable | src/objects_m68k.rs:296-326 | the name table reader computes what the decoding function defines |
| Objects.ParseNameTableAt | src/objects_m68k.rs:296-326 | with a non-zero offset and count, the reader computes what the decoding function defines |
| Objects.ParseNameList | src/objects_m68k.rs:301-322 | the name loop computes the list the decoding function defines |
| Objects.NameTableIds | src/objects_m68k.rs:296-326 | a zero offset gives no names; otherwise the table holds one name less than its count, with ids 1, 2, … |
| Objects.NameRoundTrip | src/objects_m68k.rs:302-320 | reading a written name entry (NUL-free, at most 254 bytes) gives it back |
| Objects.NameListRoundTrip | src/objects_m68k.rs:301-322 | the name loop reads back written entries numbered from the first id |
| Objects.SymbolTableAt | src/objects_m68k.rs:329-338 | the embedded symbol table read by the symbol-table reader as written (so a type table holding a Pascal enum panics): a zero offset gives the default symbol table; any failure is a panic |
| Objects.HunksAt | src/objects_m68k.rs:341-348 | the hunks read are a non-empty well-formed stream; any failure is a panic |
| Objects.DefaultObject | src/objects_m68k.rs:128-151 | the default object has no names, no hunks, the default symbol table, no flags and zero version and reserved field |
| Objects.ObjectFromHeader | src/objects_m68k.rs:296-376 | after the header, an object read has a well-formed stream whose measured sizes are the header's (the `assert_eq!`s), the name table and symbol table read at the header's offsets, and the header's flags |
| Objects.ParseObject | src/objects_m68k.rs:243-377 | the object reader computes what the decoding function defines |
| Objects.ParseAfterHeader | src/objects_m68k.rs:296-376 | the reader after the header computes what the decoding function defines |
| Objects.ParseSymbolTableAt | src/objects_m68k.rs:329-338 | the symbol-table step, calling the symbol-table reader as written, computes what the decoding function defines |
| Objects.ParseHunksAt | src/objects_m68k.rs:341-348 | the hunk step computes what the decoding function defines |
| Objects.ObjectErrors | src/objects_m68k.rs:243-377 | an object read fails only with a panic, the bad-magic error or the reserved error |
| Objects.ObjectHeaderFacts | src/objects_m68k.rs:247-357 | an object read starts with the magic word, has zero reserved fields, and its flag bits are below 0x10 and are the ones stored |
| Objects.ObjectContentFacts | src/objects_m68k.rs:296-353 | an object read has names numbered from 1, a non-empty well-formed hunk stream, and sizes equal to the header's code, udata and idata sizes |
| Objects.BadMagicFails | src/objects_m68k.rs:247-255 | the read is the bad-magic error exactly when the first word is not `0xFEEDBEAD` |
| Objects.ReservedAndFlagsFail | src/objects_m68k.rs:264-357 | each reserved field is checked as soon as it is read: a non-zero `reserved1`, `reserved3` or `reserved4` is the reserved error, even in a header cut short after that field; a header cut short before the next field is read panics; undefined flag bits make the read fail |
| Library.ProcessorOf | src/mwob_library.rs:23-31 | a processor word reads as 68k or PowerPC exactly when it is that code, and as unknown otherwise |
| Library.ProcessorRoundTrip | src/mwob_library.rs:15-31 | every processor reads back from its code |
| Library.CStrAt | src/mwob_library.rs:139-143 | a C string read at a position lies in the bytes there and is followed by a NUL; every failure is a panic |
| Library.NulFromNone | src/mwob_library.rs:139 | the NUL search finds nothing exactly when the window holds no NUL |
| Library.CStrAtFacts | src/mwob_library.rs:139-143 | a C string read has no NUL; the read fails exactly when the position is past the end or no NUL follows it |
| Library.CStrRoundTrip | src/mwob_library.rs:139-143 | a NUL-free string followed by a NUL reads back |
| Library.PathAt | src/mwob_library.rs:145-153 | a zero path position gives the empty path; any failure is a panic |
| Library.EncodeDescriptor | src/mwob_library.rs:128-136 | a descriptor is written as 20 bytes |
| Library.DescriptorRoundTrip | src/mwob_library.rs:128-136 | the five descriptor words read back, whatever follows |
| Library.DecodeFile | src/mwob_library.rs:128-164 | a file read keeps the descriptor's date, its name and path are the C strings at their positions, its bytes lie inside the library and its object is the one they decode to; every failure is a panic |
| Library.FileFails | src/mwob_library.rs:139-156 | a name or a non-zero path without a terminating NUL, or object bytes past the end, make the read panic |
| Library.FileAt | src/mwob_library.rs:128-136 | fewer than 20 descriptor bytes panic |
| Library.FileList | src/mwob_library.rs:122-172 | the file loop reads exactly the number of files, with all their descriptors inside the bytes |
| Library.FileListErrors | src/mwob_library.rs:122-172 | the file loop fails only with a panic or an error of a file |
| Library.FileListNth | src/mwob_library.rs:122-172 | file `i` is the one read from descriptor `i` |
| Library.FileListStep | src/mwob_library.rs:127-166 | one step of the file loop: a failing file stops it with its error, a good one is followed by the rest |
| Library.ParseLibrary | src/mwob_library.rs:95-181 | the library reader computes what the decoding function defines |
| Library.ParseFiles | src/mwob_library.rs:122-172 | the file loop computes the list the decoding function defines |
| Library.ParseFile | src/mwob_library.rs:128-164 | one iteration computes the file the decoding function defines |
| Library.ParseFileObject | src/mwob_library.rs:163 | the nested object read computes what the object decoder defines |
| Library.LibraryErrors | src/mwob_library.rs:95-181 | a library read fails only with a panic, the bad-magic error, the bad-flags error or an object's reserved error |
| Library.LibraryErrorsFrom | src/mwob_library.rs:95-181 | a library read fails only with its own errors or those of the object decoder |
| Library.ObjectDecoderErrors | src/objects_m68k.rs:243-377 | the object decoder fails only with a panic, the bad-magic error or the reserved error |
| Library.LibraryHeaderFacts | src/mwob_library.rs:99-120 | a library read starts with `MWOB`, has zero flags, and its processor, version and file count are those stored; its descriptors lie in the bytes |
| Library.LibraryRejects | src/mwob_library.rs:99-120 | a wrong magic word is the bad-magic error, non-zero flags the bad-flags error, and a short header fails |
| Library.LibraryFiles | src/mwob_library.rs:122-172 | file `i` of a library read is the one its descriptor at `28 + 20i` describes |
| Library.EncodeLibraryHeader | src/mwob_library.rs:99-120 | the library header is 28 bytes |
| Library.LibraryHeaderRoundTrip | src/mwob_library.rs:95-181 | a library with a written header has that processor, no flags and that version, and its files are those the file loop reads from what follows (or fails with its error) |
| Library.EmptyLibraryRoundTrip | src/mwob_library.rs:122-172 | a written header with no files reads as an empty library, whatever follows |

## Left out

- Dates: the `moddate` of a library file and of a source hunk stay the raw
  32-bit Mac timestamp. The conversion in `from_mac_datetime` (util.rs:82-85)
  uses the local time zone and is not modelled.
- Text: names, file names and paths stay byte sequences. The `to_str().unwrap()`
  UTF-8 check is not modelled, so bytes that are not valid UTF-8 are accepted.
- Objects.ObjectFromHeader: the three `assert_eq!`s on the code, idata and
  udata sizes call `code_length`, `idata_length` and `udata_length`. Those are
  not part of this model, so they are a parameter `measure` of the object decoder.
- Writers: `serialize_out` writes to an `io::Write`. The model returns the
  bytes, or the error it would raise before writing anything; partial writes
  and I/O errors are not modelled.
- There is no library, object, symbol-table or hunk writer in the source. The
  encoders those round trips use describe the layout the readers expect.
- Overflow: an arithmetic overflow that a debug build would panic on, and a
  release build would wrap, is a `Panic` throughout. This covers
  `nametable_count - 1`, `symtab_offset + symtable_size`, `64 + obj_size`
  and the subtractions in `routine_at_offset`. `data_start + data_size` in
  the library reader adds two `usize` values widened from 32 bits, which can
  overflow only on a 32-bit target; the bounds check that follows panics in
  the model either way.
- Util.NametableHash: `u += *c` is modelled as wrapping modulo 256, which is
  what the hash means; a debug build would instead panic on overflow.
- `HunkType::Undefined` (code_m68k.rs:288), the final `_` arm of the hunk
  machine and the `todo!()` arm of the type-table machine (types_m68k.rs:1153)
  cannot be reached from the readers and are not modelled.
- `raw_length` of `ObjSimpleHunk` (0) is not modelled. The bytes each hunk
  occupies are stated directly (CodeHunks.CodeLength, CodeHunks.DataLength,
  CodeHunks.PairsLength).
- `Deref`, `AsRef` and `AsMut` implementations, getters, `Debug`/`Display`
  formatting and the proc-macro `NameIdFromObject` are accessors and are not
  modelled. The one mutable borrow with a stated use, `borrow_types_mut`
  followed by `push`, is Symtab.PushType.
- TypeTables.TypeTableRoundTrip: stated for records whose types are
  canonical and whose counts fit their fields (`Writable`). An `Other` id
  that is also a basic code reads back as the basic type, so such a record
  does not read back.
- Symtab.SymbolTableRoundTrip: stated for tables without a type table,
  because as written the routine loop runs to the end of the symbol table
  and reads the type table as routines (see "## Findings"); a table with
  types reads back only with Symtab.DecodeSymbolTableIntended.
- TypeTables.DecodeRecord: describes the corrected Pascal-enum arm, which reads the count as a 32-bit word; as written that arm panics (TypeTables.DecodeRecordAsWritten, TypeTables.TypeTableAsWritten).
- TypeTables.DecodePascalRecord: describes the corrected Pascal-enum arm, which reads the count as a 32-bit word; as written that arm panics (TypeTables.DecodeRecordAsWritten, TypeTables.TypeTableAsWritten).
- TypeTables.ParseRecord: describes the corrected Pascal-enum arm, which reads the count as a 32-bit word; as written that arm panics (TypeTables.DecodeRecordAsWritten, TypeTables.TypeTableAsWritten).
- TypeTables.ParseTypeTable: describes the corrected Pascal-enum arm, which reads the count as a 32-bit word; as written that arm panics (TypeTables.ParseTypeTableAsWritten, TypeTables.TypeTableAsWritten).
- TypeTables.RecordRoundTrip: describes the corrected Pascal-enum arm, which reads the count as a 32-bit word; as written that arm panics (TypeTables.DecodeRecordAsWritten, TypeTables.TypeTableAsWritten).
- TypeTables.PascalRecordRoundTrip: describes the corrected Pascal-enum arm, which reads the count as a 32-bit word; as written that arm panics (TypeTables.DecodeRecordAsWritten, TypeTables.TypeTableAsWritten).
- TypeTables.EntryStep: describes the corrected Pascal-enum arm, which reads the count as a 32-bit word; as written that arm panics (TypeTables.DecodeRecordAsWritten, TypeTables.TypeTableAsWritten).
- TypeTables.RunEncoded: describes the corrected Pascal-enum arm, which reads the count as a 32-bit word; as written that arm panics (TypeTables.DecodeRecordAsWritten, TypeTables.TypeTableAsWritten).
- TypeTables.TypeTableRoundTrip: describes the corrected Pascal-enum arm, which reads the count as a 32-bit word; as written that arm panics (TypeTables.DecodeRecordAsWritten, TypeTables.TypeTableAsWritten).

## Findings

| source | as written | input that shows it | evidently intended | confidence | as-written member | corrected member |
|---|---|---|---|---|---|---|
| src/types_m68k.rs:837 | `PascalEnum::from` reads the member count with `convert_be_u16(&data[4..8].try_into().unwrap())`, converting a 4-byte slice into a 2-byte array, which fails and panics | any input, including the bytes `serialize_out` (types_m68k.rs:818-830) writes for a Pascal enum with no members: eight zero bytes | read the count as the 32-bit word `serialize_out` writes, `convert_be_u32(&data[4..8])` | not executed | TypeRecords.PascalEnumAsWrittenPanics | TypeRecords.PascalEnumRoundTrip |
| src/types_m68k.rs:1132-1135 | the table's Pascal-enum arm calls `PascalEnum::from`, so every table holding a Pascal enum panics | a one-entry table whose entry has tag 7, such as the bytes written for a Pascal enum with no members | the arm reads the enum with the corrected reader | not executed | TypeTables.TypeTableAsWrittenRoundTrip | TypeTables.TypeTableRoundTrip |
| src/symtable_m68k.rs:436-454 | the routine loop reads from byte 32 to the end of the symbol table, over the type table at `type_offset` as well | a table with no routines and one Pascal string type at offset 32: its tag 8 is read as a routine type and the `unwrap` panics (Symtab.TypedSymbolTablePanics) | the routine loop stops at `type_offset` when there is a type table | not executed | Symtab.TypedSymbolTableMisread | Symtab.SymbolTableIntendedRoundTrip |

Both type-table readers are modelled: TypeTables.DecodeTypeTable with the
corrected Pascal enum arm, and TypeTables.DecodeTypeTableAsWritten. The
symbol-table reader of the model (Symtab.DecodeSymbolTable, used by the object
reader and so by the library reader) is the one as written in both respects:
its routine loop runs to the end, and it reads its type table with
TypeTables.DecodeTypeTableAsWritten, so a type table holding a Pascal enum
panics (Symtab.PascalEnumTypePanics). The intended one, with both corrections,
is Symtab.DecodeSymbolTableIntended.

=== FILE: code_hunks.dfy ===
/** The hunk stream of a 68k object's code section (src/code_m68k.rs,
    the hunk records, `HunkType` and `CodeHunks::try_from`).

    `CodeHunks::try_from` is a state machine run over a shrinking slice:
    read a tag, decode the record of that tag's kind, commit the hunk, and
    stop when a commit leaves no byte unread.  Reserved kinds abort the
    whole decode, and a code hunk takes a flag from the hunk committed just
    before it.
 */
module CodeHunks {
  import opened Outcomes
  import opened Util
  import opened HunkKinds

  // ---------------------------------------------------------------------
  // Hunk records
  // ---------------------------------------------------------------------

  /** `ObjCodeFlag`: what the hunk committed just before a code hunk says
      about it. */
  datatype CodeFlag = FlagNone | FlagGlobalMultiDef | FlagGlobalOverload | FlagCfmExport

  /** `ObjCodeHunk`. */
  datatype ObjCodeHunk = ObjCodeHunk(nameId: u32, symOffset: u32, symDeclOffset: u32,
                                     specialFlag: CodeFlag, code: seq<byte>)
  {
    /** `ObjCodeHunk::raw_length`: twelve bytes more than the code. */
    function RawLength(): nat { 12 + |code| }

    /** `has_symtab`: 0x80000000 in the symbol offset means no symbols. */
    predicate HasSymtab() { symOffset != 0x8000_0000 }
  }

  /** `ObjDataHunk`; the data is empty for uninitialised kinds. */
  datatype ObjDataHunk = ObjDataHunk(nameId: u32, symOffset: u32, symDeclOffset: u32, data: seq<byte>)

  datatype ObjXRefPair = ObjXRefPair(offset: u32, value: u32)

  datatype ObjXRefHunk = ObjXRefHunk(nameId: u32, pairs: seq<ObjXRefPair>)

  datatype ObjContainerHunk = ObjContainerHunk(nameId: u32, oldDefVersion: u32, oldImpVersion: u32,
                                               currentVersion: u32)

  datatype ObjClassPair = ObjClassPair(baseId: u32, bias: u32)

  datatype ObjClassHunk = ObjClassHunk(nameId: u32, methods: u16, pairs: seq<ObjClassPair>)

  /** The record a hunk carries, one alternative per decoder.  The source
      of a `SrcBreak` hunk keeps its modification date as the raw 32-bit
      word. */
  datatype HunkBody =
    | Simple
    | Code(codeHunk: ObjCodeHunk)
    | InitCode(initCode: seq<byte>)
    | Data(dataHunk: ObjDataHunk)
    | Entry(nameId: u32, entryOffset: u32)
    | XRef(xref: ObjXRefHunk)
    | ExceptInfo(info: seq<byte>)
    | Container(container: ObjContainerHunk)
    | Import(nameId: u32)
    | DataPointer(nameId: u32, dataName: u32)
    | XPointer(nameId: u32, xvectorName: u32)
    | XVector(nameId: u32, functionName: u32)
    | Source(nameId: u32, moddate: u32)
    | Segment(nameId: u32)
    | MethodRef(nameId: u32, size: u32)
    | ClassDef(classHunk: ObjClassHunk)

  /** `Hunk`: the `HunkType` variant is the kind together with its record. */
  datatype Hunk = Hunk(kind: RawHunkType, body: HunkBody)

  /** `CodeHunks`: the hunks in stream order. */
  datatype CodeHunks = CodeHunks(hunks: seq<Hunk>)

  /** The decoder that produces a record. */
  function BodyLayout(b: HunkBody): Layout
  {
    match b
    case Simple => SimpleLayout
    case Code(_) => CodeLayout
    case InitCode(_) => InitCodeLayout
    case Data(_) => DataLayout
    case Entry(_, _) => AltEntryLayout
    case XRef(_) => XRefLayout
    case ExceptInfo(_) => ExceptInfoLayout
    case Container(_) => ContainerLayout
    case Import(_) => ImportLayout
    case DataPointer(_, _) => DataPointerLayout
    case XPointer(_, _) => XPointerLayout
    case XVector(_, _) => XVectorLayout
    case Source(_, _) => SourceLayout
    case Segment(_) => SegmentLayout
    case MethodRef(_, _) => MethLayout
    case ClassDef(_) => ClassLayout
  }

  /** The flag a code hunk takes from the hunk committed before it. */
  function FlagOf(prev: Hunk): (r: CodeFlag)
    ensures r != FlagNone <==> prev.kind in {HunkCfmExport, HunkOverloadGlobal, HunkMultiDefGlobal}
  {
    match prev.kind
    case HunkCfmExport => FlagCfmExport
    case HunkOverloadGlobal => FlagGlobalOverload
    case HunkMultiDefGlobal => FlagGlobalMultiDef
    case _ => FlagNone
  }

  function Last(hunks: seq<Hunk>): Option<Hunk>
  {
    if hunks == [] then None else Some(hunks[|hunks| - 1])
  }

  // ---------------------------------------------------------------------
  // Record decoding (the `Parse...` arms)
  // ---------------------------------------------------------------------

  /** The `n` cross-reference pairs at the front of `d`. */
  function XRefPairsAt(d: seq<byte>, n: nat): (ps: seq<ObjXRefPair>)
    requires 8 * n <= |d|
    ensures |ps| == n
  {
    seq(n, k requires 0 <= k < n => ObjXRefPair(U32At(d, 8 * k), U32At(d, 8 * k + 4)))
  }

  /** The `n` class pairs at the front of `d`. */
  function ClassPairsAt(d: seq<byte>, n: nat): (ps: seq<ObjClassPair>)
    requires 8 * n <= |d|
    ensures |ps| == n
  {
    seq(n, k requires 0 <= k < n => ObjClassPair(U32At(d, 8 * k), U32At(d, 8 * k + 4)))
  }

  /** A decoded hunk and the number of bytes its record took. */
  datatype Decoded = Decoded(hunk: Hunk, length: nat)

  /** What a hunk's record may hold: the record fits the kind's decoder
      and the record's own constraints hold. */
  predicate WellFormedHunk(h: Hunk, prev: Option<Hunk>)
  {
    LayoutOf(h.kind) == BodyLayout(h.body) && RecordFits(h, prev)
  }

  /** A code hunk follows another hunk and carries the flag that hunk gives
      it, an uninitialised data hunk carries no data, and every length the
      record stores fits its field. */
  predicate RecordFits(h: Hunk, prev: Option<Hunk>)
  {
    && Storable(h.body)
    && (h.body.Code? ==> prev.Some? && h.body.codeHunk.specialFlag == FlagOf(prev.value))
    && (h.body.Data? && !IsInitializedData(h.kind) ==> h.body.dataHunk.data == [])
  }

  /** Every length a record stores fits its 32-bit or 16-bit field. */
  predicate Storable(b: HunkBody)
  {
    match b
    case Code(c) => |c.code| < 0x1_0000_0000
    case InitCode(x) => |x| < 0x1_0000_0000
    case Data(dh) => |dh.data| < 0x1_0000_0000
    case XRef(x) => |x.pairs| <= 0xFFFF
    case ExceptInfo(x) => |x| < 0x1_0000_0000
    case ClassDef(c) => |c.pairs| <= 0xFFFF
    case _ => true
  }

  /** What a record decoder promises: the hunk has the tag's kind and a
      record of the decoder's own shape, no more bytes are taken than there
      are, and the record's constraints hold. */
  predicate Decodes(r: Result<Decoded>, layout: Layout, tag: RawHunkType, d: seq<byte>, hunks: seq<Hunk>)
  {
    r.Ok? ==> r.value.length <= |d| && r.value.hunk.kind == tag
              && BodyLayout(r.value.hunk.body) == layout && RecordFits(r.value.hunk, Last(hunks))
  }

  /** The record a `Parse...` state decodes from the front of `d`, with
      `hunks` committed before it.  Every decoder reads its fields first
      and rejects a kind it does not handle last; the reserved decoder
      rejects every kind. */
  function DecodeHunk(layout: Layout, tag: RawHunkType, d: seq<byte>, hunks: seq<Hunk>): (r: Result<Decoded>)
    ensures r.Ok? ==> r.value.length <= |d| && r.value.hunk.kind == tag && LayoutOf(tag) == layout
    ensures r.Ok? ==> WellFormedHunk(r.value.hunk, Last(hunks))
    ensures layout == ReservedLayout ==> r.Err? && (r.error == ReservedHunk <==> IsNamedReserved(tag))
    ensures r.Err? ==> r.error in {Panic, BadBranch, ReservedHunk}
  {
    var dec :- DecodeBody(layout, tag, d, hunks);
    if LayoutOf(tag) != layout then Err(BadBranch) else Ok(dec)
  }

  function DecodeBody(layout: Layout, tag: RawHunkType, d: seq<byte>, hunks: seq<Hunk>): (r: Result<Decoded>)
    ensures Decodes(r, layout, tag, d, hunks)
    ensures layout == ReservedLayout ==> r.Err? && (r.error == ReservedHunk <==> IsNamedReserved(tag))
    ensures r.Err? ==> r.error in {Panic, BadBranch, ReservedHunk}
  {
    match layout
    case SimpleLayout => Ok(Decoded(Hunk(tag, Simple), 0))
    case ReservedLayout => if IsNamedReserved(tag) then Err(ReservedHunk) else Err(BadBranch)
    case CodeLayout => DecodeCode(tag, d, hunks)
    case InitCodeLayout => DecodeSized(layout, tag, d, hunks)
    case ExceptInfoLayout => DecodeSized(layout, tag, d, hunks)
    case DataLayout => DecodeData(tag, d, hunks)
    case XRefLayout => DecodeXRef(tag, d, hunks)
    case ClassLayout => DecodeClass(tag, d, hunks)
    case _ =>
      if |d| < FixedLength(layout) then Err(Panic)
      else Ok(Decoded(Hunk(tag, FixedBody(layout, d)), FixedLength(layout)))
  }

  /** `ParseObjCodeHunk`: the flag from the last committed hunk, four
      words, then `size` bytes of code. */
  function DecodeCode(tag: RawHunkType, d: seq<byte>, hunks: seq<Hunk>): (r: Result<Decoded>)
    ensures Decodes(r, CodeLayout, tag, d, hunks)
    ensures r.Err? ==> r.error == Panic
  {
    if hunks == [] then Err(Panic)  // `hunks.last().unwrap()`
    else if |d| < 16 || |d| < 16 + U32At(d, 4) then Err(Panic)
    else
      var size := U32At(d, 4);
      var c := ObjCodeHunk(U32At(d, 0), U32At(d, 8), U32At(d, 12), FlagOf(hunks[|hunks| - 1]), d[16..16 + size]);
      Ok(Decoded(Hunk(tag, Code(c)), 16 + size))
  }

  /** `ParseInitCodeHunk` and `ParseExceptInfoHunk`: a size word, then
      that many bytes. */
  function DecodeSized(layout: Layout, tag: RawHunkType, d: seq<byte>, hunks: seq<Hunk>): (r: Result<Decoded>)
    requires layout == InitCodeLayout || layout == ExceptInfoLayout
    ensures Decodes(r, layout, tag, d, hunks)
    ensures r.Err? ==> r.error == Panic
  {
    if |d| < 4 || |d| < 4 + U32At(d, 0) then Err(Panic)
    else
      var bytes := d[4..4 + U32At(d, 0)];
      Ok(Decoded(Hunk(tag, if layout == InitCodeLayout then InitCode(bytes) else ExceptInfo(bytes)), 4 + U32At(d, 0)))
  }

  /** `ParseDataHunk`: four words, then `size` bytes for an initialised
      kind and nothing for an uninitialised one, whose size is dropped. */
  function DecodeData(tag: RawHunkType, d: seq<byte>, hunks: seq<Hunk>): (r: Result<Decoded>)
    ensures Decodes(r, DataLayout, tag, d, hunks)
    ensures r.Err? ==> r.error == Panic
  {
    if |d| < 16 then Err(Panic)
    else if !IsInitializedData(tag) then
      Ok(Decoded(Hunk(tag, Data(ObjDataHunk(U32At(d, 0), U32At(d, 8), U32At(d, 12), []))), 16))
    else if |d| < 16 + U32At(d, 4) then Err(Panic)
    else
      var size := U32At(d, 4);
      Ok(Decoded(Hunk(tag, Data(ObjDataHunk(U32At(d, 0), U32At(d, 8), U32At(d, 12), d[16..16 + size]))), 16 + size))
  }

  /** `ParseXRefHunk`: a name id, a 16-bit pair count, then the pairs. */
  function DecodeXRef(tag: RawHunkType, d: seq<byte>, hunks: seq<Hunk>): (r: Result<Decoded>)
    ensures Decodes(r, XRefLayout, tag, d, hunks)
    ensures r.Err? ==> r.error == Panic
  {
    if |d| < 6 || |d| < 6 + 8 * U16At(d, 4) then Err(Panic)
    else
      var n := U16At(d, 4);
      Ok(Decoded(Hunk(tag, XRef(ObjXRefHunk(U32At(d, 0), XRefPairsAt(d[6..], n)))), 6 + 8 * n))
  }

  /** `ParseObjClassHunk`: a name id, a 16-bit method count, a 16-bit pair
      count, then the pairs. */
  function DecodeClass(tag: RawHunkType, d: seq<byte>, hunks: seq<Hunk>): (r: Result<Decoded>)
    ensures Decodes(r, ClassLayout, tag, d, hunks)
    ensures r.Err? ==> r.error == Panic
  {
    if |d| < 8 || |d| < 8 + 8 * U16At(d, 6) then Err(Panic)
    else
      var n := U16At(d, 6);
      Ok(Decoded(Hunk(tag, ClassDef(ObjClassHunk(U32At(d, 0), U16At(d, 4), ClassPairsAt(d[8..], n)))), 8 + 8 * n))
  }

  /** The layouts whose records are one to four words. */
  predicate IsFixed(layout: Layout)
  {
    layout in {AltEntryLayout, ContainerLayout, ImportLayout, DataPointerLayout, XPointerLayout,
               XVectorLayout, SourceLayout, SegmentLayout, MethLayout}
  }

  /** The record of a fixed-size layout, read from the words at the front
      of `d`. */
  function FixedBody(layout: Layout, d: seq<byte>): (b: HunkBody)
    requires IsFixed(layout) && |d| >= FixedLength(layout)
    ensures BodyLayout(b) == layout
  {
    match layout
    case AltEntryLayout => Entry(U32At(d, 0), U32At(d, 4))
    case ContainerLayout => Container(ObjContainerHunk(U32At(d, 0), U32At(d, 4), U32At(d, 8), U32At(d, 12)))
    case ImportLayout => Import(U32At(d, 0))
    case DataPointerLayout => DataPointer(U32At(d, 0), U32At(d, 4))
    case XPointerLayout => XPointer(U32At(d, 0), U32At(d, 4))
    case XVectorLayout => XVector(U32At(d, 0), U32At(d, 4))
    case SourceLayout => Source(U32At(d, 0), U32At(d, 4))
    case SegmentLayout => Segment(U32At(d, 0))
    case MethLayout => MethodRef(U32At(d, 0), U32At(d, 4))
  }

  /** The size of a fixed-size record. */
  function FixedLength(layout: Layout): nat
  {
    match layout
    case ContainerLayout => 16
    case ImportLayout => 4
    case SegmentLayout => 4
    case _ => 8
  }

  // ---------------------------------------------------------------------
  // The state machine (`HunkParseState`, `CodeHunks::try_from`)
  // ---------------------------------------------------------------------

  /** `HunkParseState`: the `Parse...` states are one state carrying the
      decoder it selects. */
  datatype HunkParseState =
    | ParseTag
    | ParseRecord(layout: Layout, tag: RawHunkType)
    | CommitHunk(hunk: Hunk)
    | End

  /** `HunkParseState::try_from(u16)`: a tag of the table selects its kind's
      decoder; any other 16-bit value is refused. */
  function StateOfTag(tag: u16): (r: Result<HunkParseState>)
    ensures r.Ok? <==> 0x4567 <= tag <= 0x4596
    ensures r.Ok? ==> r.value.ParseRecord? && Tag(r.value.tag) == tag
                      && r.value.layout == LayoutOf(r.value.tag)
    ensures r.Err? ==> r.error == BadHunkTag
  {
    match KindOfTag(tag)
    case None => Err(BadHunkTag)
    case Some(k) => Ok(ParseRecord(LayoutOf(k), k))
  }

  /** How many steps a state is from reading more input. */
  function Rank(state: HunkParseState): nat
  {
    match state
    case ParseRecord(_, _) => 2
    case CommitHunk(_) => 1
    case _ => 0
  }

  /** The loop of `CodeHunks::try_from`, from `state` with `data` unread and
      `hunks` committed: the hunks once the machine reaches `End`. */
  function Run(state: HunkParseState, data: seq<byte>, hunks: seq<Hunk>): Result<seq<Hunk>>
    decreases |data|, Rank(state)
  {
    match state
    case End => Ok(hunks)
    case ParseTag =>
      if |data| < 2 then Err(Panic)
      else
        var next :- Unwrap(StateOfTag(U16At(data, 0)));
        Run(next, data[2..], hunks)
    case ParseRecord(layout, tag) =>
      var dec :- DecodeHunk(layout, tag, data, hunks);
      Run(CommitHunk(dec.hunk), data[dec.length..], hunks)
    case CommitHunk(h) =>
      Run(if |data| == 0 then End else ParseTag, data, hunks + [h])
  }

  /** `CodeHunks::try_from(&[u8])`. */
  function DecodeCodeHunks(value: seq<byte>): (r: Result<CodeHunks>)
  {
    var hunks :- Run(ParseTag, value, []);
    Ok(CodeHunks(hunks))
  }

  /** `CodeHunks::try_from`, as the source runs it: a loop over the state,
      with `data` shrinking as records are read. */
  method ParseCodeHunks(value: seq<byte>) returns (r: Result<CodeHunks>)
    ensures r == DecodeCodeHunks(value)
  {
    var data := value;
    var hunks: seq<Hunk> := [];
    var state := ParseTag;
    while state != End
      invariant Run(state, data, hunks) == Run(ParseTag, value, [])
      decreases |data|, Rank(state)
    {
      match state {
        case ParseTag =>
          if |data| < 2 {
            return Err(Panic);
          }
          var tag := U16At(data, 0);
          data := data[2..];
          var next := StateOfTag(tag);
          if next.Err? {
            return Err(Panic);  // `.unwrap()`
          }
          state := next.value;
        case ParseRecord(layout, tag) =>
          var dec := ParseHunk(layout, tag, data, hunks);
          if dec.Err? {
            return Err(dec.error);
          }
          state := CommitHunk(dec.value.hunk);
          data := data[dec.value.length..];
        case CommitHunk(h) =>
          hunks := hunks + [h];
          state := if |data| == 0 then End else ParseTag;
      }
    }
    return Ok(CodeHunks(hunks));
  }

  /** One `Parse...` arm: the record, then the check that the decoder
      handles the tag's kind. */
  method ParseHunk(layout: Layout, tag: RawHunkType, d: seq<byte>, hunks: seq<Hunk>) returns (r: Result<Decoded>)
    ensures r == DecodeHunk(layout, tag, d, hunks)
  {
    var body := ParseBody(layout, tag, d, hunks);
    if body.Err? {
      return Err(body.error);
    }
    if LayoutOf(tag) != layout {
      return Err(BadBranch);
    }
    return body;
  }

  /** The record of one `Parse...` arm: the cross-reference and class
      records read their pairs in a loop; the other records are a few
      fixed reads. */
  method ParseBody(layout: Layout, tag: RawHunkType, d: seq<byte>, hunks: seq<Hunk>) returns (r: Result<Decoded>)
    ensures r == DecodeBody(layout, tag, d, hunks)
  {
    if layout == XRefLayout {
      r := ParseXRef(tag, d, hunks);
    } else if layout == ClassLayout {
      r := ParseClass(tag, d, hunks);
    } else {
      r := DecodeBody(layout, tag, d, hunks);
    }
  }

  /** The pair at index `i` of a run starting at `off` is read the same
      from the run and from the bytes left once `i` pairs are consumed. */
  lemma PairWordsAt(d: seq<byte>, off: nat, i: nat)
    requires off + 8 * i + 8 <= |d|
    ensures U32At(d[off + 8 * i..], 0) == U32At(d[off..], 8 * i)
    ensures U32At(d[off + 8 * i..], 4) == U32At(d[off..], 8 * i + 4)
  {
    assert d[off + 8 * i..][0..4] == d[off..][8 * i..8 * i + 4];
    assert d[off + 8 * i..][4..8] == d[off..][8 * i + 4..8 * i + 8];
  }

  /** `ParseXRefHunk`: the pairs are read one at a time, each read
      panicking when fewer than eight bytes are left. */
  method ParseXRef(tag: RawHunkType, d: seq<byte>, hunks: seq<Hunk>) returns (r: Result<Decoded>)
    ensures r == DecodeXRef(tag, d, hunks)
  {
    if |d| < 6 {
      return Err(Panic);
    }
    var nameId := U32At(d, 0);
    var n := U16At(d, 4);
    var data := d[6..];
    var pairs: seq<ObjXRefPair> := [];
    var i := 0;
    while i < n
      invariant 0 <= i <= n && 6 + 8 * i <= |d|
      invariant data == d[6 + 8 * i..]
      invariant pairs == XRefPairsAt(d[6..], i)
    {
      if |data| < 8 {
        return Err(Panic);
      }
      var pair := ObjXRefPair(U32At(data, 0), U32At(data, 4));
      PairWordsAt(d, 6, i);
      pairs := pairs + [pair];
      data := data[8..];
      i := i + 1;
    }
    return Ok(Decoded(Hunk(tag, XRef(ObjXRefHunk(nameId, pairs))), 6 + 8 * n));
  }

  /** `ParseObjClassHunk`: the pairs are read one at a time, like the
      cross-reference pairs. */
  method ParseClass(tag: RawHunkType, d: seq<byte>, hunks: seq<Hunk>) returns (r: Result<Decoded>)
    ensures r == DecodeClass(tag, d, hunks)
  {
    if |d| < 8 {
      return Err(Panic);
    }
    var nameId := U32At(d, 0);
    var methods := U16At(d, 4);
    var n := U16At(d, 6);
    var data := d[8..];
    var pairs: seq<ObjClassPair> := [];
    var i := 0;
    while i < n
      invariant 0 <= i <= n && 8 + 8 * i <= |d|
      invariant data == d[8 + 8 * i..]
      invariant pairs == ClassPairsAt(d[8..], i)
    {
      if |data| < 8 {
        return Err(Panic);
      }
      var pair := ObjClassPair(U32At(data, 0), U32At(data, 4));
      PairWordsAt(d, 8, i);
      pairs := pairs + [pair];
      data := data[8..];
      i := i + 1;
    }
    return Ok(Decoded(Hunk(tag, ClassDef(ObjClassHunk(nameId, methods, pairs))), 8 + 8 * n));
  }

  // ---------------------------------------------------------------------
  // What a decoded stream holds
  // ---------------------------------------------------------------------

  /** Every hunk of `hs` is well formed given the hunk before it, the
      first given `prev`. */
  predicate WellFormedAfter(prev: Option<Hunk>, hs: seq<Hunk>)
    decreases |hs|
  {
    hs == [] || (WellFormedHunk(hs[0], prev) && WellFormedAfter(Some(hs[0]), hs[1..]))
  }

  /** A stream whose every hunk is well formed given the one before it. */
  predicate WellFormedHunks(hs: seq<Hunk>)
  {
    WellFormedAfter(None, hs)
  }

  /** The hunk at index `i` is well formed given its predecessor. */
  lemma {:induction false} WellFormedAt(prev: Option<Hunk>, hs: seq<Hunk>, i: nat)
    requires WellFormedAfter(prev, hs) && i < |hs|
    ensures WellFormedHunk(hs[i], if i == 0 then prev else Some(hs[i - 1]))
    decreases i
  {
    if i > 0 {
      WellFormedAt(Some(hs[0]), hs[1..], i - 1);
      if i > 1 {
        assert hs[1..][i - 2] == hs[i - 1];
      }
    }
  }

  /** Nothing wrong in a state: a hunk waiting to be committed is well
      formed given the hunks committed before it. */
  predicate StateFits(state: HunkParseState, hunks: seq<Hunk>)
  {
    state.CommitHunk? ==> WellFormedHunk(state.hunk, Last(hunks))
  }

  /** A run that succeeds keeps the hunks already committed, commits at
      least one more unless it starts at `End`, and the hunks it commits are
      each well formed given the one committed before. */
  lemma {:induction false} RunWellFormed(state: HunkParseState, data: seq<byte>, hunks: seq<Hunk>)
    requires StateFits(state, hunks)
    requires Run(state, data, hunks).Ok?
    ensures var res := Run(state, data, hunks).value;
            && |hunks| <= |res| && res == hunks + res[|hunks|..]
            && (state != End ==> |hunks| < |res|)
            && WellFormedAfter(Last(hunks), res[|hunks|..])
    decreases |data|, Rank(state), 1
  {
    match state
    case End =>
      assert Run(state, data, hunks).value[|hunks|..] == [];
    case ParseTag =>
      var next := Unwrap(StateOfTag(U16At(data, 0))).value;
      RunWellFormed(next, data[2..], hunks);
    case ParseRecord(layout, tag) =>
      var dec := DecodeHunk(layout, tag, data, hunks).value;
      RunWellFormed(CommitHunk(dec.hunk), data[dec.length..], hunks);
    case CommitHunk(h) =>
      CommitWellFormed(h, data, hunks);
  }

  /** The commit step of `RunWellFormed`. */
  lemma {:induction false} CommitWellFormed(h: Hunk, data: seq<byte>, hunks: seq<Hunk>)
    requires WellFormedHunk(h, Last(hunks))
    requires Run(CommitHunk(h), data, hunks).Ok?
    ensures var res := Run(CommitHunk(h), data, hunks).value;
            && |hunks| < |res| && res == hunks + res[|hunks|..]
            && WellFormedAfter(Last(hunks), res[|hunks|..])
    decreases |data|, 1, 0
  {
    var more := hunks + [h];
    var after := if |data| == 0 then End else ParseTag;
    assert Run(CommitHunk(h), data, hunks) == Run(after, data, more);
    RunWellFormed(after, data, more);
    var res := Run(after, data, more).value;
    var added := res[|more|..];
    assert res[|hunks|..] == [h] + added by {
      assert res == hunks + ([h] + added);
    }
    assert ([h] + added)[1..] == added;
    assert Last(more) == Some(h);
  }

  /** A decoded stream holds at least one hunk, and every hunk is well
      formed given the one before it. */
  lemma DecodedWellFormed(value: seq<byte>)
    requires DecodeCodeHunks(value).Ok?
    ensures DecodeCodeHunks(value).value.hunks != []
    ensures WellFormedHunks(DecodeCodeHunks(value).value.hunks)
  {
    RunWellFormed(ParseTag, value, []);
    var res := Run(ParseTag, value, []).value;
    assert res[0..] == res;
  }

  /** What well-formedness says about a stream: no reserved kind, a first
      hunk that is not code, and every code hunk carrying the flag of the
      hunk before it. */
  lemma WellFormedFacts(hs: seq<Hunk>)
    requires hs != [] && WellFormedHunks(hs)
    ensures forall i | 0 <= i < |hs| :: LayoutOf(hs[i].kind) != ReservedLayout
    ensures !hs[0].body.Code?
    ensures forall i | 0 < i < |hs| && hs[i].body.Code? :: hs[i].body.codeHunk.specialFlag == FlagOf(hs[i - 1])
  {
    forall i | 0 <= i < |hs|
      ensures LayoutOf(hs[i].kind) != ReservedLayout
      ensures i > 0 && hs[i].body.Code? ==> hs[i].body.codeHunk.specialFlag == FlagOf(hs[i - 1])
    {
      WellFormedAt(None, hs, i);
    }
    WellFormedAt(None, hs, 0);
  }

  /** The empty input panics: there is no tag to read. */
  lemma EmptyPanics()
    ensures DecodeCodeHunks([]) == Err(Panic)
  {
  }

  /** A tag outside the table panics, at whatever point of the stream it
      is met (`HunkParseState::try_from(tag).unwrap()`). */
  lemma BadTagPanics(tag: u16, rest: seq<byte>, hunks: seq<Hunk>)
    requires tag < 0x4567 || tag > 0x4596
    ensures Run(ParseTag, U16Bytes(tag) + rest, hunks) == Err(Panic)
  {
    U16AtBytes([], tag, rest);
    assert [] + U16Bytes(tag) + rest == U16Bytes(tag) + rest;
  }

  /** A reserved kind aborts the decode with nothing committed for it:
      the seven named reserved kinds report a reserved hunk, and the two
      kinds the reserved decoder does not list report a bad branch. */
  lemma ReservedAborts(k: RawHunkType, rest: seq<byte>, hunks: seq<Hunk>)
    requires LayoutOf(k) == ReservedLayout
    ensures Run(ParseTag, U16Bytes(Tag(k)) + rest, hunks)
            == Err(if IsNamedReserved(k) then ReservedHunk else BadBranch)
  {
    U16AtBytes([], Tag(k), rest);
    assert [] + U16Bytes(Tag(k)) + rest == U16Bytes(Tag(k)) + rest;
    TagInverse(k);
  }

  /** A code hunk takes four bytes more than its `raw_length` says: the
      size word is read but not counted. */
  lemma CodeLength(layout: Layout, tag: RawHunkType, d: seq<byte>, hunks: seq<Hunk>)
    requires DecodeHunk(layout, tag, d, hunks).Ok?
    requires DecodeHunk(layout, tag, d, hunks).value.hunk.body.Code?
    ensures var dec := DecodeHunk(layout, tag, d, hunks).value;
            dec.length == dec.hunk.body.codeHunk.RawLength() + 4
  {
  }

  /** A code hunk read carries the symbol-offset word of its record (bytes
      8 to 11 after the tag), and has symbols exactly when that word is not
      0x80000000. */
  lemma CodeSymtab(layout: Layout, tag: RawHunkType, d: seq<byte>, hunks: seq<Hunk>)
    requires DecodeHunk(layout, tag, d, hunks).Ok?
    requires DecodeHunk(layout, tag, d, hunks).value.hunk.body.Code?
    ensures |d| >= 16
    ensures var c := DecodeHunk(layout, tag, d, hunks).value.hunk.body.codeHunk;
            c.symOffset == U32At(d, 8) && (c.HasSymtab() <==> U32At(d, 8) != 0x8000_0000)
  {
    assert layout == CodeLayout;
  }

  /** A data hunk takes sixteen bytes and its data, for initialised and
      uninitialised kinds alike (the latter hold no data and skip none). */
  lemma DataLength(layout: Layout, tag: RawHunkType, d: seq<byte>, hunks: seq<Hunk>)
    requires DecodeHunk(layout, tag, d, hunks).Ok?
    requires DecodeHunk(layout, tag, d, hunks).value.hunk.body.Data?
    ensures var dec := DecodeHunk(layout, tag, d, hunks).value;
            dec.length == 16 + |dec.hunk.body.dataHunk.data|
  {
  }

  /** A cross-reference hunk takes six bytes and eight per pair; a class
      hunk takes eight bytes and eight per pair. */
  lemma PairsLength(layout: Layout, tag: RawHunkType, d: seq<byte>, hunks: seq<Hunk>)
    requires DecodeHunk(layout, tag, d, hunks).Ok?
    ensures var dec := DecodeHunk(layout, tag, d, hunks).value;
            && (dec.hunk.body.XRef? ==> dec.length == 6 + 8 * |dec.hunk.body.xref.pairs|)
            && (dec.hunk.body.ClassDef? ==> dec.length == 8 + 8 * |dec.hunk.body.classHunk.pairs|)
  {
  }

  // ---------------------------------------------------------------------
  // Writing hunks back (the record layouts the decoders read)
  // ---------------------------------------------------------------------

  /** The words of a run of cross-reference pairs: offset, then value. */
  function XRefWords(ps: seq<ObjXRefPair>): (ws: seq<u32>)
    ensures |ws| == 2 * |ps|
  {
    seq(2 * |ps|, i requires 0 <= i < 2 * |ps| => if i % 2 == 0 then ps[i / 2].offset else ps[i / 2].value)
  }

  /** The words of a run of class pairs: base id, then bias. */
  function ClassWords(ps: seq<ObjClassPair>): (ws: seq<u32>)
    ensures |ws| == 2 * |ps|
  {
    seq(2 * |ps|, i requires 0 <= i < 2 * |ps| => if i % 2 == 0 then ps[i / 2].baseId else ps[i / 2].bias)
  }

  /** The words of a fixed-size record, in field order. */
  function FixedWords(b: HunkBody): (ws: seq<u32>)
    requires IsFixed(BodyLayout(b))
    ensures |ws| * 4 == FixedLength(BodyLayout(b))
  {
    match b
    case Entry(a, o) => [a, o]
    case Container(c) => [c.nameId, c.oldDefVersion, c.oldImpVersion, c.currentVersion]
    case Import(a) => [a]
    case DataPointer(a, n) => [a, n]
    case XPointer(a, n) => [a, n]
    case XVector(a, n) => [a, n]
    case Source(a, m) => [a, m]
    case Segment(a) => [a]
    case MethodRef(a, n) => [a, n]
  }

  /** The bytes of a record, laid out as its decoder reads them.  An
      uninitialised data hunk stores a zero size. */
  function EncodeBody(b: HunkBody): seq<byte>
    requires Storable(b)
  {
    match b
    case Simple => []
    case Code(c) => WordsBytes([c.nameId, |c.code|, c.symOffset, c.symDeclOffset]) + c.code
    case InitCode(x) => WordsBytes([|x|]) + x
    case Data(dh) => WordsBytes([dh.nameId, |dh.data|, dh.symOffset, dh.symDeclOffset]) + dh.data
    case XRef(x) => U32Bytes(x.nameId) + (U16Bytes(|x.pairs|) + WordsBytes(XRefWords(x.pairs)))
    case ExceptInfo(x) => WordsBytes([|x|]) + x
    case ClassDef(c) =>
      U32Bytes(c.nameId) + (U16Bytes(c.methods) + (U16Bytes(|c.pairs|) + WordsBytes(ClassWords(c.pairs))))
    case _ => WordsBytes(FixedWords(b))
  }

  /** A hunk: its 16-bit tag, then its record. */
  function EncodeHunk(h: Hunk): seq<byte>
    requires Storable(h.body)
  {
    U16Bytes(Tag(h.kind)) + EncodeBody(h.body)
  }

  /** A stream of hunks, back to back. */
  function EncodeHunks(hs: seq<Hunk>): seq<byte>
    requires forall i | 0 <= i < |hs| :: Storable(hs[i].body)
  {
    if hs == [] then [] else EncodeHunk(hs[0]) + EncodeHunks(hs[1..])
  }

  // ---------------------------------------------------------------------
  // Round trips
  // ---------------------------------------------------------------------

  lemma {:induction false} XRefPairsRoundTrip(ps: seq<ObjXRefPair>, rest: seq<byte>)
    ensures XRefPairsAt(WordsBytes(XRefWords(ps)) + rest, |ps|) == ps
  {
    var d := WordsBytes(XRefWords(ps)) + rest;
    forall k | 0 <= k < |ps|
      ensures XRefPairsAt(d, |ps|)[k] == ps[k]
    {
      assert (2 * k) % 2 == 0 && (2 * k) / 2 == k && (2 * k + 1) % 2 == 1 && (2 * k + 1) / 2 == k;
      assert XRefWords(ps)[2 * k] == ps[k].offset && XRefWords(ps)[2 * k + 1] == ps[k].value;
      WordsAt(XRefWords(ps), rest, 2 * k);
      WordsAt(XRefWords(ps), rest, 2 * k + 1);
    }
  }

  lemma {:induction false} ClassPairsRoundTrip(ps: seq<ObjClassPair>, rest: seq<byte>)
    ensures ClassPairsAt(WordsBytes(ClassWords(ps)) + rest, |ps|) == ps
  {
    var d := WordsBytes(ClassWords(ps)) + rest;
    forall k | 0 <= k < |ps|
      ensures ClassPairsAt(d, |ps|)[k] == ps[k]
    {
      assert (2 * k) % 2 == 0 && (2 * k) / 2 == k && (2 * k + 1) % 2 == 1 && (2 * k + 1) / 2 == k;
      assert ClassWords(ps)[2 * k] == ps[k].baseId && ClassWords(ps)[2 * k + 1] == ps[k].bias;
      WordsAt(ClassWords(ps), rest, 2 * k);
      WordsAt(ClassWords(ps), rest, 2 * k + 1);
    }
  }

  /** Four header words, then a run of bytes, then anything. */
  lemma {:induction false} FourWordsThen(ws: seq<u32>, x: seq<byte>, rest: seq<byte>)
    requires |ws| == 4
    ensures var d := WordsBytes(ws) + x + rest;
            && U32At(d, 0) == ws[0] && U32At(d, 4) == ws[1]
            && U32At(d, 8) == ws[2] && U32At(d, 12) == ws[3]
            && d[16..16 + |x|] == x
  {
    var d := WordsBytes(ws) + x + rest;
    assert d == WordsBytes(ws) + (x + rest);
    WordsAt(ws, x + rest, 0);
    WordsAt(ws, x + rest, 1);
    WordsAt(ws, x + rest, 2);
    WordsAt(ws, x + rest, 3);
  }

  lemma {:induction false} CodeRoundTrip(tag: RawHunkType, c: ObjCodeHunk, hunks: seq<Hunk>, rest: seq<byte>)
    requires hunks != [] && c.specialFlag == FlagOf(hunks[|hunks| - 1]) && |c.code| < 0x1_0000_0000
    ensures DecodeCode(tag, EncodeBody(Code(c)) + rest, hunks)
            == Ok(Decoded(Hunk(tag, Code(c)), |EncodeBody(Code(c))|))
  {
    FourWordsThen([c.nameId, |c.code|, c.symOffset, c.symDeclOffset], c.code, rest);
  }

  lemma {:induction false} DataRoundTrip(tag: RawHunkType, dh: ObjDataHunk, hunks: seq<Hunk>, rest: seq<byte>)
    requires |dh.data| < 0x1_0000_0000
    requires !IsInitializedData(tag) ==> dh.data == []
    ensures DecodeData(tag, EncodeBody(Data(dh)) + rest, hunks)
            == Ok(Decoded(Hunk(tag, Data(dh)), |EncodeBody(Data(dh))|))
  {
    FourWordsThen([dh.nameId, |dh.data|, dh.symOffset, dh.symDeclOffset], dh.data, rest);
  }

  lemma {:induction false} SizedRoundTrip(layout: Layout, tag: RawHunkType, b: HunkBody, hunks: seq<Hunk>,
                                          rest: seq<byte>)
    requires b.InitCode? || b.ExceptInfo?
    requires layout == BodyLayout(b) && Storable(b)
    ensures DecodeSized(layout, tag, EncodeBody(b) + rest, hunks) == Ok(Decoded(Hunk(tag, b), |EncodeBody(b)|))
  {
    var x := if b.InitCode? then b.initCode else b.info;
    assert EncodeBody(b) == WordsBytes([|x|]) + x;
    SizeThen(x, rest);
  }

  /** A size word, then that many bytes, then anything. */
  lemma {:induction false} SizeThen(x: seq<byte>, rest: seq<byte>)
    requires |x| < 0x1_0000_0000
    ensures var d := WordsBytes([|x|]) + x + rest;
            && |d| >= 4 + |x| && U32At(d, 0) == |x| && d[4..4 + |x|] == x
  {
    var d := WordsBytes([|x|]) + x + rest;
    assert d == WordsBytes([|x|]) + (x + rest);
    WordsAt([|x|], x + rest, 0);
  }

  /** The head of a cross-reference record: a name id and a count. */
  lemma {:induction false} XRefHead(nameId: u32, n: u16, tail: seq<byte>)
    ensures var d := U32Bytes(nameId) + (U16Bytes(n) + tail);
            U32At(d, 0) == nameId && U16At(d, 4) == n && d[6..] == tail
  {
    var d := U32Bytes(nameId) + (U16Bytes(n) + tail);
    assert d[0..4] == U32Bytes(nameId);
    U32RoundTrip(nameId);
    U16Field(U32Bytes(nameId), n, tail);
  }

  /** The head of a class record: a name id and two counts. */
  lemma {:induction false} ClassHead(nameId: u32, methods: u16, n: u16, tail: seq<byte>)
    ensures var d := U32Bytes(nameId) + (U16Bytes(methods) + (U16Bytes(n) + tail));
            U32At(d, 0) == nameId && U16At(d, 4) == methods && U16At(d, 6) == n && d[8..] == tail
  {
    var d := U32Bytes(nameId) + (U16Bytes(methods) + (U16Bytes(n) + tail));
    XRefHead(nameId, methods, U16Bytes(n) + tail);
    assert d == (U32Bytes(nameId) + U16Bytes(methods)) + (U16Bytes(n) + tail);
    U16Field(U32Bytes(nameId) + U16Bytes(methods), n, tail);
  }

  lemma {:induction false} XRefRoundTrip(tag: RawHunkType, x: ObjXRefHunk, hunks: seq<Hunk>, rest: seq<byte>)
    requires |x.pairs| <= 0xFFFF
    ensures DecodeXRef(tag, EncodeBody(XRef(x)) + rest, hunks)
            == Ok(Decoded(Hunk(tag, XRef(x)), |EncodeBody(XRef(x))|))
  {
    var pairs := WordsBytes(XRefWords(x.pairs));
    assert EncodeBody(XRef(x)) + rest == U32Bytes(x.nameId) + (U16Bytes(|x.pairs|) + (pairs + rest));
    XRefHead(x.nameId, |x.pairs|, pairs + rest);
    XRefPairsRoundTrip(x.pairs, rest);
  }

  lemma {:induction false} ClassRoundTrip(tag: RawHunkType, c: ObjClassHunk, hunks: seq<Hunk>, rest: seq<byte>)
    requires |c.pairs| <= 0xFFFF
    ensures DecodeClass(tag, EncodeBody(ClassDef(c)) + rest, hunks)
            == Ok(Decoded(Hunk(tag, ClassDef(c)), |EncodeBody(ClassDef(c))|))
  {
    var pairs := WordsBytes(ClassWords(c.pairs));
    assert EncodeBody(ClassDef(c)) + rest
           == U32Bytes(c.nameId) + (U16Bytes(c.methods) + (U16Bytes(|c.pairs|) + (pairs + rest)));
    ClassHead(c.nameId, c.methods, |c.pairs|, pairs + rest);
    ClassPairsRoundTrip(c.pairs, rest);
  }

  lemma {:induction false} FixedRoundTrip(b: HunkBody, rest: seq<byte>)
    requires IsFixed(BodyLayout(b))
    ensures |EncodeBody(b)| == FixedLength(BodyLayout(b))
    ensures FixedBody(BodyLayout(b), EncodeBody(b) + rest) == b
  {
    var ws := FixedWords(b);
    var d := EncodeBody(b) + rest;
    assert d == WordsBytes(ws) + rest;
    WordsAt(ws, rest, 0);
    if |ws| > 1 {
      WordsAt(ws, rest, 1);
    }
    if |ws| > 2 {
      WordsAt(ws, rest, 2);
      WordsAt(ws, rest, 3);
    }
  }

  /** A well-formed hunk's record is read back by its kind's decoder, which
      takes exactly the bytes written. */
  lemma {:induction false} HunkRoundTrip(h: Hunk, hunks: seq<Hunk>, rest: seq<byte>)
    requires WellFormedHunk(h, Last(hunks))
    ensures DecodeHunk(LayoutOf(h.kind), h.kind, EncodeBody(h.body) + rest, hunks)
            == Ok(Decoded(h, |EncodeBody(h.body)|))
  {
    assert DecodeBody(LayoutOf(h.kind), h.kind, EncodeBody(h.body) + rest, hunks)
           == Ok(Decoded(h, |EncodeBody(h.body)|)) by {
      BodyRoundTrip(h, hunks, rest);
    }
  }

  lemma {:induction false} BodyRoundTrip(h: Hunk, hunks: seq<Hunk>, rest: seq<byte>)
    requires WellFormedHunk(h, Last(hunks))
    ensures DecodeBody(BodyLayout(h.body), h.kind, EncodeBody(h.body) + rest, hunks)
            == Ok(Decoded(h, |EncodeBody(h.body)|))
  {
    match h.body
    case Simple =>
    case Code(c) => CodeRoundTrip(h.kind, c, hunks, rest);
    case InitCode(_) => SizedRoundTrip(InitCodeLayout, h.kind, h.body, hunks, rest);
    case ExceptInfo(_) => SizedRoundTrip(ExceptInfoLayout, h.kind, h.body, hunks, rest);
    case Data(dh) => DataRoundTrip(h.kind, dh, hunks, rest);
    case XRef(x) => XRefRoundTrip(h.kind, x, hunks, rest);
    case ClassDef(c) => ClassRoundTrip(h.kind, c, hunks, rest);
    case _ => FixedRoundTrip(h.body, rest);
  }

  /** A stream of well-formed hunks, each well formed given the one before
      it (the first given the hunks already committed), is read back in
      full by the state machine. */
  lemma {:induction false} RunRoundTrip(done: seq<Hunk>, hs: seq<Hunk>)
    requires hs != [] && WellFormedAfter(Last(done), hs)
    ensures forall i | 0 <= i < |hs| :: Storable(hs[i].body)
    ensures Run(ParseTag, EncodeHunks(hs), done) == Ok(done + hs)
    decreases |hs|, 0
  {
    WellFormedStorable(Last(done), hs);
    var h := hs[0];
    var tail := EncodeHunks(hs[1..]);
    assert EncodeHunks(hs) == EncodeHunk(h) + tail;
    HunkStep(h, tail, done);
    CommitRest(done, h, hs[1..]);
    AppendHead(done, hs);
  }

  /** After the commit of `h`, the rest of the stream is read back. */
  lemma {:induction false} CommitRest(done: seq<Hunk>, h: Hunk, tl: seq<Hunk>)
    requires WellFormedAfter(Some(h), tl)
    ensures forall i | 0 <= i < |tl| :: Storable(tl[i].body)
    ensures Run(CommitHunk(h), EncodeHunks(tl), done) == Ok(done + [h] + tl)
    decreases |tl|, 1
  {
    WellFormedStorable(Some(h), tl);
    if tl == [] {
      assert Run(CommitHunk(h), [], done) == Run(End, [], done + [h]);
      assert done + [h] + [] == done + [h];
    } else {
      assert |EncodeHunks(tl)| != 0 by {
        assert EncodeHunks(tl) == EncodeHunk(tl[0]) + EncodeHunks(tl[1..]);
      }
      assert Run(CommitHunk(h), EncodeHunks(tl), done) == Run(ParseTag, EncodeHunks(tl), done + [h]);
      assert Last(done + [h]) == Some(h);
      RunRoundTrip(done + [h], tl);
    }
  }

  /** A well-formed hunk's lengths fit their fields. */
  lemma {:induction false} WellFormedStorable(prev: Option<Hunk>, hs: seq<Hunk>)
    requires WellFormedAfter(prev, hs)
    ensures forall i | 0 <= i < |hs| :: Storable(hs[i].body)
    decreases |hs|
  {
    if hs != [] {
      WellFormedStorable(Some(hs[0]), hs[1..]);
      assert forall i | 1 <= i < |hs| :: hs[i] == hs[1..][i - 1];
    }
  }

  /** One hunk written and read back: the machine reaches the commit of
      that hunk with exactly the bytes after it left. */
  lemma {:induction false} HunkStep(h: Hunk, rest: seq<byte>, done: seq<Hunk>)
    requires WellFormedHunk(h, Last(done))
    ensures Run(ParseTag, EncodeHunk(h) + rest, done) == Run(CommitHunk(h), rest, done)
  {
    var body := EncodeBody(h.body);
    var d := EncodeHunk(h) + rest;
    assert d == U16Bytes(Tag(h.kind)) + (body + rest);
    U16Field([], Tag(h.kind), body + rest);
    assert [] + d == d;
    TagInverse(h.kind);
    assert Run(ParseTag, d, done) == Run(ParseRecord(LayoutOf(h.kind), h.kind), body + rest, done);
    HunkRoundTrip(h, done, rest);
    assert (body + rest)[|body|..] == rest;
  }

  /** `CodeHunks::try_from` reads back every non-empty stream of
      well-formed hunks it could have produced. */
  lemma HunksRoundTrip(hs: seq<Hunk>)
    requires hs != [] && WellFormedHunks(hs)
    ensures forall i | 0 <= i < |hs| :: Storable(hs[i].body)
    ensures DecodeCodeHunks(EncodeHunks(hs)) == Ok(CodeHunks(hs))
  {
    RunRoundTrip([], hs);
    assert [] + hs == hs;
  }
}

=== FILE: data_types.dfy ===
/** The data-type codes of the CodeWarrior debug records (src/types_m68k.rs,
    `DataType` and `BasicDataType`).

    A 32-bit type code names either one of the 27 built-in basic types (codes
    0 to 17 and 100 to 108) or, for any other value, a type defined in the
    type table of the symbol table.
 */
module DataTypes {
  import opened Outcomes
  import opened Util

  datatype BasicDataType =
    | BasicTypeVoid | BasicTypePstring | BasicTypeUlong | BasicTypeLong
    | BasicTypeFloat10 | BasicTypeBoolean | BasicTypeUbyte | BasicTypeByte
    | BasicTypeChar | BasicTypeWchar | BasicTypeUword | BasicTypeWord
    | BasicTypeFloat4 | BasicTypeFloat8 | BasicTypeFloat12 | BasicTypeComp
    | BasicTypeCstring | BasicTypeAIstring
    | MyBasicTypeVoidPtr | MyBasicTypeVoidHdl | MyBasicTypeCharPtr
    | MyBasicTypeCharHdl | MyBasicTypeUcharPtr | MyBasicTypeUcharHdl
    | MyBasicTypeFunc | MyBasicTypeStringPtr | MyBasicTypePstringPtr

  /** `DataType`: `Undefined` is never produced by a decoder; it is what a
      record holds before a type is assigned. */
  datatype DataType = Undefined | Basic(basic: BasicDataType) | Other(id: u32)

  /** The `#[repr(u16)]` discriminant of a basic type. */
  function BasicCode(b: BasicDataType): u16
  {
    match b
    case BasicTypeVoid => 0
    case BasicTypePstring => 1
    case BasicTypeUlong => 2
    case BasicTypeLong => 3
    case BasicTypeFloat10 => 4
    case BasicTypeBoolean => 5
    case BasicTypeUbyte => 6
    case BasicTypeByte => 7
    case BasicTypeChar => 8
    case BasicTypeWchar => 9
    case BasicTypeUword => 10
    case BasicTypeWord => 11
    case BasicTypeFloat4 => 12
    case BasicTypeFloat8 => 13
    case BasicTypeFloat12 => 14
    case BasicTypeComp => 15
    case BasicTypeCstring => 16
    case BasicTypeAIstring => 17
    case MyBasicTypeVoidPtr => 100
    case MyBasicTypeVoidHdl => 101
    case MyBasicTypeCharPtr => 102
    case MyBasicTypeCharHdl => 103
    case MyBasicTypeUcharPtr => 104
    case MyBasicTypeUcharHdl => 105
    case MyBasicTypeFunc => 106
    case MyBasicTypeStringPtr => 107
    case MyBasicTypePstringPtr => 108
  }

  /** The codes that name a basic type. */
  predicate IsBasicCode(v: int)
  {
    0 <= v <= 17 || 100 <= v <= 108
  }

  /** The guard chain of `From<u32> for DataType`: the basic type whose
      discriminant is `v`, if there is one. */
  function BasicOfCode(v: u32): (r: Option<BasicDataType>)
    ensures r.Some? <==> IsBasicCode(v)
    ensures r.Some? ==> BasicCode(r.value) == v
  {
    if v <= 17 then Some(LowBasic(v))
    else if 100 <= v <= 108 then Some(HighBasic(v))
    else None
  }

  /** The basic C types, codes 0 to 17. */
  function LowBasic(v: u32): (r: BasicDataType)
    requires v <= 17
    ensures BasicCode(r) == v
  {
    match v
    case 0 => BasicTypeVoid
    case 1 => BasicTypePstring
    case 2 => BasicTypeUlong
    case 3 => BasicTypeLong
    case 4 => BasicTypeFloat10
    case 5 => BasicTypeBoolean
    case 6 => BasicTypeUbyte
    case 7 => BasicTypeByte
    case 8 => BasicTypeChar
    case 9 => BasicTypeWchar
    case 10 => BasicTypeUword
    case 11 => BasicTypeWord
    case 12 => BasicTypeFloat4
    case 13 => BasicTypeFloat8
    case 14 => BasicTypeFloat12
    case 15 => BasicTypeComp
    case 16 => BasicTypeCstring
    case _ => BasicTypeAIstring
  }

  /** The pointer and handle types, codes 100 to 108. */
  function HighBasic(v: u32): (r: BasicDataType)
    requires 100 <= v <= 108
    ensures BasicCode(r) == v
  {
    match v
    case 100 => MyBasicTypeVoidPtr
    case 101 => MyBasicTypeVoidHdl
    case 102 => MyBasicTypeCharPtr
    case 103 => MyBasicTypeCharHdl
    case 104 => MyBasicTypeUcharPtr
    case 105 => MyBasicTypeUcharHdl
    case 106 => MyBasicTypeFunc
    case 107 => MyBasicTypeStringPtr
    case _ => MyBasicTypePstringPtr
  }

  /** Every basic type is found again from its discriminant, so distinct
      basic types have distinct codes. */
  lemma BasicCodeInverse(b: BasicDataType)
    ensures IsBasicCode(BasicCode(b))
    ensures BasicOfCode(BasicCode(b)) == Some(b)
  {
  }

  /** `DataType::from(u32)`: codes 0-17 and 100-108 give a basic type, every
      other code gives `Other` carrying the code itself. */
  function FromU32(v: u32): (r: DataType)
    ensures r != Undefined
    ensures r.Basic? <==> IsBasicCode(v)
    ensures r.Basic? ==> BasicCode(r.basic) == v
    ensures r.Other? ==> r.id == v
  {
    match BasicOfCode(v)
    case Some(b) => Basic(b)
    case None => Other(v)
  }

  /** `TryInto<u32> for DataType`: fails only for `Undefined`. */
  function ToU32(t: DataType): (r: Result<u32>)
    ensures r.Err? <==> t.Undefined?
    ensures r.Err? ==> r.error == InvalidInput
    ensures t.Basic? ==> r == Ok(BasicCode(t.basic))
    ensures t.Other? ==> r == Ok(t.id)
  {
    match t
    case Undefined => Err(InvalidInput)
    case Basic(b) => Ok(BasicCode(b))
    case Other(id) => Ok(id)
  }

  /** `TryInto<u16> for DataType`: only a basic type has a 16-bit code. */
  function ToU16(t: DataType): (r: Result<u16>)
    ensures r.Ok? <==> t.Basic?
    ensures r.Err? ==> r.error == InvalidInput
    ensures t.Basic? ==> r.value == BasicCode(t.basic)
  {
    match t
    case Basic(b) => Ok(BasicCode(b))
    case _ => Err(InvalidInput)
  }

  /** A type that `FromU32` can produce: defined, and an `Other` only for a
      code that is not a basic one. */
  predicate Canonical(t: DataType)
  {
    match t
    case Undefined => false
    case Basic(_) => true
    case Other(id) => !IsBasicCode(id)
  }

  /** Decoding a code and converting the result back yields the code: no
      32-bit value is lost by `DataType::from`. */
  lemma CodeRoundTrip(v: u32)
    ensures Canonical(FromU32(v))
    ensures ToU32(FromU32(v)) == Ok(v)
  {
  }

  /** Conversely, a canonical type survives being written as a code and read
      back; a non-canonical `Other(v)` (one with a basic code) is read back as
      the basic type. */
  lemma TypeRoundTrip(t: DataType)
    requires t != Undefined
    ensures Canonical(t) <==> FromU32(ToU32(t).value) == t
  {
    if t.Basic? {
      BasicCodeInverse(t.basic);
    }
  }

  /** The 16-bit and the 32-bit codes of a basic type agree. */
  lemma NarrowCodeAgrees(t: DataType)
    requires t.Basic?
    ensures ToU32(t) == Ok(ToU16(t).value)
  {
  }
}

=== FILE: hunk_kinds.dfy ===
/** The hunk kinds of a 68k object's code section (src/code_m68k.rs,
    `RawHunkType` and `HunkParseState::try_from(u16)`).

    Every hunk starts with a 16-bit big-endian tag.  The 48 tags are the
    consecutive values 0x4567 to 0x4596, one per kind, and each kind is read
    by one of seventeen record decoders (the `Parse...` states).
 */
module HunkKinds {
  import opened Outcomes
  import opened Util

  /** `RawHunkType`, in discriminant order. */
  datatype RawHunkType =
    | HunkStart | HunkEnd | HunkLocalCode | HunkGlobalCode
    | HunkLocalUdata | HunkGlobalUdata | HunkLocalIdata | HunkGlobalIdata
    | HunkLocalFarUdata | HunkGlobalFarUdata | HunkLocalFarIdata | HunkGlobalFarIdata
    | HunkXRefCodeJT16Bit | HunkXRefData16Bit | HunkXRef32Bit | HunkLibraryBreak
    | HunkGlobalEntry | HunkLocalEntry | HunkDiff8Bit | HunkDiff16Bit
    | HunkDiff32Bit | HunkSegment | HunkInitCode | HunkDeInitCode
    | HunkMultiDefGlobal | HunkOverloadGlobal | HunkXRefCode16Bit | HunkXRefCode32Bit
    | HunkForceActive | HunkGlobalDataPointer | HunkGlobalXPointer | HunkGlobalXVector
    | HunkXRefPCRel32Bit | HunkIllegal1 | HunkIllegal2 | HunkCfmExport
    | HunkCfmImport | HunkCfmImportContainer | HunkSrcBreak | HunkLocalDataPointer
    | HunkLocalXPointer | HunkLocalXVector | HunkExceptionInfo | HunkCfmInternal
    | HunkMethodRef | HunkMethodClassDef | HunkXRefAmbiguous16Bit | HunkWeakImportContainer

  /** The position of a kind in `RawHunkType`. */
  function Ordinal(k: RawHunkType): (i: nat)
    ensures i < 48
  {
    match k
    case HunkStart => 0
    case HunkEnd => 1
    case HunkLocalCode => 2
    case HunkGlobalCode => 3
    case HunkLocalUdata => 4
    case HunkGlobalUdata => 5
    case HunkLocalIdata => 6
    case HunkGlobalIdata => 7
    case HunkLocalFarUdata => 8
    case HunkGlobalFarUdata => 9
    case HunkLocalFarIdata => 10
    case HunkGlobalFarIdata => 11
    case HunkXRefCodeJT16Bit => 12
    case HunkXRefData16Bit => 13
    case HunkXRef32Bit => 14
    case HunkLibraryBreak => 15
    case HunkGlobalEntry => 16
    case HunkLocalEntry => 17
    case HunkDiff8Bit => 18
    case HunkDiff16Bit => 19
    case HunkDiff32Bit => 20
    case HunkSegment => 21
    case HunkInitCode => 22
    case HunkDeInitCode => 23
    case HunkMultiDefGlobal => 24
    case HunkOverloadGlobal => 25
    case HunkXRefCode16Bit => 26
    case HunkXRefCode32Bit => 27
    case HunkForceActive => 28
    case HunkGlobalDataPointer => 29
    case HunkGlobalXPointer => 30
    case HunkGlobalXVector => 31
    case HunkXRefPCRel32Bit => 32
    case HunkIllegal1 => 33
    case HunkIllegal2 => 34
    case HunkCfmExport => 35
    case HunkCfmImport => 36
    case HunkCfmImportContainer => 37
    case HunkSrcBreak => 38
    case HunkLocalDataPointer => 39
    case HunkLocalXPointer => 40
    case HunkLocalXVector => 41
    case HunkExceptionInfo => 42
    case HunkCfmInternal => 43
    case HunkMethodRef => 44
    case HunkMethodClassDef => 45
    case HunkXRefAmbiguous16Bit => 46
    case HunkWeakImportContainer => 47
  }

  /** The kind at a position. */
  function KindAt(i: nat): RawHunkType
    requires i < 48
  {
    if i < 24 then KindAtLow(i) else KindAtHigh(i)
  }

  function KindAtLow(i: nat): RawHunkType
    requires i < 24
  {
    match i
    case 0 => HunkStart
    case 1 => HunkEnd
    case 2 => HunkLocalCode
    case 3 => HunkGlobalCode
    case 4 => HunkLocalUdata
    case 5 => HunkGlobalUdata
    case 6 => HunkLocalIdata
    case 7 => HunkGlobalIdata
    case 8 => HunkLocalFarUdata
    case 9 => HunkGlobalFarUdata
    case 10 => HunkLocalFarIdata
    case 11 => HunkGlobalFarIdata
    case 12 => HunkXRefCodeJT16Bit
    case 13 => HunkXRefData16Bit
    case 14 => HunkXRef32Bit
    case 15 => HunkLibraryBreak
    case 16 => HunkGlobalEntry
    case 17 => HunkLocalEntry
    case 18 => HunkDiff8Bit
    case 19 => HunkDiff16Bit
    case 20 => HunkDiff32Bit
    case 21 => HunkSegment
    case 22 => HunkInitCode
    case 23 => HunkDeInitCode
    case _ => HunkDeInitCode
  }

  function KindAtHigh(i: nat): RawHunkType
    requires 24 <= i < 48
  {
    match i
    case 24 => HunkMultiDefGlobal
    case 25 => HunkOverloadGlobal
    case 26 => HunkXRefCode16Bit
    case 27 => HunkXRefCode32Bit
    case 28 => HunkForceActive
    case 29 => HunkGlobalDataPointer
    case 30 => HunkGlobalXPointer
    case 31 => HunkGlobalXVector
    case 32 => HunkXRefPCRel32Bit
    case 33 => HunkIllegal1
    case 34 => HunkIllegal2
    case 35 => HunkCfmExport
    case 36 => HunkCfmImport
    case 37 => HunkCfmImportContainer
    case 38 => HunkSrcBreak
    case 39 => HunkLocalDataPointer
    case 40 => HunkLocalXPointer
    case 41 => HunkLocalXVector
    case 42 => HunkExceptionInfo
    case 43 => HunkCfmInternal
    case 44 => HunkMethodRef
    case 45 => HunkMethodClassDef
    case 46 => HunkXRefAmbiguous16Bit
    case 47 => HunkWeakImportContainer
    case _ => HunkWeakImportContainer
  }

  lemma OrdinalKindAtLow(i: nat)
    requires i < 24
    ensures Ordinal(KindAtLow(i)) == i
  {
  }

  lemma OrdinalKindAtHigh(i: nat)
    requires 24 <= i < 48
    ensures Ordinal(KindAtHigh(i)) == i
  {
  }

  lemma KindAtOrdinal(k: RawHunkType)
    ensures KindAt(Ordinal(k)) == k
  {
    var i := Ordinal(k);
    if i < 12 {
      KindAtOrdinalIn(k, 0);
    } else if i < 24 {
      KindAtOrdinalIn(k, 12);
    } else if i < 36 {
      KindAtOrdinalIn(k, 24);
    } else {
      KindAtOrdinalIn(k, 36);
    }
  }

  /** The inverse, for the kinds in one block of twelve positions. */
  lemma KindAtOrdinalIn(k: RawHunkType, lo: nat)
    requires lo in {0, 12, 24, 36} && lo <= Ordinal(k) < lo + 12
    ensures KindAt(Ordinal(k)) == k
  {
  }

  /** The `repr(u16)` discriminant of a kind: `HUNK_START` is 0x4567 and
      every later kind is one more than the one before it. */
  function Tag(k: RawHunkType): (t: u16)
    ensures 0x4567 <= t <= 0x4596
  {
    0x4567 + Ordinal(k)
  }

  /** The guard chain of `HunkParseState::try_from(u16)`: the kind whose
      discriminant is `tag`, if there is one. */
  function KindOfTag(tag: u16): (r: Option<RawHunkType>)
    ensures r.Some? <==> 0x4567 <= tag <= 0x4596
    ensures r.Some? ==> Tag(r.value) == tag
  {
    if 0x4567 <= tag <= 0x4596 then
      var i := tag - 0x4567;
      if i < 24 then OrdinalKindAtLow(i); Some(KindAt(i))
      else OrdinalKindAtHigh(i); Some(KindAt(i))
    else None
  }

  /** Every kind is found again from its tag, so distinct kinds have
      distinct tags. */
  lemma TagInverse(k: RawHunkType)
    ensures KindOfTag(Tag(k)) == Some(k)
  {
    KindAtOrdinal(k);
  }

  /** The record decoders of the hunk stream, one per `Parse...` state. */
  datatype Layout =
    | SimpleLayout | CodeLayout | InitCodeLayout | DataLayout
    | AltEntryLayout | XRefLayout | ExceptInfoLayout | ContainerLayout
    | ImportLayout | DataPointerLayout | XPointerLayout | XVectorLayout
    | SourceLayout | SegmentLayout | MethLayout | ClassLayout
    | ReservedLayout

  /** The `Parse...` state `HunkParseState::try_from` selects for a kind. */
  function LayoutOf(k: RawHunkType): Layout
  {
    match k
    case HunkStart | HunkEnd | HunkMultiDefGlobal | HunkOverloadGlobal | HunkCfmExport => SimpleLayout
    case HunkLocalCode | HunkGlobalCode => CodeLayout
    case HunkInitCode => InitCodeLayout
    case HunkLocalUdata | HunkGlobalUdata | HunkLocalIdata | HunkGlobalIdata | HunkLocalFarUdata | HunkGlobalFarUdata | HunkLocalFarIdata | HunkGlobalFarIdata => DataLayout
    case HunkGlobalEntry | HunkLocalEntry => AltEntryLayout
    case HunkXRefCodeJT16Bit | HunkXRefData16Bit | HunkXRef32Bit | HunkXRefCode16Bit | HunkXRefCode32Bit | HunkXRefPCRel32Bit | HunkXRefAmbiguous16Bit => XRefLayout
    case HunkExceptionInfo => ExceptInfoLayout
    case HunkCfmImportContainer | HunkWeakImportContainer => ContainerLayout
    case HunkCfmImport => ImportLayout
    case HunkGlobalDataPointer | HunkLocalDataPointer => DataPointerLayout
    case HunkGlobalXPointer | HunkLocalXPointer => XPointerLayout
    case HunkGlobalXVector | HunkLocalXVector => XVectorLayout
    case HunkSrcBreak => SourceLayout
    case HunkSegment => SegmentLayout
    case HunkMethodRef => MethLayout
    case HunkMethodClassDef => ClassLayout
    case HunkLibraryBreak | HunkDiff8Bit | HunkDiff16Bit | HunkDiff32Bit | HunkDeInitCode | HunkForceActive | HunkIllegal1 | HunkIllegal2 | HunkCfmInternal => ReservedLayout
  }

  /** The kinds the reserved-hunk decoder names; the other two kinds it is
      sent (`HUNK_FORCE_ACTIVE`, `HUNK_CFM_INTERNAL`) fall through to its
      bad-branch arm. */
  predicate IsNamedReserved(k: RawHunkType)
  {
    k in {HunkLibraryBreak, HunkDiff8Bit, HunkDiff16Bit, HunkDiff32Bit, HunkDeInitCode,
          HunkIllegal1, HunkIllegal2}
  }

  /** The reserved state is selected by the seven named reserved kinds and
      by `HUNK_FORCE_ACTIVE` and `HUNK_CFM_INTERNAL`, and by no other kind;
      every initialised-data kind selects the data state. */
  lemma ReservedKinds(k: RawHunkType)
    ensures LayoutOf(k) == ReservedLayout <==> IsNamedReserved(k) || k in {HunkForceActive, HunkCfmInternal}
    ensures IsInitializedData(k) ==> LayoutOf(k) == DataLayout
  {
  }

  /** The initialised-data kinds, whose hunks carry their bytes. */
  predicate IsInitializedData(k: RawHunkType)
  {
    k in {HunkLocalIdata, HunkGlobalIdata, HunkLocalFarIdata, HunkGlobalFarIdata}
  }
}

=== FILE: library.dfy ===
/** Metrowerks static libraries (src/mwob_library.rs).

    A library starts with a 28-byte header: the magic word "MWOB", the
    processor, a flags word that must be zero, a version, eight bytes the
    reader skips and the number of files.  Then come one 20-byte descriptor
    per file: the file's modification date, the offsets of its NUL-terminated
    name and full path, and the offset and size of its object.  All offsets
    are from the start of the library.  Each object is decoded as a
    `MetrowerksObject`.
 */
module Library {
  import opened Outcomes
  import opened Util
  import Objects
  import CodeHunks

  /** `LibraryMagicWord`: "MWOB". */
  const LIBRARY_MAGIC: u32 := 0x4d57_4f42

  /** The processor words: "PPC " and "M68K". */
  const PROC_POWERPC: u32 := 0x5050_4320
  const PROC_M68K: u32 := 0x4d36_384b

  /** The header and descriptor sizes. */
  const LIBRARY_HEADER_SIZE: nat := 28
  const DESCRIPTOR_SIZE: nat := 20

  datatype LibraryProcessor = Unknown | PowerPC | M68k

  /** `LibraryFlags`: the only flags value a library may have. */
  datatype LibraryFlags = FlagsNone

  /** `FileObject`.  The modification date is kept as the classic Mac OS
      timestamp the descriptor holds; names are the bytes before the NUL. */
  datatype FileObject = FileObject(moddate: u32, fileName: seq<byte>, fullPath: seq<byte>,
                                   obj: Objects.MetrowerksObject)

  /** `MetroWerksLibrary`; its files are what it dereferences to. */
  datatype MetroWerksLibrary = MetroWerksLibrary(proc: LibraryProcessor, flags: LibraryFlags, version: u32,
                                                 files: seq<FileObject>)

  // ---------------------------------------------------------------------
  // The processor (`LibraryProcessor`)
  // ---------------------------------------------------------------------

  /** The `#[repr(u32)]` discriminant of a processor. */
  function ProcessorCode(p: LibraryProcessor): u32
  {
    match p
    case Unknown => 0
    case PowerPC => PROC_POWERPC
    case M68k => PROC_M68K
  }

  /** `From<u32> for LibraryProcessor`: the two known words, and `Unknown`
      for every other. */
  function ProcessorOf(v: u32): (p: LibraryProcessor)
    ensures p == M68k <==> v == PROC_M68K
    ensures p == PowerPC <==> v == PROC_POWERPC
  {
    if v == PROC_M68K then M68k
    else if v == PROC_POWERPC then PowerPC
    else Unknown
  }

  /** Every processor is read back from its discriminant, `Unknown`
      included. */
  lemma ProcessorRoundTrip(p: LibraryProcessor)
    ensures ProcessorOf(ProcessorCode(p)) == p
  {
  }

  // ---------------------------------------------------------------------
  // Strings (`CStr::from_bytes_until_nul(&value[loc..]).unwrap()`)
  // ---------------------------------------------------------------------

  /** The NUL-terminated string at `loc`: an offset past the end or a
      missing NUL panics. */
  function CStrAt(value: seq<byte>, loc: nat): (r: Result<seq<byte>>)
    ensures r.Ok? ==> loc + |r.value| < |value| && value[loc..loc + |r.value|] == r.value
                      && value[loc + |r.value|] == 0
    ensures r.Err? ==> r.error == Panic
  {
    if loc > |value| then Err(Panic)
    else
      match Objects.NulFrom(value, loc, |value|)
      case None => Err(Panic)
      case Some(n) => Ok(value[loc..n])
  }

  /** No NUL is found where the bytes from `i` on hold none. */
  lemma {:induction false} NulFromNone(b: seq<byte>, i: nat, end: nat)
    requires i <= end <= |b|
    ensures Objects.NulFrom(b, i, end).None? <==> Objects.NulFree(b[i..end])
    decreases end - i
  {
    if i < end {
      NulFromNone(b, i + 1, end);
      var s := b[i..end];
      assert s[0] == b[i];
      assert s[1..] == b[i + 1..end];
      if b[i] != 0 && Objects.NulFree(s[1..]) {
        forall j | 0 <= j < |s| ensures s[j] != 0 {
          if j > 0 {
            assert s[j] == s[1..][j - 1];
          }
        }
      }
    }
  }

  /** The string read holds no NUL, and reading fails exactly when the
      offset is past the end or no NUL follows it. */
  lemma CStrAtFacts(value: seq<byte>, loc: nat)
    ensures CStrAt(value, loc).Ok? ==> Objects.NulFree(CStrAt(value, loc).value)
    ensures CStrAt(value, loc).Err? <==> loc > |value| || Objects.NulFree(value[loc..])
  {
    if loc <= |value| {
      Objects.NulFromFirst(value, loc, |value|);
      NulFromNone(value, loc, |value|);
    }
  }

  /** A string without NUL, stored with its NUL at `|p|`, is read back
      whatever surrounds it. */
  lemma CStrRoundTrip(p: seq<byte>, s: seq<byte>, q: seq<byte>)
    requires Objects.NulFree(s)
    ensures CStrAt(p + s + [0] + q, |p|) == Ok(s)
  {
    var b := p + s + [0] + q;
    assert b[|p|..|p| + |s|] == s;
    Objects.NulFromAfter(b, |p|, |b|, |s|);
  }

  /** The full path: offset 0 means no path. */
  function PathAt(value: seq<byte>, loc: nat): (r: Result<seq<byte>>)
    ensures loc == 0 ==> r == Ok([])
    ensures r.Err? ==> r.error == Panic
  {
    if loc == 0 then Ok([]) else CStrAt(value, loc)
  }

  // ---------------------------------------------------------------------
  // File descriptors
  // ---------------------------------------------------------------------

  /** The five words of a file descriptor. */
  datatype Descriptor = Descriptor(moddate: u32, nameLoc: u32, pathLoc: u32, start: u32, size: u32)

  /** The descriptor at the front of `d`. */
  function ReadDescriptor(d: seq<byte>): Descriptor
    requires |d| >= DESCRIPTOR_SIZE
  {
    Descriptor(U32At(d, 0), U32At(d, 4), U32At(d, 8), U32At(d, 12), U32At(d, 16))
  }

  /** The bytes of a descriptor. */
  function EncodeDescriptor(x: Descriptor): (r: seq<byte>)
    ensures |r| == DESCRIPTOR_SIZE
  {
    WordsBytes([x.moddate, x.nameLoc, x.pathLoc, x.start, x.size])
  }

  /** A descriptor is read back from its bytes, whatever follows. */
  lemma DescriptorRoundTrip(x: Descriptor, tail: seq<byte>)
    ensures |EncodeDescriptor(x) + tail| >= DESCRIPTOR_SIZE
    ensures ReadDescriptor(EncodeDescriptor(x) + tail) == x
  {
    var ws := [x.moddate, x.nameLoc, x.pathLoc, x.start, x.size];
    WordsAt(ws, tail, 0);
    WordsAt(ws, tail, 1);
    WordsAt(ws, tail, 2);
    WordsAt(ws, tail, 3);
    WordsAt(ws, tail, 4);
  }

  /** `MetrowerksObject::try_from` on an object's bytes, with the
      stream's size functions `measure`. */
  function ObjectDecoder(measure: CodeHunks.CodeHunks -> Objects.Sizes): seq<byte> -> Result<Objects.MetrowerksObject>
  {
    b => Objects.DecodeObject(b, measure)
  }

  /** The file a descriptor names: its name, its path, then its object
      decoded by `decode` from `value[start..start + size]`; an object
      error is passed on. */
  function DecodeFile(value: seq<byte>, x: Descriptor, decode: seq<byte> -> Result<Objects.MetrowerksObject>)
    : (r: Result<FileObject>)
    ensures r.Ok? ==> && r.value.moddate == x.moddate
                      && CStrAt(value, x.nameLoc) == Ok(r.value.fileName)
                      && PathAt(value, x.pathLoc) == Ok(r.value.fullPath)
                      && x.start + x.size <= |value|
                      && decode(value[x.start..x.start + x.size]) == Ok(r.value.obj)
    ensures r.Err? ==> r.error == Panic
                       || (x.start + x.size <= |value| && decode(value[x.start..x.start + x.size]) == Err(r.error))
  {
    var name :- CStrAt(value, x.nameLoc);
    var path :- PathAt(value, x.pathLoc);
    if x.start + x.size > |value| then Err(Panic)
    else
      var obj :- decode(value[x.start..x.start + x.size]);
      Ok(FileObject(x.moddate, name, path, obj))
  }

  /** A file fails to read, with a panic, when its name or its path lies
      past the end of the library or has no NUL after it, or when its
      object's byte range runs past the end. */
  lemma FileFails(value: seq<byte>, x: Descriptor, decode: seq<byte> -> Result<Objects.MetrowerksObject>)
    ensures x.nameLoc > |value| || Objects.NulFree(value[x.nameLoc..]) ==> DecodeFile(value, x, decode) == Err(Panic)
    ensures x.pathLoc != 0 && (x.pathLoc > |value| || Objects.NulFree(value[x.pathLoc..]))
            ==> DecodeFile(value, x, decode) == Err(Panic)
    ensures x.start + x.size > |value| ==> DecodeFile(value, x, decode) == Err(Panic)
  {
    CStrAtFacts(value, x.nameLoc);
    CStrAtFacts(value, x.pathLoc);
  }

  // ---------------------------------------------------------------------
  // The file list (the `while remaining_files > 0` loop)
  // ---------------------------------------------------------------------

  /** The file named by the descriptor at the front of `descs`; too few
      bytes for a descriptor panic. */
  function FileAt(value: seq<byte>, descs: seq<byte>, decode: seq<byte> -> Result<Objects.MetrowerksObject>)
    : (r: Result<FileObject>)
    ensures |descs| < DESCRIPTOR_SIZE ==> r == Err(Panic)
  {
    if |descs| < DESCRIPTOR_SIZE then Err(Panic) else DecodeFile(value, ReadDescriptor(descs), decode)
  }

  /** The files of `value`, each read by `FileAt`. */
  function FileReader(value: seq<byte>, decode: seq<byte> -> Result<Objects.MetrowerksObject>)
    : seq<byte> -> Result<FileObject>
  {
    d => FileAt(value, d, decode)
  }

  /** `remaining` files, each read by `read` from the descriptor at the
      front of what is left of `descs`, in order. */
  function FileList(descs: seq<byte>, remaining: nat, read: seq<byte> -> Result<FileObject>)
    : (r: Result<seq<FileObject>>)
    ensures r.Ok? ==> |r.value| == remaining && 20 * remaining <= |descs|
    decreases remaining
  {
    if remaining == 0 then Ok([])
    else if |descs| < DESCRIPTOR_SIZE then Err(Panic)
    else
      var f :- read(descs);
      var rest :- FileList(descs[DESCRIPTOR_SIZE..], remaining - 1, read);
      Ok([f] + rest)
  }

  /** The file list fails only with a panic or with an error a file read
      gives. */
  lemma {:induction false} FileListErrors(descs: seq<byte>, remaining: nat,
                                          read: seq<byte> -> Result<FileObject>, errors: set<Error>)
    requires Panic in errors
    requires forall d :: read(d).Err? ==> read(d).error in errors
    ensures FileList(descs, remaining, read).Err? ==> FileList(descs, remaining, read).error in errors
    decreases remaining
  {
    if remaining > 0 && |descs| >= DESCRIPTOR_SIZE {
      FileListErrors(descs[DESCRIPTOR_SIZE..], remaining - 1, read, errors);
    }
  }

  /** File `i` is the one read from descriptor `i`. */
  lemma {:induction false} FileListNth(descs: seq<byte>, remaining: nat, read: seq<byte> -> Result<FileObject>, i: nat)
    requires FileList(descs, remaining, read).Ok? && i < remaining
    ensures 20 * (i + 1) <= |descs|
    ensures read(descs[20 * i..]) == Ok(FileList(descs, remaining, read).value[i])
    decreases i
  {
    var f := read(descs);
    var tail := descs[DESCRIPTOR_SIZE..];
    var rest := FileList(tail, remaining - 1, read);
    assert f.Ok? && rest.Ok? && FileList(descs, remaining, read).value == [f.value] + rest.value;
    if i > 0 {
      FileListNth(tail, remaining - 1, read, i - 1);
      assert tail[20 * (i - 1)..] == descs[20 * i..];
    } else {
      assert descs[20 * i..] == descs;
    }
  }

  /** One file of `FileList`, after the files `done` read before it. */
  lemma FileListStep(done: seq<FileObject>, descs: seq<byte>, remaining: nat, read: seq<byte> -> Result<FileObject>)
    requires remaining > 0 && |descs| >= DESCRIPTOR_SIZE
    ensures var f := read(descs);
            && (f.Err? ==> Prepend(done, FileList(descs, remaining, read)) == Err(f.error))
            && (f.Ok? ==> Prepend(done, FileList(descs, remaining, read))
                          == Prepend(done + [f.value], FileList(descs[DESCRIPTOR_SIZE..], remaining - 1, read)))
  {
    var f := read(descs);
    if f.Ok? {
      var next := FileList(descs[DESCRIPTOR_SIZE..], remaining - 1, read);
      assert FileList(descs, remaining, read) == Prepend([f.value], next);
      PrependAssoc(done, [f.value], next);
    }
  }

  // ---------------------------------------------------------------------
  // The library (`TryFrom<&[u8]> for MetroWerksLibrary`)
  // ---------------------------------------------------------------------

  /** What `MetroWerksLibrary::try_from(value)` computes: the header
      checks in the order the fields are read, then the files. */
  function DecodeLibrary(value: seq<byte>, decode: seq<byte> -> Result<Objects.MetrowerksObject>)
    : (r: Result<MetroWerksLibrary>)
  {
    if |value| < 4 then Err(Panic)
    else if U32At(value, 0) != LIBRARY_MAGIC then Err(BadMagic)
    else if |value| < 12 then Err(Panic)
    else if U32At(value, 8) != 0 then Err(BadFlags)
    else if |value| < LIBRARY_HEADER_SIZE then Err(Panic)
    else
      var files :- FileList(value[LIBRARY_HEADER_SIZE..], U32At(value, 24), FileReader(value, decode));
      Ok(MetroWerksLibrary(ProcessorOf(U32At(value, 4)), FlagsNone, U32At(value, 12), files))
  }

  /** `decode` is `MetrowerksObject::try_from` with the size functions
      `measure`. */
  ghost predicate Decodes(decode: seq<byte> -> Result<Objects.MetrowerksObject>,
                          measure: CodeHunks.CodeHunks -> Objects.Sizes)
  {
    forall b {:trigger Objects.DecodeObject(b, measure)} :: decode(b) == Objects.DecodeObject(b, measure)
  }

  /** `read` reads the files of `value` as `FileAt` does. */
  ghost predicate Reads(read: seq<byte> -> Result<FileObject>, value: seq<byte>,
                        decode: seq<byte> -> Result<Objects.MetrowerksObject>)
  {
    forall d {:trigger FileAt(value, d, decode)} :: read(d) == FileAt(value, d, decode)
  }

  /** `MetroWerksLibrary::try_from`, as the source runs it. */
  method ParseLibrary(value: seq<byte>, measure: CodeHunks.CodeHunks -> Objects.Sizes)
    returns (r: Result<MetroWerksLibrary>)
    ensures r == DecodeLibrary(value, ObjectDecoder(measure))
  {
    if |value| < 4 {
      return Err(Panic);
    }
    if U32At(value, 0) != LIBRARY_MAGIC {
      return Err(BadMagic);
    }
    if |value| < 12 {
      return Err(Panic);
    }
    var proc := ProcessorOf(U32At(value, 4));
    if U32At(value, 8) != 0 {
      return Err(BadFlags);
    }
    if |value| < LIBRARY_HEADER_SIZE {
      return Err(Panic);
    }
    var version := U32At(value, 12);
    var numFiles := U32At(value, 24);
    var files: seq<FileObject> := [];
    if numFiles != 0 {
      var listed := ParseFiles(value, numFiles, measure, ObjectDecoder(measure),
                               FileReader(value, ObjectDecoder(measure)));
      if listed.Err? {
        return Err(listed.error);
      }
      files := listed.value;
    }
    r := Ok(MetroWerksLibrary(proc, FlagsNone, version, files));
  }

  /** The loop over the descriptors that follow the header. */
  method ParseFiles(value: seq<byte>, numFiles: nat, measure: CodeHunks.CodeHunks -> Objects.Sizes,
                    ghost decode: seq<byte> -> Result<Objects.MetrowerksObject>,
                    ghost read: seq<byte> -> Result<FileObject>)
    returns (r: Result<seq<FileObject>>)
    requires |value| >= LIBRARY_HEADER_SIZE && Decodes(decode, measure) && Reads(read, value, decode)
    ensures r == FileList(value[LIBRARY_HEADER_SIZE..], numFiles, read)
  {
    var objBytes := value[LIBRARY_HEADER_SIZE..];
    var remaining := numFiles;
    var files: seq<FileObject> := [];
    ghost var whole := FileList(objBytes, numFiles, read);
    assert Prepend([], whole) == whole by {
      if whole.Ok? {
        assert [] + whole.value == whole.value;
      }
    }
    while remaining > 0
      invariant Prepend(files, FileList(objBytes, remaining, read)) == whole
      decreases remaining
    {
      if |objBytes| < DESCRIPTOR_SIZE {
        return Err(Panic);
      }
      FileListStep(files, objBytes, remaining, read);
      var f := ParseFile(value, ReadDescriptor(objBytes), measure, decode);
      assert f == FileAt(value, objBytes, decode);
      if f.Err? {
        return Err(f.error);
      }
      objBytes := objBytes[DESCRIPTOR_SIZE..];
      files := files + [f.value];
      remaining := remaining - 1;
    }
    assert files + [] == files;
    return Ok(files);
  }

  /** The body of the loop: the name, the path, the object's bytes and
      the object itself. */
  method ParseFile(value: seq<byte>, x: Descriptor, measure: CodeHunks.CodeHunks -> Objects.Sizes,
                   ghost decode: seq<byte> -> Result<Objects.MetrowerksObject>)
    returns (r: Result<FileObject>)
    requires Decodes(decode, measure)
    ensures r == DecodeFile(value, x, decode)
  {
    var name :- CStrAt(value, x.nameLoc);
    var path :- PathAt(value, x.pathLoc);
    if x.start + x.size > |value| {
      return Err(Panic);
    }
    var obj := ParseFileObject(value[x.start..x.start + x.size], measure, decode);
    if obj.Err? {
      return Err(obj.error);
    }
    r := Ok(FileObject(x.moddate, name, path, obj.value));
  }

  /** The object of a file, decoded from its bytes. */
  method ParseFileObject(bytes: seq<byte>, measure: CodeHunks.CodeHunks -> Objects.Sizes,
                         ghost decode: seq<byte> -> Result<Objects.MetrowerksObject>)
    returns (r: Result<Objects.MetrowerksObject>)
    requires Decodes(decode, measure)
    ensures r == decode(bytes)
  {
    r := Objects.ParseObject(bytes, measure);
  }

  // ---------------------------------------------------------------------
  // Properties of the library reader
  // ---------------------------------------------------------------------

  /** The only ways a library fails to decode: a bad magic word (its own
      or an object's), non-zero flags, a non-zero reserved object field and
      a panic. */
  lemma LibraryErrors(value: seq<byte>, measure: CodeHunks.CodeHunks -> Objects.Sizes)
    ensures var r := DecodeLibrary(value, ObjectDecoder(measure));
            r.Err? ==> r.error in {Panic, BadMagic, BadFlags, ReservedNotZero}
  {
    var errors := {Panic, BadMagic, BadFlags, ReservedNotZero};
    ObjectDecoderErrors(measure, errors);
    LibraryErrorsFrom(value, ObjectDecoder(measure), errors);
  }

  /** A library fails with a panic, a bad magic word, non-zero flags or an
      error of its object decoder. */
  lemma LibraryErrorsFrom(value: seq<byte>, decode: seq<byte> -> Result<Objects.MetrowerksObject>,
                          errors: set<Error>)
    requires {Panic, BadMagic, BadFlags} <= errors
    requires forall b :: decode(b).Err? ==> decode(b).error in errors
    ensures DecodeLibrary(value, decode).Err? ==> DecodeLibrary(value, decode).error in errors
  {
    if |value| >= LIBRARY_HEADER_SIZE {
      var read := FileReader(value, decode);
      forall d | read(d).Err? ensures read(d).error in errors {
      }
      FileListErrors(value[LIBRARY_HEADER_SIZE..], U32At(value, 24), read, errors);
    }
  }

  /** The object decoder fails only as `MetrowerksObject::try_from` does. */
  lemma ObjectDecoderErrors(measure: CodeHunks.CodeHunks -> Objects.Sizes, errors: set<Error>)
    requires {Panic, BadMagic, ReservedNotZero} <= errors
    ensures forall b :: ObjectDecoder(measure)(b).Err? ==> ObjectDecoder(measure)(b).error in errors
  {
    forall b | ObjectDecoder(measure)(b).Err? ensures ObjectDecoder(measure)(b).error in errors {
      Objects.ObjectErrors(b, measure);
    }
  }

  /** A decoded library has a full header with the magic word and zero
      flags; its processor, version and file count are the header's. */
  lemma LibraryHeaderFacts(value: seq<byte>, decode: seq<byte> -> Result<Objects.MetrowerksObject>)
    ensures var r := DecodeLibrary(value, decode);
            r.Ok? ==> && |value| >= LIBRARY_HEADER_SIZE && U32At(value, 0) == LIBRARY_MAGIC
                      && U32At(value, 8) == 0 && r.value.flags == FlagsNone
                      && r.value.proc == ProcessorOf(U32At(value, 4))
                      && r.value.version == U32At(value, 12)
                      && |r.value.files| == U32At(value, 24)
                      && |value| >= LIBRARY_HEADER_SIZE + 20 * |r.value.files|
  {
  }

  /** A wrong magic word is reported before anything else is read, and
      non-zero flags once the magic word is right. */
  lemma LibraryRejects(value: seq<byte>, decode: seq<byte> -> Result<Objects.MetrowerksObject>)
    ensures |value| >= 4 && U32At(value, 0) != LIBRARY_MAGIC ==> DecodeLibrary(value, decode) == Err(BadMagic)
    ensures |value| >= 12 && U32At(value, 0) == LIBRARY_MAGIC && U32At(value, 8) != 0
            ==> DecodeLibrary(value, decode) == Err(BadFlags)
    ensures |value| < LIBRARY_HEADER_SIZE ==> DecodeLibrary(value, decode).Err?
  {
  }

  /** The files of a decoded library are, in order, the ones its
      descriptors name, each object decoded from the bytes its descriptor
      gives. */
  lemma LibraryFiles(value: seq<byte>, decode: seq<byte> -> Result<Objects.MetrowerksObject>)
    requires DecodeLibrary(value, decode).Ok?
    ensures var files := DecodeLibrary(value, decode).value.files;
            forall i | 0 <= i < |files| ::
              && LIBRARY_HEADER_SIZE + 20 * (i + 1) <= |value|
              && DecodeFile(value, ReadDescriptor(value[LIBRARY_HEADER_SIZE + 20 * i..]), decode)
                 == Ok(files[i])
  {
    var descs := value[LIBRARY_HEADER_SIZE..];
    var n := U32At(value, 24);
    var read := FileReader(value, decode);
    var files := DecodeLibrary(value, decode).value.files;
    assert files == FileList(descs, n, read).value;
    forall i | 0 <= i < |files|
      ensures LIBRARY_HEADER_SIZE + 20 * (i + 1) <= |value|
      ensures DecodeFile(value, ReadDescriptor(value[LIBRARY_HEADER_SIZE + 20 * i..]), decode) == Ok(files[i])
    {
      FileListNth(descs, n, read, i);
      assert descs[20 * i..] == value[LIBRARY_HEADER_SIZE + 20 * i..];
    }
  }

  /** The header bytes of a library: magic, processor, zero flags,
      version, the eight skipped bytes and the file count. */
  function EncodeLibraryHeader(proc: LibraryProcessor, version: u32, skipped: seq<byte>, numFiles: u32)
    : (r: seq<byte>)
    requires |skipped| == 8
    ensures |r| == LIBRARY_HEADER_SIZE
  {
    WordsBytes([LIBRARY_MAGIC, ProcessorCode(proc), 0, version]) + skipped + U32Bytes(numFiles)
  }

  /** A header is read back from its bytes: the processor, the version,
      and the files the descriptors after it name. */
  lemma LibraryHeaderRoundTrip(proc: LibraryProcessor, version: u32, skipped: seq<byte>, numFiles: u32,
                               rest: seq<byte>, decode: seq<byte> -> Result<Objects.MetrowerksObject>)
    requires |skipped| == 8
    ensures var value := EncodeLibraryHeader(proc, version, skipped, numFiles) + rest;
            var files := FileList(rest, numFiles, FileReader(value, decode));
            && (files.Ok? ==> DecodeLibrary(value, decode)
                              == Ok(MetroWerksLibrary(proc, FlagsNone, version, files.value)))
            && (files.Err? ==> DecodeLibrary(value, decode) == Err(files.error))
  {
    var ws := [LIBRARY_MAGIC, ProcessorCode(proc), 0, version];
    var value := EncodeLibraryHeader(proc, version, skipped, numFiles) + rest;
    var tail := skipped + U32Bytes(numFiles) + rest;
    assert value == WordsBytes(ws) + tail;
    WordsAt(ws, tail, 0);
    WordsAt(ws, tail, 1);
    WordsAt(ws, tail, 2);
    WordsAt(ws, tail, 3);
    assert value[24..28] == U32Bytes(numFiles);
    U32RoundTrip(numFiles);
    assert value[LIBRARY_HEADER_SIZE..] == rest;
    ProcessorRoundTrip(proc);
  }

  /** A library with no files decodes to no files, whatever follows its
      header. */
  lemma EmptyLibraryRoundTrip(proc: LibraryProcessor, version: u32, skipped: seq<byte>, rest: seq<byte>,
                              decode: seq<byte> -> Result<Objects.MetrowerksObject>)
    requires |skipped| == 8
    ensures DecodeLibrary(EncodeLibraryHeader(proc, version, skipped, 0) + rest, decode)
            == Ok(MetroWerksLibrary(proc, FlagsNone, version, []))
  {
    LibraryHeaderRoundTrip(proc, version, skipped, 0, rest, decode);
  }
}

=== FILE: names.dfy ===
/** Entries of an object's name table (src/objects_m68k.rs, `NameEntry`) and
    the `get_reference` lookup that the debug records use to find their name
    (src/types_m68k.rs, the `Lookup` impls).

    A name is kept as its bytes; the UTF-8 decoding of the Rust `String` is
    not modelled.
 */
module Names {
  import opened Outcomes
  import opened Util

  /** A name with the id that records refer to it by. The ids of a parsed
      name table start at 1. */
  datatype NameEntry = NameEntry(id: u32, name: seq<byte>)

  /** `NameEntry::hash`: the name-table hash of the entry's name. */
  method Hash(e: NameEntry) returns (h: u16)
    ensures h == NameHash(e.name)
    ensures h < NAMEHASH
  {
    NameHashBound(e.name);
    h := NametableHash(e.name);
  }

  /** `names().iter().find(|x| x.id() == name_id)`: the first entry of the
      table whose id is `nameId`, or nothing when no entry has that id. */
  function GetReference(names: seq<NameEntry>, nameId: u32): (r: Option<NameEntry>)
    ensures r.None? <==> forall i :: 0 <= i < |names| ==> names[i].id != nameId
    ensures r.Some? ==> exists k :: 0 <= k < |names| && names[k] == r.value
                          && r.value.id == nameId
                          && forall i :: 0 <= i < k ==> names[i].id != nameId
  {
    if names == [] then None
    else if names[0].id == nameId then Some(names[0])
    else
      var rest := GetReference(names[1..], nameId);
      assert forall i :: 1 <= i < |names| ==> names[i] == names[1..][i - 1];
      rest
  }

  /** Entries in front of a table that do not carry the id leave the lookup
      unchanged; the first entry carrying it hides every later one. */
  lemma {:induction false} GetReferenceAppend(front: seq<NameEntry>, back: seq<NameEntry>, nameId: u32)
    ensures (forall i :: 0 <= i < |front| ==> front[i].id != nameId)
            ==> GetReference(front + back, nameId) == GetReference(back, nameId)
    ensures (exists i :: 0 <= i < |front| && front[i].id == nameId)
            ==> GetReference(front + back, nameId) == GetReference(front, nameId)
  {
    if front == [] {
      assert front + back == back;
    } else {
      assert (front + back)[1..] == front[1..] + back;
      assert (front + back)[0] == front[0];
      GetReferenceAppend(front[1..], back, nameId);
      if front[0].id != nameId {
        assert forall i :: 1 <= i < |front| ==> front[i] == front[1..][i - 1];
        if forall i :: 0 <= i < |front| ==> front[i].id != nameId {
          assert forall i :: 0 <= i < |front[1..]| ==> front[1..][i].id != nameId;
        } else {
          var i :| 0 <= i < |front| && front[i].id == nameId;
          assert front[1..][i - 1].id == nameId;
        }
      }
    }
  }
}

=== FILE: objects.dfy ===
/** A 68k object file (src/objects_m68k.rs, `MetrowerksObject::try_from`).

    An object is a 64-byte header, a name table, a symbol table and the
    code section's hunk stream.  The header says where the name table and
    the symbol table are and how long the hunk stream is; the hunk stream
    always starts right after the header.
 */
module Objects {
  import opened Outcomes
  import opened Util
  import opened Names
  import Symtab
  import CodeHunks

  /** `ObjectMagicWord`. */
  const OBJECT_MAGIC: u32 := 0xfeed_bead

  /** The size of the object header. */
  const HEADER_SIZE: nat := 64

  // ---------------------------------------------------------------------
  // Flags (`ObjectFlags`)
  // ---------------------------------------------------------------------

  /** `ObjectFlags`: the four defined bits. */
  datatype ObjectFlags = ObjectFlags(cfm: bool, cfmSharedLib: bool, weakImport: bool, initBefore: bool)

  /** The flags word of a set of flags: `OBJFLAG_CFM` is 0x1,
      `OBJFLAG_CFMSHAREDLIB` 0x2, `OBJFLAG_WEAKIMPORT` 0x4 and
      `OBJFLAG_INITBEFORE` 0x8. */
  function FlagBits(f: ObjectFlags): (v: u16)
    ensures v < 0x10
  {
    (if f.cfm then 0x1 else 0) + (if f.cfmSharedLib then 0x2 else 0)
    + (if f.weakImport then 0x4 else 0) + (if f.initBefore then 0x8 else 0)
  }

  /** `ObjectFlags::from_bits`: the flags of a word, when the word sets no
      bit outside the four defined ones. */
  function FlagsFromBits(v: u16): (r: Option<ObjectFlags>)
    ensures r.Some? <==> v < 0x10
    ensures r.Some? ==> FlagBits(r.value) == v
  {
    if v >= 0x10 then None
    else Some(ObjectFlags(v % 2 == 1, (v / 2) % 2 == 1, (v / 4) % 2 == 1, (v / 8) % 2 == 1))
  }

  /** Every set of flags is found again from its word. */
  lemma FlagsRoundTrip(f: ObjectFlags)
    ensures FlagsFromBits(FlagBits(f)) == Some(f)
  {
  }

  /** `ObjectFlags::empty()`. */
  function NoFlags(): (f: ObjectFlags)
    ensures FlagBits(f) == 0
  {
    ObjectFlags(false, false, false, false)
  }

  // ---------------------------------------------------------------------
  // The header
  // ---------------------------------------------------------------------

  /** The 64-byte header, every field as stored. */
  datatype ObjectHeader = ObjectHeader(
    version: u16, flagBits: u16, objSize: u32, nametableOffset: u32, nametableCount: u32,
    symtabOffset: u32, symtableSize: u32, reserved1: u32, codeSize: u32, udataSize: u32,
    idataSize: u32, oldDefVersion: u32, oldImpVersion: u32, currentVersion: u32,
    hasFlags: byte, isPascal: byte, isFourByteInt: byte, isEightDouble: byte, isMc68881: byte,
    basereg: byte, reserved3: byte, reserved4: byte)

  /** The header checks of `MetrowerksObject::try_from`, in source order:
      the magic word, `reserved1`, then `reserved3` and `reserved4`; a
      field read past the end of the input panics. */
  function DecodeHeader(value: seq<byte>): (r: Result<ObjectHeader>)
    ensures r.Ok? ==> |value| >= HEADER_SIZE && U32At(value, 0) == OBJECT_MAGIC
    ensures r.Ok? ==> r.value.reserved1 == 0 && r.value.reserved3 == 0 && r.value.reserved4 == 0
    ensures |value| >= 4 ==> (r == Err(BadMagic) <==> U32At(value, 0) != OBJECT_MAGIC)
    ensures r.Err? ==> r.error in {Panic, BadMagic, ReservedNotZero}
  {
    if |value| < 4 then Err(Panic)
    else if U32At(value, 0) != OBJECT_MAGIC then Err(BadMagic)
    else if |value| < 32 then Err(Panic)
    else if U32At(value, 28) != 0 then Err(ReservedNotZero)
    else if |value| < 63 then Err(Panic)
    else if value[62] != 0 then Err(ReservedNotZero)
    else if |value| < HEADER_SIZE then Err(Panic)
    else if value[63] != 0 then Err(ReservedNotZero)
    else Ok(HeaderFields(value))
  }

  /** The fields at their offsets. */
  function HeaderFields(value: seq<byte>): (h: ObjectHeader)
    requires |value| >= HEADER_SIZE
    ensures h.reserved1 == U32At(value, 28) && h.reserved3 == value[62] && h.reserved4 == value[63]
  {
    ObjectHeader(
      U16At(value, 4), U16At(value, 6), U32At(value, 8), U32At(value, 12), U32At(value, 16),
      U32At(value, 20), U32At(value, 24), U32At(value, 28), U32At(value, 32), U32At(value, 36),
      U32At(value, 40), U32At(value, 44), U32At(value, 48), U32At(value, 52),
      value[56], value[57], value[58], value[59], value[60], value[61], value[62], value[63])
  }

  /** The words of a header from `obj_size` to `current_version`. */
  function HeaderWords(h: ObjectHeader): (ws: seq<u32>)
    ensures |ws| == 12
  {
    [h.objSize, h.nametableOffset, h.nametableCount, h.symtabOffset, h.symtableSize, h.reserved1,
     h.codeSize, h.udataSize, h.idataSize, h.oldDefVersion, h.oldImpVersion, h.currentVersion]
  }

  /** The eight single-byte fields closing a header. */
  function HeaderTail(h: ObjectHeader): (bs: seq<byte>)
    ensures |bs| == 8
  {
    [h.hasFlags, h.isPascal, h.isFourByteInt, h.isEightDouble, h.isMc68881, h.basereg,
     h.reserved3, h.reserved4]
  }

  /** The 64 bytes of a header, magic word first. */
  function EncodeHeader(h: ObjectHeader): (b: seq<byte>)
    ensures |b| == HEADER_SIZE
  {
    U32Bytes(OBJECT_MAGIC) + (U16Bytes(h.version) + (U16Bytes(h.flagBits) + (WordsBytes(HeaderWords(h)) + HeaderTail(h))))
  }

  /** A header whose reserved fields are zero is read back from its bytes,
      whatever follows them. */
  lemma {:induction false} HeaderRoundTrip(h: ObjectHeader, rest: seq<byte>)
    requires h.reserved1 == 0 && h.reserved3 == 0 && h.reserved4 == 0
    ensures DecodeHeader(EncodeHeader(h) + rest) == Ok(h)
  {
    var d := EncodeHeader(h) + rest;
    HeaderLayout(h, rest);
    HeaderWordsLayout(h, rest);
    assert HeaderFields(d) == h;
  }

  /** The magic word, the two 16-bit fields and the closing bytes of a
      written header. */
  lemma {:induction false} HeaderLayout(h: ObjectHeader, rest: seq<byte>)
    ensures var d := EncodeHeader(h) + rest;
            && |d| >= HEADER_SIZE && U32At(d, 0) == OBJECT_MAGIC
            && U16At(d, 4) == h.version && U16At(d, 6) == h.flagBits
            && d[56..64] == HeaderTail(h)
  {
    var d := EncodeHeader(h) + rest;
    assert d[0..4] == U32Bytes(OBJECT_MAGIC);
    U32RoundTrip(OBJECT_MAGIC);
    assert d[4..6] == U16Bytes(h.version);
    U16RoundTrip(h.version);
    assert d[6..8] == U16Bytes(h.flagBits);
    U16RoundTrip(h.flagBits);
  }

  /** The twelve words of a written header, at offsets 8 to 52. */
  lemma {:induction false} HeaderWordsLayout(h: ObjectHeader, rest: seq<byte>)
    ensures var d := EncodeHeader(h) + rest;
            && U32At(d, 8) == h.objSize && U32At(d, 12) == h.nametableOffset
            && U32At(d, 16) == h.nametableCount && U32At(d, 20) == h.symtabOffset
            && U32At(d, 24) == h.symtableSize && U32At(d, 28) == h.reserved1
            && U32At(d, 32) == h.codeSize && U32At(d, 36) == h.udataSize
            && U32At(d, 40) == h.idataSize && U32At(d, 44) == h.oldDefVersion
            && U32At(d, 48) == h.oldImpVersion && U32At(d, 52) == h.currentVersion
  {
    var ws := HeaderWords(h);
    var t := HeaderTail(h) + rest;
    var p := U32Bytes(OBJECT_MAGIC) + U16Bytes(h.version) + U16Bytes(h.flagBits);
    assert EncodeHeader(h) + rest == p + (WordsBytes(ws) + t);
    WordsAtAfter(p, ws, t, 0, 8);
    WordsAtAfter(p, ws, t, 1, 12);
    WordsAtAfter(p, ws, t, 2, 16);
    WordsAtAfter(p, ws, t, 3, 20);
    WordsAtAfter(p, ws, t, 4, 24);
    WordsAtAfter(p, ws, t, 5, 28);
    WordsAtAfter(p, ws, t, 6, 32);
    WordsAtAfter(p, ws, t, 7, 36);
    WordsAtAfter(p, ws, t, 8, 40);
    WordsAtAfter(p, ws, t, 9, 44);
    WordsAtAfter(p, ws, t, 10, 48);
    WordsAtAfter(p, ws, t, 11, 52);
  }

  // ---------------------------------------------------------------------
  // The name table
  // ---------------------------------------------------------------------

  predicate NulFree(s: seq<byte>)
  {
    forall j | 0 <= j < |s| :: s[j] != 0
  }

  /** `CStr::from_bytes_until_nul` on `b[i..end]`: the index of the first
      NUL byte at or after `i`, if there is one before `end`. */
  function NulFrom(b: seq<byte>, i: nat, end: nat): (r: Option<nat>)
    requires end <= |b|
    ensures r.Some? ==> i <= r.value < end && b[r.value] == 0
    decreases end - i
  {
    if i >= end then None
    else if b[i] == 0 then Some(i)
    else NulFrom(b, i + 1, end)
  }

  /** The NUL found is the first one: the bytes before it hold no NUL. */
  lemma {:induction false} NulFromFirst(b: seq<byte>, i: nat, end: nat)
    requires end <= |b|
    ensures NulFrom(b, i, end).Some? ==> NulFree(b[i..NulFrom(b, i, end).value])
    decreases end - i
  {
    if i < end && b[i] != 0 {
      NulFromFirst(b, i + 1, end);
      if NulFrom(b, i + 1, end).Some? {
        var k := NulFrom(b, i + 1, end).value;
        assert b[i..k] == [b[i]] + b[i + 1..k];
      }
    }
  }

  /** `n` non-NUL bytes from `i` on, then a NUL before `end`: the NUL is
      found there. */
  lemma {:induction false} NulFromAfter(b: seq<byte>, i: nat, end: nat, n: nat)
    requires i + n < end <= |b| && NulFree(b[i..i + n]) && b[i + n] == 0
    ensures NulFrom(b, i, end) == Some(i + n)
    decreases n
  {
    if n > 0 {
      assert b[i] == b[i..i + n][0];
      assert b[i + 1..i + 1 + (n - 1)] == b[i..i + n][1..];
      NulFromAfter(b, i + 1, end, n - 1);
    }
  }

  /** An entry read and the bytes it took. */
  datatype NameRead = NameRead(entry: NameEntry, length: nat)

  /** Where the window `CStr::from_bytes_until_nul` is given ends: at most
      255 bytes after the hash. */
  function WindowEnd(b: seq<byte>): (end: nat)
    ensures end <= |b| && end <= 257
  {
    if |b| < 257 then |b| else 257
  }

  /** One name-table entry: the stored hash, then a NUL-terminated name
      within the window.  A missing NUL or a stored hash other than the
      name's panics. */
  function ParseNameEntry(b: seq<byte>, id: u32): (r: Result<NameRead>)
    ensures r.Ok? ==> r.value.length == 2 + |r.value.entry.name| + 1 && r.value.length <= |b|
    ensures r.Ok? ==> r.value.entry.id == id
    ensures r.Err? ==> r.error == Panic
  {
    if |b| < 2 then Err(Panic)
    else
      match NulFrom(b, 2, WindowEnd(b))
      case None => Err(Panic)
      case Some(n) =>
        var name := b[2..n];
        if U16At(b, 0) != NameHash(name) then Err(Panic)  // `assert_eq!(hash, nametable_hash(&s))`
        else Ok(NameRead(NameEntry(id, name), n + 1))
  }

  /** An entry read is a stored hash equal to the name's, then the name
      and its NUL; the name has no NUL and fits the window with it. */
  lemma NameEntryFacts(b: seq<byte>, id: u32)
    requires ParseNameEntry(b, id).Ok?
    ensures var e := ParseNameEntry(b, id).value;
            && NulFree(e.entry.name) && |e.entry.name| <= 254
            && U16At(b, 0) == NameHash(e.entry.name) && b[2..e.length] == e.entry.name + [0]
  {
    var n := NulFrom(b, 2, WindowEnd(b)).value;
    NulFromFirst(b, 2, WindowEnd(b));
    assert b[2..n + 1] == b[2..n] + [b[n]];
  }

  /** `remaining` entries read back to back from `b`, with ids counting up
      from `id`. */
  function NameList(b: seq<byte>, remaining: nat, id: nat): (r: Result<seq<NameEntry>>)
    requires 1 <= id && id + remaining <= 0x1_0000_0000
    ensures r.Ok? ==> |r.value| == remaining
    ensures r.Err? ==> r.error == Panic
    decreases remaining
  {
    if remaining == 0 then Ok([])
    else
      var e :- ParseNameEntry(b, id);
      var rest :- NameList(b[e.length..], remaining - 1, id + 1);
      Ok([e.entry] + rest)
  }

  /** The ids of the entries read count up from `id`. */
  lemma {:induction false} NameListIds(b: seq<byte>, remaining: nat, id: nat)
    requires 1 <= id && id + remaining <= 0x1_0000_0000
    requires NameList(b, remaining, id).Ok?
    ensures var es := NameList(b, remaining, id).value;
            forall i | 0 <= i < |es| :: es[i].id == id + i
    decreases remaining
  {
    if remaining > 0 {
      var e := ParseNameEntry(b, id).value;
      NameListIds(b[e.length..], remaining - 1, id + 1);
    }
  }

  /** The name table: empty when the offset is 0; otherwise the
      `nametable_count - 1` entries from the offset on, the subtraction
      panicking when the count is 0. */
  function NameTable(value: seq<byte>, offset: u32, count: u32): (r: Result<seq<NameEntry>>)
    ensures r.Err? ==> r.error == Panic
  {
    if offset == 0 then Ok([])
    else if offset > |value| || count == 0 then Err(Panic)
    else NameList(value[offset..], count - 1, 1)
  }

  /** The name-table step of `MetrowerksObject::try_from`. */
  method ParseNameTable(value: seq<byte>, offset: u32, count: u32) returns (r: Result<seq<NameEntry>>)
    ensures r == NameTable(value, offset, count)
  {
    if offset == 0 {
      r := Ok([]);
    } else if offset > |value| || count == 0 {
      r := Err(Panic);
    } else {
      r := ParseNameTableAt(value, offset, count);
    }
  }

  /** The entries of a table whose offset and count are usable. */
  method ParseNameTableAt(value: seq<byte>, offset: u32, count: u32) returns (r: Result<seq<NameEntry>>)
    requires 0 < offset <= |value| && count != 0
    ensures r == NameTable(value, offset, count)
  {
    r := ParseNameList(value[offset..], count - 1, 1);
  }

  /** The name-table loop: `remaining` entries read one after the other,
      each from the bytes the previous one left. */
  method ParseNameList(b: seq<byte>, remaining0: nat, id0: nat) returns (r: Result<seq<NameEntry>>)
    requires 1 <= id0 && id0 + remaining0 <= 0x1_0000_0000
    ensures r == NameList(b, remaining0, id0)
  {
    var names: seq<NameEntry> := [];
    var nameBytes := b;
    var remaining := remaining0;
    var nameId := id0;
    assert Prepend([], NameList(b, remaining0, id0)) == NameList(b, remaining0, id0) by {
      if NameList(b, remaining0, id0).Ok? {
        assert [] + NameList(b, remaining0, id0).value == NameList(b, remaining0, id0).value;
      }
    }
    while remaining > 0
      invariant 1 <= nameId && nameId + remaining == id0 + remaining0
      invariant Prepend(names, NameList(nameBytes, remaining, nameId)) == NameList(b, remaining0, id0)
      decreases remaining
    {
      var e := ParseNameEntry(nameBytes, nameId);
      NameListStep(names, nameBytes, remaining, nameId);
      if e.Err? {
        return Err(Panic);
      }
      var entry := e.value.entry;
      var after := nameBytes[e.value.length..];
      names := names + [entry];
      nameBytes := after;
      remaining := remaining - 1;
      nameId := nameId + 1;
    }
    assert names + [] == names;
    return Ok(names);
  }

  /** One entry of `NameList`, after the entries `done` read before it. */
  lemma NameListStep(done: seq<NameEntry>, b: seq<byte>, remaining: nat, id: nat)
    requires 1 <= id && id + remaining <= 0x1_0000_0000 && remaining > 0
    ensures var e := ParseNameEntry(b, id);
            && (e.Err? ==> Prepend(done, NameList(b, remaining, id)) == Err(Panic))
            && (e.Ok? ==> Prepend(done, NameList(b, remaining, id))
                          == Prepend(done + [e.value.entry], NameList(b[e.value.length..], remaining - 1, id + 1)))
  {
    var e := ParseNameEntry(b, id);
    if e.Ok? {
      var next := NameList(b[e.value.length..], remaining - 1, id + 1);
      assert NameList(b, remaining, id) == Prepend([e.value.entry], next);
      PrependAssoc(done, [e.value.entry], next);
    }
  }

  /** With a non-zero offset, the table holds `nametable_count - 1` names
      with ids 1, 2, ... in file order; with a zero offset it is empty. */
  lemma NameTableIds(value: seq<byte>, offset: u32, count: u32)
    requires NameTable(value, offset, count).Ok?
    ensures var names := NameTable(value, offset, count).value;
            && (offset == 0 ==> names == [])
            && (offset != 0 ==> 1 <= count && |names| == count - 1)
            && forall i | 0 <= i < |names| :: names[i].id == i + 1
  {
    if offset != 0 {
      NameListIds(value[offset..], count - 1, 1);
    }
  }

  /** The bytes of an entry: the name's hash, the name, a NUL. */
  function EncodeName(e: NameEntry): (b: seq<byte>)
    ensures |b| == 2 + |e.name| + 1
  {
    U16Bytes(NameHash(e.name)) + e.name + [0]
  }

  function EncodeNames(es: seq<NameEntry>): (b: seq<byte>)
  {
    if es == [] then [] else EncodeName(es[0]) + EncodeNames(es[1..])
  }

  /** What the name table can hold: ids counting up from `id`, NUL-free
      names that fit the 255-byte window with their NUL. */
  predicate StorableNames(es: seq<NameEntry>, id: nat)
    decreases |es|
  {
    es != [] ==>
      && es[0].id == id && NulFree(es[0].name) && |es[0].name| <= 254
      && StorableNames(es[1..], id + 1)
  }

  lemma {:induction false} NameRoundTrip(e: NameEntry, rest: seq<byte>)
    requires NulFree(e.name) && |e.name| <= 254
    ensures ParseNameEntry(EncodeName(e) + rest, e.id) == Ok(NameRead(e, |EncodeName(e)|))
  {
    var b := EncodeName(e) + rest;
    var n := |e.name|;
    assert b == U16Bytes(NameHash(e.name)) + (e.name + [0] + rest);
    U16Field([], NameHash(e.name), e.name + [0] + rest);
    assert [] + b == b;
    assert b[2..2 + n] == e.name;
    NulFromAfter(b, 2, WindowEnd(b), n);
  }

  /** Entries written back to back are read back, ids and all. */
  lemma {:induction false} NameListRoundTrip(es: seq<NameEntry>, id: nat, rest: seq<byte>)
    requires 1 <= id && id + |es| <= 0x1_0000_0000 && StorableNames(es, id)
    ensures NameList(EncodeNames(es) + rest, |es|, id) == Ok(es)
    decreases |es|
  {
    if es == [] {
      assert EncodeNames(es) + rest == rest;
    } else {
      var b := EncodeNames(es) + rest;
      FirstNameRead(es, id, rest);
      NameListRoundTrip(es[1..], id + 1, rest);
      NameListCons(b, EncodeNames(es[1..]) + rest, |es|, id, NameRead(es[0], |EncodeName(es[0])|), es[1..]);
      assert [es[0]] + es[1..] == es;
    }
  }

  /** An entry read, then the rest of the list read after it. */
  lemma NameListCons(b: seq<byte>, tail: seq<byte>, remaining: nat, id: nat, e: NameRead, tl: seq<NameEntry>)
    requires 1 <= id && id + remaining <= 0x1_0000_0000 && remaining > 0
    requires ParseNameEntry(b, id) == Ok(e) && b[e.length..] == tail
    requires NameList(tail, remaining - 1, id + 1) == Ok(tl)
    ensures NameList(b, remaining, id) == Ok([e.entry] + tl)
  {
  }

  /** The first entry of a written table is read back, leaving the rest. */
  lemma {:induction false} FirstNameRead(es: seq<NameEntry>, id: nat, rest: seq<byte>)
    requires es != [] && StorableNames(es, id)
    ensures var b := EncodeNames(es) + rest;
            && ParseNameEntry(b, es[0].id) == Ok(NameRead(es[0], |EncodeName(es[0])|))
            && b[|EncodeName(es[0])|..] == EncodeNames(es[1..]) + rest
            && es[0].id == id
  {
    var b := EncodeNames(es) + rest;
    var tail := EncodeNames(es[1..]) + rest;
    assert b == EncodeName(es[0]) + tail;
    NameRoundTrip(es[0], tail);
    assert b[|EncodeName(es[0])|..] == tail;
  }

  // ---------------------------------------------------------------------
  // The symbol table and the hunk stream
  // ---------------------------------------------------------------------

  /** The symbol table: the default one when the offset is 0, otherwise
      the table decoded from `size` bytes at the offset.  The end offset is
      a 32-bit sum, and a slice past the input or a table that does not
      decode panics. */
  function SymbolTableAt(value: seq<byte>, offset: u32, size: u32): (r: Result<Symtab.SymbolTable>)
    ensures offset == 0 ==> r == Ok(Symtab.DefaultSymbolTable())
    ensures r.Err? ==> r.error == Panic
  {
    if offset as int + size >= 0x1_0000_0000 then Err(Panic)
    else if offset == 0 then Ok(Symtab.DefaultSymbolTable())
    else if offset + size > |value| then Err(Panic)
    else Unwrap(Symtab.DecodeSymbolTable(value[offset..offset + size]))
  }

  /** The hunk stream: the `obj_size` bytes right after the header, the
      decode `unwrap`ped. */
  function HunksAt(value: seq<byte>, objSize: u32): (r: Result<CodeHunks.CodeHunks>)
    ensures r.Ok? ==> r.value.hunks != [] && CodeHunks.WellFormedHunks(r.value.hunks)
    ensures r.Err? ==> r.error == Panic
  {
    if HEADER_SIZE + objSize >= 0x1_0000_0000 || HEADER_SIZE + objSize > |value| then Err(Panic)
    else
      var bytes := value[HEADER_SIZE..HEADER_SIZE + objSize];
      var r := Unwrap(CodeHunks.DecodeCodeHunks(bytes));
      if r.Ok? then CodeHunks.DecodedWellFormed(bytes); r else r
  }

  // ---------------------------------------------------------------------
  // The object
  // ---------------------------------------------------------------------

  /** `MetrowerksObject`. */
  datatype MetrowerksObject = MetrowerksObject(
    version: u16, flags: ObjectFlags, reserved1: u32, oldDefVersion: u32, oldImpVersion: u32,
    currentVersion: u32, hasFlags: byte, isPascal: byte, isFourByteInt: byte, isEightDouble: byte,
    isMc68881: byte, basereg: byte, reserved3: byte, reserved4: byte,
    names: seq<NameEntry>, symtab: Symtab.SymbolTable, hunks: CodeHunks.CodeHunks)

  /** The code, uninitialised-data and initialised-data sizes of a hunk
      stream, as `code_length`, `udata_length` and `idata_length` compute
      them. */
  datatype Sizes = Sizes(code: nat, udata: nat, idata: nat)

  /** `MetrowerksObject::default()`: zero header fields, no flags, no
      names, the default symbol table and no hunks. */
  function DefaultObject(): (o: MetrowerksObject)
    ensures o.names == [] && o.hunks.hunks == [] && o.symtab == Symtab.DefaultSymbolTable()
    ensures FlagBits(o.flags) == 0 && o.version == 0 && o.reserved1 == 0
  {
    MetrowerksObject(0, NoFlags(), 0, 0, 0, 0, 0, 0, 0, 0, 0, 0, 0, 0, [], Symtab.DefaultSymbolTable(),
                     CodeHunks.CodeHunks([]))
  }

  /** `MetrowerksObject::try_from(&[u8])`.  `measure` stands for the
      stream's size functions, which the final `assert_eq!` checks compare
      with the header's sizes. */
  function DecodeObject(value: seq<byte>, measure: CodeHunks.CodeHunks -> Sizes): (r: Result<MetrowerksObject>)
  {
    var h :- DecodeHeader(value);
    ObjectFromHeader(value, h, measure)
  }

  /** Everything after the header checks: the name table, the symbol
      table, the hunks, the size checks and the flags, each failure a
      panic. */
  function ObjectFromHeader(value: seq<byte>, h: ObjectHeader, measure: CodeHunks.CodeHunks -> Sizes)
    : (r: Result<MetrowerksObject>)
    ensures r.Ok? ==> r.value.hunks.hunks != [] && CodeHunks.WellFormedHunks(r.value.hunks.hunks)
    ensures r.Ok? ==> measure(r.value.hunks) == Sizes(h.codeSize, h.udataSize, h.idataSize)
    ensures r.Ok? ==> NameTable(value, h.nametableOffset, h.nametableCount) == Ok(r.value.names)
    ensures r.Ok? ==> SymbolTableAt(value, h.symtabOffset, h.symtableSize) == Ok(r.value.symtab)
    ensures r.Ok? ==> FlagBits(r.value.flags) == h.flagBits
    ensures r.Err? ==> r.error == Panic
  {
    var names :- NameTable(value, h.nametableOffset, h.nametableCount);
    var symtab :- SymbolTableAt(value, h.symtabOffset, h.symtableSize);
    var hunks :- HunksAt(value, h.objSize);
    if measure(hunks) != Sizes(h.codeSize, h.udataSize, h.idataSize) then Err(Panic)
    else
      var flags :- Unwrap(Wrap(FlagsFromBits(h.flagBits)));
      Ok(MetrowerksObject(h.version, flags, h.reserved1, h.oldDefVersion, h.oldImpVersion, h.currentVersion,
                          h.hasFlags, h.isPascal, h.isFourByteInt, h.isEightDouble, h.isMc68881, h.basereg,
                          h.reserved3, h.reserved4, names, symtab, hunks))
  }

  /** An `Option` as a `Result`, for `Option::unwrap`. */
  function Wrap<T>(o: Option<T>): (r: Result<T>)
    ensures r.Ok? <==> o.Some?
    ensures r.Ok? ==> r.value == o.value
  {
    if o.Some? then Ok(o.value) else Err(Panic)
  }

  /** `MetrowerksObject::try_from`, as the source runs it: the header
      checks, then the name-table loop, the symbol-table parse and the
      hunk parse. */
  method ParseObject(value: seq<byte>, measure: CodeHunks.CodeHunks -> Sizes) returns (r: Result<MetrowerksObject>)
    ensures r == DecodeObject(value, measure)
  {
    var header := DecodeHeader(value);
    if header.Err? {
      return Err(header.error);
    }
    r := ParseAfterHeader(value, header.value, measure);
  }

  /** The rest of `MetrowerksObject::try_from` once the header checks pass. */
  method ParseAfterHeader(value: seq<byte>, h: ObjectHeader, measure: CodeHunks.CodeHunks -> Sizes)
    returns (r: Result<MetrowerksObject>)
    ensures r == ObjectFromHeader(value, h, measure)
  {
    var names := ParseNameTable(value, h.nametableOffset, h.nametableCount);
    if names.Err? {
      return Err(Panic);
    }
    var symtab := ParseSymbolTableAt(value, h.symtabOffset, h.symtableSize);
    if symtab.Err? {
      return Err(Panic);
    }
    var hunks := ParseHunksAt(value, h.objSize);
    if hunks.Err? {
      return Err(Panic);
    }
    if measure(hunks.value) != Sizes(h.codeSize, h.udataSize, h.idataSize) {
      return Err(Panic);
    }
    var flags := FlagsFromBits(h.flagBits);
    if flags.None? {
      return Err(Panic);
    }
    return Ok(MetrowerksObject(h.version, flags.value, h.reserved1, h.oldDefVersion, h.oldImpVersion,
                               h.currentVersion, h.hasFlags, h.isPascal, h.isFourByteInt, h.isEightDouble,
                               h.isMc68881, h.basereg, h.reserved3, h.reserved4, names.value, symtab.value,
                               hunks.value));
  }

  /** The symbol-table slice and its parse. */
  method ParseSymbolTableAt(value: seq<byte>, offset: u32, size: u32) returns (r: Result<Symtab.SymbolTable>)
    ensures r == SymbolTableAt(value, offset, size)
  {
    if offset as int + size >= 0x1_0000_0000 {
      return Err(Panic);
    }
    if offset == 0 {
      return Ok(Symtab.DefaultSymbolTable());
    }
    if offset + size > |value| {
      return Err(Panic);
    }
    var st := Symtab.ParseSymbolTable(value[offset..offset + size]);
    r := Unwrap(st);
  }

  /** The hunk-stream slice and its parse. */
  method ParseHunksAt(value: seq<byte>, objSize: u32) returns (r: Result<CodeHunks.CodeHunks>)
    ensures r == HunksAt(value, objSize)
  {
    if HEADER_SIZE + objSize >= 0x1_0000_0000 || HEADER_SIZE + objSize > |value| {
      return Err(Panic);
    }
    var hunks := CodeHunks.ParseCodeHunks(value[HEADER_SIZE..HEADER_SIZE + objSize]);
    r := Unwrap(hunks);
  }

  /** The only ways an object fails to decode: a bad magic word, a
      non-zero reserved field and a panic. */
  lemma ObjectErrors(value: seq<byte>, measure: CodeHunks.CodeHunks -> Sizes)
    ensures var r := DecodeObject(value, measure);
            r.Err? ==> r.error in {Panic, BadMagic, ReservedNotZero}
  {
  }

  /** A decoded object has a complete header with a valid magic word, zero
      reserved fields and flags within the four defined bits. */
  lemma ObjectHeaderFacts(value: seq<byte>, measure: CodeHunks.CodeHunks -> Sizes)
    ensures var r := DecodeObject(value, measure);
            r.Ok? ==> && |value| >= HEADER_SIZE && U32At(value, 0) == OBJECT_MAGIC
                      && U32At(value, 28) == 0 && value[62] == 0 && value[63] == 0
                      && U16At(value, 6) < 0x10 && FlagBits(r.value.flags) == U16At(value, 6)
                      && r.value.reserved1 == 0 && r.value.reserved3 == 0 && r.value.reserved4 == 0
  {
    var h := DecodeHeader(value);
    if h.Ok? {
      assert h.value == HeaderFields(value);
    }
  }

  /** A decoded object has names with ids 1, 2, ... and a non-empty stream
      of well-formed hunks whose sizes agree with the header's. */
  lemma ObjectContentFacts(value: seq<byte>, measure: CodeHunks.CodeHunks -> Sizes)
    ensures var r := DecodeObject(value, measure);
            r.Ok? ==> && (forall i | 0 <= i < |r.value.names| :: r.value.names[i].id == i + 1)
                      && r.value.hunks.hunks != [] && CodeHunks.WellFormedHunks(r.value.hunks.hunks)
                      && measure(r.value.hunks) == Sizes(U32At(value, 32), U32At(value, 36), U32At(value, 40))
  {
    var h := DecodeHeader(value);
    if h.Ok? {
      assert h.value == HeaderFields(value);
      var r := ObjectFromHeader(value, h.value, measure);
      if r.Ok? {
        NameTableIds(value, h.value.nametableOffset, h.value.nametableCount);
      }
    }
  }

  /** An object whose magic word is wrong fails with a bad magic word, and
      only then. */
  lemma BadMagicFails(value: seq<byte>, measure: CodeHunks.CodeHunks -> Sizes)
    requires |value| >= 4
    ensures DecodeObject(value, measure) == Err(BadMagic) <==> U32At(value, 0) != OBJECT_MAGIC
  {
  }

  /** Past the magic word, each reserved field is checked as soon as it is
      read: a non-zero one fails with the reserved error even when the
      header is cut short after it, and a header cut short before the next
      field is read panics. A flag bit outside the four defined ones makes
      the object fail. */
  lemma ReservedAndFlagsFail(value: seq<byte>, measure: CodeHunks.CodeHunks -> Sizes)
    requires |value| >= 32 && U32At(value, 0) == OBJECT_MAGIC
    ensures U32At(value, 28) != 0 ==> DecodeObject(value, measure) == Err(ReservedNotZero)
    ensures U32At(value, 28) == 0 && |value| < 63 ==> DecodeObject(value, measure) == Err(Panic)
    ensures U32At(value, 28) == 0 && |value| >= 63 && value[62] != 0
            ==> DecodeObject(value, measure) == Err(ReservedNotZero)
    ensures U32At(value, 28) == 0 && |value| == 63 && value[62] == 0 ==> DecodeObject(value, measure) == Err(Panic)
    ensures |value| >= HEADER_SIZE && value[63] != 0 ==> DecodeObject(value, measure) == Err(ReservedNotZero)
    ensures U16At(value, 6) >= 0x10 ==> DecodeObject(value, measure).Err?
  {
  }
}

=== FILE: outcomes.dfy ===
/** Failure-compatible result types shared by every decoder.

    The Rust code reports failures in two ways: an `Err(String)` returned to
    the caller, and a panic (a slice index out of range, an `unwrap` of an
    `Err` or `None`, a failed `assert_eq!`, an integer overflow in a debug
    build).  Both become an `Err` here: a returned error keeps a tag saying
    which check failed, and every panic is `Err(Panic)`.
 */
module Outcomes {

  /** Why a decode failed.  The message text of the Rust errors is not kept. */
  datatype Error =
    | Panic            // the Rust code panics: the decode aborts
    | InvalidInput     // `ErrorKind::InvalidInput` from a serialiser
    | BadMagic         // a magic word does not match
    | BadFlags         // the library flags word is not zero
    | ReservedNotZero  // a reserved object header field is not zero
    | ReservedHunk     // a reserved hunk kind was met in the hunk stream
    | BadBranch        // a decoder met a hunk kind it does not handle
    | BadHunkTag       // a 16-bit hunk tag outside the tag table
    | BadTypeTag       // a type-table tag outside 0..8
    | BadRoutineType   // a routine type other than 0 or 1
    | BadEnumType      // an enum whose base type is not a basic type
    | BadStorageKind   // a local variable storage kind outside 0..2
    | BadStorageClass  // a local variable storage class outside 0..3

  datatype Option<+T> = None | Some(value: T)

  datatype Result<+T> = Ok(value: T) | Err(error: Error) {

    predicate IsFailure() {
      Err?
    }

    function PropagateFailure<U>(): Result<U>
      requires Err?
    {
      Err(error)
    }

    function Extract(): T
      requires Ok?
    {
      value
    }
  }

  /** `Result::unwrap`: any error becomes a panic. */
  function Unwrap<T>(r: Result<T>): (u: Result<T>)
    ensures u.Ok? <==> r.Ok?
    ensures u.Ok? ==> u.value == r.value
    ensures u.Err? ==> u.error == Panic
  {
    if r.Ok? then r else Err(Panic)
  }

  /** Puts the values already collected in front of the rest of a decode. */
  function Prepend<T>(done: seq<T>, rest: Result<seq<T>>): (r: Result<seq<T>>)
    ensures r.Ok? <==> rest.Ok?
    ensures r.Ok? ==> r.value == done + rest.value
    ensures r.Err? ==> r.error == rest.error
  {
    match rest
    case Ok(s) => Ok(done + s)
    case Err(e) => Err(e)
  }

  lemma PrependAssoc<T>(a: seq<T>, b: seq<T>, rest: Result<seq<T>>)
    ensures Prepend(a, Prepend(b, rest)) == Prepend(a + b, rest)
  {
    if rest.Ok? {
      assert a + (b + rest.value) == (a + b) + rest.value;
    }
  }

  /** Appending a non-empty sequence is appending its head, then its tail. */
  lemma AppendHead<T>(done: seq<T>, s: seq<T>)
    requires s != []
    ensures done + [s[0]] + s[1..] == done + s
  {
    assert [s[0]] + s[1..] == s;
    assert done + [s[0]] + s[1..] == done + ([s[0]] + s[1..]);
  }
}

=== FILE: symtab.dfy ===
/** The symbol table of an object file (src/symtable_m68k.rs).

    A symbol table is a 32-byte header (the magic word `SYMH`, the offset of
    the type table, the number of types, the number of unnamed entries and
    four reserved words), then the routines back to back, and, when the
    type-table offset is not zero, a type table at that offset.

    A routine is a 16-bit routine type, a list of 8-byte statement locations
    closed by one whose object offset is -1, a 16-bit count of local
    variables and that many 14-byte local variables.
 */
module Symtab {
  import opened Outcomes
  import opened Util
  import DataTypes
  import TypeTables

  /** `SymTableMagicWord`: "SYMH". */
  const SYMTAB_MAGIC: u32 := 0x53594D48

  /** The length of the symbol-table header. */
  const HEADER_LENGTH: nat := 32

  // =====================================================================
  // Statement locations
  // =====================================================================

  datatype StatementLocation = StatementLocation(offset: i32, sourceOffset: u32) {
    /** `is_end_of_list`: the object offset -1 closes the list. */
    predicate IsEndOfList() { offset == -1 }

    function RawLength(): nat { 8 }
  }

  /** `StatementLocation::from`: a signed object offset and an unsigned
      source offset. */
  function ParseStatementLocation(value: seq<byte>): (r: Result<StatementLocation>)
    ensures r.Ok? <==> |value| >= 8
    ensures r.Ok? ==> (r.value.IsEndOfList() <==> value[0..4] == [0xFF, 0xFF, 0xFF, 0xFF])
  {
    if |value| < 8 then Err(Panic)
    else
      var loc := StatementLocation(BeI32(value[0..4]), U32At(value, 4));
      AllOnesIsMinusOne();
      I32RoundTrip(-1);
      Ok(loc)
  }

  // =====================================================================
  // Local variables
  // =====================================================================

  /** `StorageKind`, stored in one byte. */
  datatype StorageKind = Local | Value | Reference

  function StorageKindCode(k: StorageKind): byte
  {
    match k
    case Local => 0
    case Value => 1
    case Reference => 2
  }

  /** `StorageKind::try_from(u8)`: bytes 0 to 2, anything else fails. */
  function StorageKindOf(b: byte): (r: Result<StorageKind>)
    ensures r.Ok? <==> b <= 2
    ensures r.Ok? ==> StorageKindCode(r.value) == b
    ensures r.Err? ==> r.error == BadStorageKind
  {
    match b
    case 0 => Ok(Local)
    case 1 => Ok(Value)
    case 2 => Ok(Reference)
    case _ => Err(BadStorageKind)
  }

  /** `StorageClass`, stored in one byte. */
  datatype StorageClass = Register | A5 | A6 | A7

  function StorageClassCode(c: StorageClass): byte
  {
    match c
    case Register => 0
    case A5 => 1
    case A6 => 2
    case A7 => 3
  }

  /** `StorageClass::try_from(u8)`: bytes 0 to 3, anything else fails. */
  function StorageClassOf(b: byte): (r: Result<StorageClass>)
    ensures r.Ok? <==> b <= 3
    ensures r.Ok? ==> StorageClassCode(r.value) == b
    ensures r.Err? ==> r.error == BadStorageClass
  {
    match b
    case 0 => Ok(Register)
    case 1 => Ok(A5)
    case 2 => Ok(A6)
    case 3 => Ok(A7)
    case _ => Err(BadStorageClass)
  }

  /** Every kind and class is read back from its own byte. */
  lemma StorageCodesInverse(k: StorageKind, c: StorageClass)
    ensures StorageKindOf(StorageKindCode(k)) == Ok(k)
    ensures StorageClassOf(StorageClassCode(c)) == Ok(c)
  {
  }

  datatype LocalVar = LocalVar(nameId: u32, varType: DataTypes.DataType, kind: StorageKind,
                               sclass: StorageClass, wher: u32) {
    function RawLength(): nat { 14 }
  }

  /** `LocalVar::from`: the storage kind and class are unwrapped, so a bad
      byte panics. */
  function ParseLocalVar(value: seq<byte>): (r: Result<LocalVar>)
    ensures r.Ok? <==> |value| >= 14 && value[8] <= 2 && value[9] <= 3
    ensures r.Err? ==> r.error == Panic
    ensures r.Ok? ==> DataTypes.Canonical(r.value.varType)
  {
    if |value| < 14 then Err(Panic)
    else
      var kind :- Unwrap(StorageKindOf(value[8]));
      var sclass :- Unwrap(StorageClassOf(value[9]));
      DataTypes.CodeRoundTrip(U32At(value, 4));
      Ok(LocalVar(U32At(value, 0), DataTypes.FromU32(U32At(value, 4)), kind, sclass, U32At(value, 10)))
  }

  // =====================================================================
  // Routines
  // =====================================================================

  /** `RoutineType`; `Unknown` is only the type of a default routine. */
  datatype RoutineType = Procedure | Function | Unknown

  /** The routine-type match of `Routine::try_from`. */
  function RoutineTypeOf(v: u16): (r: Result<RoutineType>)
    ensures r.Ok? <==> v <= 1
    ensures r.Ok? ==> (r.value == Procedure <==> v == 0) && (r.value == Function <==> v == 1)
    ensures r.Err? ==> r.error == BadRoutineType
  {
    if v == 0 then Ok(Procedure)
    else if v == 1 then Ok(Function)
    else Err(BadRoutineType)
  }

  datatype Routine = Routine(typ: RoutineType, statements: seq<StatementLocation>, locals: seq<LocalVar>) {
    /** `Routine::raw_length`: the type and the local count (4 bytes), 8 per
        statement location and 14 per local variable. */
    function RawLength(): nat { 4 + 8 * |statements| + 14 * |locals| }
  }

  /** The statement list of a routine: locations are read until, and
      including, the first one that ends the list. */
  function StatementList(d: seq<byte>): (r: Result<seq<StatementLocation>>)
    ensures r.Ok? ==> |r.value| >= 1 && 8 * |r.value| <= |d|
    ensures r.Ok? ==> EndsOnce(r.value)
    ensures r.Err? ==> r.error == Panic
    decreases |d|
  {
    var loc :- ParseStatementLocation(d);
    if loc.IsEndOfList() then Ok([loc])
    else
      var rest := StatementList(d[8..]);
      if rest.Ok? then
        assert forall i :: 1 <= i < |rest.value| + 1 ==> ([loc] + rest.value)[i] == rest.value[i - 1];
        Prepend([loc], rest)
      else Prepend([loc], rest)
  }

  /** The last location ends the list and no earlier one does. */
  predicate EndsOnce(ss: seq<StatementLocation>)
  {
    |ss| >= 1 && ss[|ss| - 1].IsEndOfList()
    && forall i :: 0 <= i < |ss| - 1 ==> !ss[i].IsEndOfList()
  }

  /** `n` local variables, 14 bytes each. */
  function LocalVarList(d: seq<byte>, n: nat): (r: Result<seq<LocalVar>>)
    ensures r.Ok? ==> |r.value| == n && 14 * n <= |d|
    ensures r.Err? ==> r.error == Panic
    decreases n
  {
    if n == 0 then Ok([])
    else
      var local :- ParseLocalVar(d);
      var rest := LocalVarList(d[14..], n - 1);
      Prepend([local], rest)
  }

  /** What `Routine::try_from` computes. */
  function DecodeRoutine(value: seq<byte>): (r: Result<Routine>)
    ensures r.Ok? ==> r.value.RawLength() <= |value| && r.value.typ != Unknown
    ensures r.Ok? ==> EndsOnce(r.value.statements) && |r.value.locals| <= 0xFFFF
    ensures |value| >= 2 && U16At(value, 0) > 1 ==> r == Err(BadRoutineType)
    ensures r.Err? ==> r.error == Panic || r.error == BadRoutineType
  {
    if |value| < 2 then Err(Panic)
    else
      var typ :- RoutineTypeOf(U16At(value, 0));
      RoutineParts(value, typ)
  }

  /** The statement list and the counted local variables that follow the
      routine type. */
  function RoutineParts(value: seq<byte>, typ: RoutineType): (r: Result<Routine>)
    requires |value| >= 2
    ensures r.Ok? ==> r.value.RawLength() <= |value| && r.value.typ == typ
    ensures r.Ok? ==> EndsOnce(r.value.statements) && |r.value.locals| <= 0xFFFF
    ensures r.Err? ==> r.error == Panic
  {
    var statements :- StatementList(value[2..]);
    var at := 2 + 8 * |statements|;
    if |value| < at + 2 then Err(Panic)
    else
      var locals :- RoutineLocals(value, at);
      Ok(Routine(typ, statements, locals))
  }

  /** The local-variable count at offset `at` and the variables after it. */
  function RoutineLocals(value: seq<byte>, at: nat): (r: Result<seq<LocalVar>>)
    requires at + 2 <= |value|
    ensures r.Ok? ==> |r.value| == U16At(value, at) && at + 2 + 14 * |r.value| <= |value|
    ensures r.Err? ==> r.error == Panic
  {
    LocalVarList(value[at + 2..], U16At(value, at))
  }

  /** `Routine::try_from`: the routine type, the statement loop, the
      local-variable count and the local-variable loop. */
  method ParseRoutine(value: seq<byte>) returns (r: Result<Routine>)
    ensures r == DecodeRoutine(value)
  {
    if |value| < 2 {
      return Err(Panic);
    }
    var typ := RoutineTypeOf(U16At(value, 0));
    if typ.Err? {
      return Err(typ.error);
    }
    assert DecodeRoutine(value) == RoutineParts(value, typ.value);
    var statements := ParseStatements(value[2..]);
    if statements.Err? {
      return Err(Panic);
    }
    var at := 2 + 8 * |statements.value|;
    if |value| < at + 2 {
      return Err(Panic);
    }
    var locals := ParseLocalVars(value[at + 2..], U16At(value, at));
    assert locals == RoutineLocals(value, at);
    if locals.Err? {
      return Err(Panic);
    }
    r := Ok(Routine(typ.value, statements.value, locals.value));
  }

  /** The `while !eol` loop of `Routine::try_from`. */
  method ParseStatements(bytes: seq<byte>) returns (r: Result<seq<StatementLocation>>)
    ensures r == StatementList(bytes)
  {
    var data := bytes;
    var statements: seq<StatementLocation> := [];
    var eol := false;
    assert Prepend(statements, StatementList(data)) == StatementList(data) by {
      if StatementList(data).Ok? {
        assert [] + StatementList(data).value == StatementList(data).value;
      }
    }
    while !eol
      invariant !eol ==> Prepend(statements, StatementList(data)) == StatementList(bytes)
      invariant eol ==> StatementList(bytes) == Ok(statements)
      decreases if eol then 0 else |data| + 1
    {
      var loc := ParseStatementLocation(data);
      if loc.Err? {
        return Err(Panic);
      }
      PrependAssoc(statements, [loc.value], StatementList(data[8..]));
      data := data[loc.value.RawLength()..];
      eol := loc.value.IsEndOfList();
      statements := statements + [loc.value];
    }
    r := Ok(statements);
  }

  /** The counted local-variable loop of `Routine::try_from`. */
  method ParseLocalVars(bytes: seq<byte>, count: u16) returns (r: Result<seq<LocalVar>>)
    ensures r == LocalVarList(bytes, count)
  {
    var data := bytes;
    var remaining := count;
    var locals: seq<LocalVar> := [];
    assert Prepend(locals, LocalVarList(data, remaining)) == LocalVarList(data, remaining) by {
      if LocalVarList(data, remaining).Ok? {
        assert [] + LocalVarList(data, remaining).value == LocalVarList(data, remaining).value;
      }
    }
    while remaining != 0
      invariant Prepend(locals, LocalVarList(data, remaining)) == LocalVarList(bytes, count)
    {
      var local := ParseLocalVar(data);
      LocalVarListStep(data, remaining);
      if local.Err? {
        return Err(Panic);
      }
      ghost var next := LocalVarList(data[14..], remaining - 1);
      PrependAssoc(locals, [local.value], next);
      data := data[local.value.RawLength()..];
      locals := locals + [local.value];
      remaining := remaining - 1;
      assert LocalVarList(data, remaining) == next;
    }
    assert locals + [] == locals;
    r := Ok(locals);
  }

  /** One round of the local-variable loop. */
  lemma LocalVarListStep(d: seq<byte>, n: nat)
    requires n > 0
    ensures ParseLocalVar(d).Err? ==> LocalVarList(d, n) == Err(Panic)
    ensures ParseLocalVar(d).Ok? ==>
              LocalVarList(d, n) == Prepend([ParseLocalVar(d).value], LocalVarList(d[14..], n - 1))
  {
  }

  // =====================================================================
  // The symbol table
  // =====================================================================

  datatype SymbolTable = SymbolTable(unnamed: u32, reserved: seq<u32>, routines: seq<Routine>,
                                     types: seq<TypeTables.TypeDefinition>) {
    /** `SymbolTable::raw_length`: the header, every routine's `raw_length`
        and every type definition's `raw_length`. */
    function RawLength(): nat
    {
      HEADER_LENGTH + RoutinesLength(routines) + TypeTables.SumRawLength(types)
    }
  }

  function RoutinesLength(rs: seq<Routine>): nat
  {
    if rs == [] then 0 else rs[0].RawLength() + RoutinesLength(rs[1..])
  }

  /** `SymbolTable::default`: no routines, no types, zero header words. */
  function DefaultSymbolTable(): (st: SymbolTable)
    ensures st.RawLength() == HEADER_LENGTH
  {
    SymbolTable(0, [0, 0, 0, 0], [], [])
  }

  /** The routine loop of `SymbolTable::try_from`: routines are read back
      to back until no byte is left, each `unwrap`ped. */
  function RoutineList(d: seq<byte>): (r: Result<seq<Routine>>)
    ensures r.Ok? ==> RoutinesLength(r.value) == |d|
    ensures r.Err? ==> r.error == Panic
    decreases |d|
  {
    if |d| == 0 then Ok([])
    else
      var routine :- Unwrap(DecodeRoutine(d));
      var rest := RoutineList(d[routine.RawLength()..]);
      if rest.Ok? then
        assert ([routine] + rest.value)[1..] == rest.value;
        Prepend([routine], rest)
      else Prepend([routine], rest)
  }

  /** The four reserved words, each read big-endian. */
  function Reserved(value: seq<byte>): (r: seq<u32>)
    requires |value| >= HEADER_LENGTH
    ensures |r| == 4
  {
    [U32At(value, 16), U32At(value, 20), U32At(value, 24), U32At(value, 28)]
  }

  /** The type table of a symbol table: read from `type_offset` with
      `num_types` entries by the table reader as written and `unwrap`ped,
      or empty for offset 0. */
  function TypesAt(value: seq<byte>, typeOffset: u32, numTypes: u32): (r: Result<seq<TypeTables.TypeDefinition>>)
    ensures typeOffset == 0 ==> r == Ok([])
    ensures r.Err? ==> r.error == Panic
  {
    if typeOffset == 0 then Ok([])
    else if typeOffset > |value| then Err(Panic)
    else
      var table :- Unwrap(TypeTables.DecodeTypeTableAsWritten(value[typeOffset..], numTypes));
      Ok(table.table)
  }

  /** The type table as the intended reader finds it: TypesAt with the
      corrected Pascal-enum arm. */
  function TypesAtIntended(value: seq<byte>, typeOffset: u32, numTypes: u32)
    : (r: Result<seq<TypeTables.TypeDefinition>>)
    ensures typeOffset == 0 ==> r == Ok([])
    ensures r.Err? ==> r.error == Panic
    ensures r.Ok? && typeOffset != 0 ==> |r.value| == numTypes
  {
    if typeOffset == 0 then Ok([])
    else if typeOffset > |value| then Err(Panic)
    else
      TypeTables.TypeTableCount(value[typeOffset..], numTypes);
      var table :- Unwrap(TypeTables.DecodeTypeTable(value[typeOffset..], numTypes));
      Ok(table.table)
  }

  /** The type table as written is the intended one when it holds no Pascal
      enum; one Pascal enum, or any failure of the intended read, makes it
      panic. */
  lemma TypesAtAsWritten(value: seq<byte>, typeOffset: u32, numTypes: u32)
    ensures TypesAtIntended(value, typeOffset, numTypes).Err? ==> TypesAt(value, typeOffset, numTypes) == Err(Panic)
    ensures TypesAtIntended(value, typeOffset, numTypes).Ok? ==>
              TypesAt(value, typeOffset, numTypes)
              == if TypeTables.HasPascalEnum(TypesAtIntended(value, typeOffset, numTypes).value) then Err(Panic)
                 else TypesAtIntended(value, typeOffset, numTypes)
  {
    if typeOffset != 0 && typeOffset <= |value| {
      TypeTables.TypeTableAsWritten(value[typeOffset..], numTypes);
    }
  }

  /** What `SymbolTable::try_from` computes. */
  function DecodeSymbolTable(value: seq<byte>): (r: Result<SymbolTable>)
    ensures r.Ok? ==> |value| >= HEADER_LENGTH && U32At(value, 0) == SYMTAB_MAGIC
    ensures |value| >= 4 && U32At(value, 0) != SYMTAB_MAGIC ==> r == Err(BadMagic)
    ensures r.Err? ==> r.error == Panic || r.error == BadMagic
  {
    if |value| < 4 then Err(Panic)
    else if U32At(value, 0) != SYMTAB_MAGIC then Err(BadMagic)
    else if |value| < HEADER_LENGTH then Err(Panic)
    else
      var routines :- RoutineList(value[HEADER_LENGTH..]);
      var types :- TypesAt(value, U32At(value, 4), U32At(value, 8));
      Ok(SymbolTable(U32At(value, 12), Reserved(value), routines, types))
  }

  /** A symbol table whose type table starts with a Pascal enum (tag 7)
      panics: the table reader as written calls `PascalEnum::from`. */
  lemma PascalEnumTypePanics(value: seq<byte>)
    requires |value| >= HEADER_LENGTH && U32At(value, 0) == SYMTAB_MAGIC
    requires U32At(value, 4) != 0 && U32At(value, 4) as int + 6 <= |value| && U32At(value, 8) != 0
    requires U16At(value, U32At(value, 4)) == 7
    ensures DecodeSymbolTable(value) == Err(Panic)
  {
    var off := U32At(value, 4);
    assert value[off..] == value[off..|value|];
    SliceOfSlice(value, off, |value|, 0, 2);
    TypeTables.PascalEnumTagPanics(value[off..], U32At(value, 8));
  }

  /** `SymbolTable::try_from`: the header, the routine loop, then the type
      table. */
  method ParseSymbolTable(value: seq<byte>) returns (r: Result<SymbolTable>)
    ensures r == DecodeSymbolTable(value)
  {
    if |value| < 4 {
      return Err(Panic);
    }
    var magic := U32At(value, 0);
    if magic != SYMTAB_MAGIC {
      return Err(BadMagic);
    }
    if |value| < HEADER_LENGTH {
      return Err(Panic);
    }
    var typeOffset := U32At(value, 4);
    var numTypes := U32At(value, 8);
    var numUnnamed := U32At(value, 12);
    var reserved := Reserved(value);

    var routines := ParseRoutines(value[HEADER_LENGTH..]);
    if routines.Err? {
      return Err(Panic);
    }

    var types: seq<TypeTables.TypeDefinition> := [];
    if typeOffset != 0 {
      if typeOffset > |value| {
        return Err(Panic);
      }
      var table := TypeTables.ParseTypeTableAsWritten(value[typeOffset..], numTypes);
      if table.Err? {
        return Err(Panic);
      }
      types := table.value.table;
    }
    r := Ok(SymbolTable(numUnnamed, reserved, routines.value, types));
  }

  /** The routine loop of `SymbolTable::try_from`. */
  method ParseRoutines(bytes: seq<byte>) returns (r: Result<seq<Routine>>)
    ensures r == RoutineList(bytes)
  {
    var routineBytes := bytes;
    var routines: seq<Routine> := [];
    assert Prepend(routines, RoutineList(bytes)) == RoutineList(bytes) by {
      if RoutineList(bytes).Ok? {
        assert [] + RoutineList(bytes).value == RoutineList(bytes).value;
      }
    }
    while |routineBytes| != 0
      invariant Prepend(routines, RoutineList(routineBytes)) == RoutineList(bytes)
      decreases |routineBytes|
    {
      var routine := ParseRoutine(routineBytes);
      if routine.Err? {
        assert RoutineList(routineBytes) == Err(Panic);
        return Err(Panic);
      }
      assert RoutineList(routineBytes) == Prepend([routine.value], RoutineList(routineBytes[routine.value.RawLength()..]));
      PrependAssoc(routines, [routine.value], RoutineList(routineBytes[routine.value.RawLength()..]));
      routineBytes := routineBytes[routine.value.RawLength()..];
      routines := routines + [routine.value];
    }
    assert routines + [] == routines;
    r := Ok(routines);
  }

  /** With no type table, a parsed symbol table's `raw_length` is exactly
      the length of its bytes: the routines cover everything after the
      header. */
  lemma RawLengthWithoutTypes(value: seq<byte>)
    requires DecodeSymbolTable(value).Ok? && U32At(value, 4) == 0
    ensures DecodeSymbolTable(value).value.types == []
    ensures DecodeSymbolTable(value).value.RawLength() == |value|
  {
  }

  /** `borrow_types_mut().push(d)`: the new definition goes at the end and
      nothing else changes. The push is modelled on values: the table
      returned is a new one, and the update in place is not modelled. */
  function PushType(st: SymbolTable, d: TypeTables.TypeDefinition): (r: SymbolTable)
    ensures |r.types| == |st.types| + 1
    ensures r.types[..|st.types|] == st.types && r.types[|st.types|] == d
    ensures r.routines == st.routines && r.unnamed == st.unnamed && r.reserved == st.reserved
  {
    st.(types := st.types + [d])
  }

  // =====================================================================
  // routine_at_offset
  // =====================================================================

  /** The offset, from the start of the symbol table, at which routine `k`
      begins: the header, then the routines before it. */
  function RoutineStart(rs: seq<Routine>, k: nat): nat
    requires k <= |rs|
  {
    HEADER_LENGTH + RoutinesLength(rs[..k])
  }

  lemma {:induction false} RoutinesLengthAppend(rs: seq<Routine>, r: Routine)
    ensures RoutinesLength(rs + [r]) == RoutinesLength(rs) + r.RawLength()
  {
    if rs == [] {
      assert [] + [r] == [r];
    } else {
      assert (rs + [r])[1..] == rs[1..] + [r];
      RoutinesLengthAppend(rs[1..], r);
    }
  }

  /** Each routine begins after the one before it. */
  lemma RoutineStartStep(rs: seq<Routine>, k: nat)
    requires k < |rs|
    ensures RoutineStart(rs, k + 1) == RoutineStart(rs, k) + rs[k].RawLength()
  {
    assert rs[..k + 1] == rs[..k] + [rs[k]];
    RoutinesLengthAppend(rs[..k], rs[k]);
  }

  /** Routine starts strictly increase, so an offset is the start of at most
      one routine. */
  lemma {:induction false} RoutineStartIncreasing(rs: seq<Routine>, j: nat, k: nat)
    requires j < k <= |rs|
    ensures RoutineStart(rs, j) < RoutineStart(rs, k)
    decreases k - j
  {
    RoutineStartStep(rs, j);
    if j + 1 < k {
      RoutineStartIncreasing(rs, j + 1, k);
    }
  }

  /** `routine_at_offset`: walks the routines from the end of the header,
      subtracting each routine's `raw_length`, until the offset is used up.
      It finds routine `k` exactly when `offset` is where routine `k`
      begins; any other offset panics (below the header, between two
      routine starts, or past the last routine). */
  method RoutineAtOffset(st: SymbolTable, offset: nat) returns (r: Result<Routine>)
    ensures forall k :: 0 <= k < |st.routines| && offset == RoutineStart(st.routines, k)
              ==> r == Ok(st.routines[k])
    ensures (forall k :: 0 <= k < |st.routines| ==> offset != RoutineStart(st.routines, k))
              ==> r == Err(Panic)
  {
    var rs := st.routines;
    if offset < HEADER_LENGTH {
      forall k | 0 <= k < |rs| ensures offset != RoutineStart(rs, k) { }
      return Err(Panic);
    }
    var i := 0;
    var off: nat := offset - HEADER_LENGTH;
    assert rs[..0] == [];
    while off > 0
      invariant 0 <= i <= |rs|
      invariant RoutineStart(rs, i) + off == offset
      decreases off
    {
      if i == |rs| {
        forall k | 0 <= k < |rs| ensures offset != RoutineStart(rs, k) {
          RoutineStartIncreasing(rs, k, i);
        }
        return Err(Panic);
      }
      RoutineStartStep(rs, i);
      if off < rs[i].RawLength() {
        forall k | 0 <= k < |rs| ensures offset != RoutineStart(rs, k) {
          if k <= i {
            if k < i { RoutineStartIncreasing(rs, k, i); }
          } else {
            if i + 1 < k { RoutineStartIncreasing(rs, i + 1, k); }
          }
        }
        return Err(Panic);
      }
      off := off - rs[i].RawLength();
      i := i + 1;
    }
    forall k | 0 <= k < |rs| && k != i ensures offset != RoutineStart(rs, k) {
      if k < i { RoutineStartIncreasing(rs, k, i); } else { RoutineStartIncreasing(rs, i, k); }
    }
    if i == |rs| {
      return Err(Panic);
    }
    r := Ok(rs[i]);
  }

  // =====================================================================
  // The layout the reader expects
  // =====================================================================

  function EncodeStatement(s: StatementLocation): (r: seq<byte>)
    ensures |r| == s.RawLength()
  {
    I32Bytes(s.offset) + U32Bytes(s.sourceOffset)
  }

  function EncodeStatements(ss: seq<StatementLocation>): (r: seq<byte>)
    ensures |r| == 8 * |ss|
  {
    if ss == [] then [] else EncodeStatement(ss[0]) + EncodeStatements(ss[1..])
  }

  function EncodeLocal(l: LocalVar): (r: seq<byte>)
    requires l.varType != DataTypes.Undefined
    ensures |r| == l.RawLength()
  {
    U32Bytes(l.nameId) + U32Bytes(DataTypes.ToU32(l.varType).value)
      + [StorageKindCode(l.kind), StorageClassCode(l.sclass)] + U32Bytes(l.wher)
  }

  predicate LocalsCanonical(ls: seq<LocalVar>)
  {
    forall i :: 0 <= i < |ls| ==> DataTypes.Canonical(ls[i].varType)
  }

  function EncodeLocals(ls: seq<LocalVar>): (r: seq<byte>)
    requires LocalsCanonical(ls)
    ensures |r| == 14 * |ls|
  {
    if ls == [] then []
    else
      assert LocalsCanonical(ls[1..]) by {
        assert forall i :: 0 <= i < |ls[1..]| ==> ls[1..][i] == ls[i + 1];
      }
      EncodeLocal(ls[0]) + EncodeLocals(ls[1..])
  }

  /** A routine that `Routine::try_from` can produce. */
  predicate WellFormedRoutine(r: Routine)
  {
    r.typ != Unknown && EndsOnce(r.statements) && |r.locals| <= 0xFFFF && LocalsCanonical(r.locals)
  }

  function RoutineTypeCode(t: RoutineType): u16
    requires t != Unknown
  {
    if t == Procedure then 0 else 1
  }

  /** A routine's bytes; they are exactly `raw_length` long. */
  function EncodeRoutine(r: Routine): (b: seq<byte>)
    requires WellFormedRoutine(r)
    ensures |b| == r.RawLength()
  {
    U16Bytes(RoutineTypeCode(r.typ)) + EncodeStatements(r.statements)
      + U16Bytes(|r.locals|) + EncodeLocals(r.locals)
  }

  lemma StatementRoundTrip(s: StatementLocation, rest: seq<byte>)
    ensures ParseStatementLocation(EncodeStatement(s) + rest) == Ok(s)
  {
    var b := EncodeStatement(s) + rest;
    assert b[0..4] == I32Bytes(s.offset) && b[4..8] == U32Bytes(s.sourceOffset);
    I32RoundTrip(s.offset);
    U32RoundTrip(s.sourceOffset);
  }

  lemma {:induction false} StatementListRoundTrip(ss: seq<StatementLocation>, rest: seq<byte>)
    requires EndsOnce(ss)
    ensures StatementList(EncodeStatements(ss) + rest) == Ok(ss)
  {
    var tail := EncodeStatements(ss[1..]) + rest;
    assert EncodeStatements(ss) + rest == EncodeStatement(ss[0]) + tail;
    StatementRoundTrip(ss[0], tail);
    assert (EncodeStatement(ss[0]) + tail)[8..] == tail;
    if |ss| > 1 {
      assert !ss[0].IsEndOfList();
      assert EndsOnce(ss[1..]) by {
        assert forall i :: 0 <= i < |ss[1..]| ==> ss[1..][i] == ss[i + 1];
      }
      StatementListRoundTrip(ss[1..], rest);
      assert [ss[0]] + ss[1..] == ss;
    } else {
      assert [ss[0]] == ss;
    }
  }

  lemma LocalRoundTrip(l: LocalVar, rest: seq<byte>)
    requires DataTypes.Canonical(l.varType)
    ensures ParseLocalVar(EncodeLocal(l) + rest) == Ok(l)
  {
    var t := DataTypes.ToU32(l.varType).value;
    var b := EncodeLocal(l) + rest;
    assert b[0..4] == U32Bytes(l.nameId) && b[4..8] == U32Bytes(t) && b[10..14] == U32Bytes(l.wher);
    assert b[8] == StorageKindCode(l.kind) && b[9] == StorageClassCode(l.sclass);
    U32RoundTrip(l.nameId);
    U32RoundTrip(t);
    U32RoundTrip(l.wher);
    DataTypes.TypeRoundTrip(l.varType);
    StorageCodesInverse(l.kind, l.sclass);
  }

  lemma {:induction false} LocalVarListRoundTrip(ls: seq<LocalVar>, rest: seq<byte>)
    requires LocalsCanonical(ls)
    ensures LocalVarList(EncodeLocals(ls) + rest, |ls|) == Ok(ls)
  {
    if ls != [] {
      assert LocalsCanonical(ls[1..]) by {
        assert forall i :: 0 <= i < |ls[1..]| ==> ls[1..][i] == ls[i + 1];
      }
      var tail := EncodeLocals(ls[1..]) + rest;
      assert EncodeLocals(ls) + rest == EncodeLocal(ls[0]) + tail;
      LocalRoundTrip(ls[0], tail);
      assert (EncodeLocal(ls[0]) + tail)[14..] == tail;
      LocalVarListRoundTrip(ls[1..], rest);
      assert [ls[0]] + ls[1..] == ls;
    }
  }

  /** `DecodeRoutine` from the fields it reads. */
  lemma {:induction false} DecodeRoutineFields(value: seq<byte>, typ: RoutineType, ss: seq<StatementLocation>, ls: seq<LocalVar>)
    requires typ != Unknown && |value| >= 4 + 8 * |ss|
    requires U16At(value, 0) == RoutineTypeCode(typ)
    requires StatementList(value[2..]) == Ok(ss)
    requires RoutineLocals(value, 2 + 8 * |ss|) == Ok(ls)
    ensures DecodeRoutine(value) == Ok(Routine(typ, ss, ls))
  {
    assert RoutineTypeOf(U16At(value, 0)) == Ok(typ);
    assert RoutineParts(value, typ) == Ok(Routine(typ, ss, ls));
  }

  /** `DecodeRoutine` on bytes laid out as a routine: the type code, the
      statement bytes, the local count, the local bytes and whatever follows. */
  lemma {:induction false} DecodeRoutineParts(typ: RoutineType, ss: seq<StatementLocation>, ls: seq<LocalVar>,
                                              stmts: seq<byte>, locals: seq<byte>)
    requires typ != Unknown && |stmts| == 8 * |ss| && |ls| <= 0xFFFF
    requires StatementList(stmts + (U16Bytes(|ls|) + locals)) == Ok(ss)
    requires LocalVarList(locals, |ls|) == Ok(ls)
    ensures DecodeRoutine(U16Bytes(RoutineTypeCode(typ)) + (stmts + (U16Bytes(|ls|) + locals)))
            == Ok(Routine(typ, ss, ls))
  {
    var b := U16Bytes(RoutineTypeCode(typ)) + (stmts + (U16Bytes(|ls|) + locals));
    RoutineLayout(RoutineTypeCode(typ), stmts, |ls|, locals);
    assert RoutineLocals(b, 2 + 8 * |ss|) == Ok(ls);
    DecodeRoutineFields(b, typ, ss, ls);
  }

  /** Where the fields of a routine's bytes sit. */
  lemma RoutineLayout(code: u16, stmts: seq<byte>, n: u16, locals: seq<byte>)
    ensures var b := U16Bytes(code) + (stmts + (U16Bytes(n) + locals));
            U16At(b, 0) == code && b[2..] == stmts + (U16Bytes(n) + locals)
            && U16At(b, 2 + |stmts|) == n && b[2 + |stmts| + 2..] == locals
  {
    var b := U16Bytes(code) + (stmts + (U16Bytes(n) + locals));
    assert b == [] + (U16Bytes(code) + (stmts + (U16Bytes(n) + locals)));
    U16Field([], code, stmts + (U16Bytes(n) + locals));
    assert b == (U16Bytes(code) + stmts) + (U16Bytes(n) + locals);
    U16Field(U16Bytes(code) + stmts, n, locals);
  }

  /** A well-formed routine is read back from its bytes, whatever follows,
      statements and local variables in order. */
  lemma {:induction false} RoutineRoundTrip(r: Routine, rest: seq<byte>)
    requires WellFormedRoutine(r)
    ensures DecodeRoutine(EncodeRoutine(r) + rest) == Ok(r)
  {
    var stmts := EncodeStatements(r.statements);
    var locals := EncodeLocals(r.locals) + rest;
    assert EncodeRoutine(r) + rest
           == U16Bytes(RoutineTypeCode(r.typ)) + (stmts + (U16Bytes(|r.locals|) + locals));
    StatementListRoundTrip(r.statements, U16Bytes(|r.locals|) + locals);
    LocalVarListRoundTrip(r.locals, rest);
    DecodeRoutineParts(r.typ, r.statements, r.locals, stmts, locals);
  }

  predicate AllWellFormed(rs: seq<Routine>)
  {
    forall i :: 0 <= i < |rs| ==> WellFormedRoutine(rs[i])
  }

  function EncodeRoutines(rs: seq<Routine>): (b: seq<byte>)
    requires AllWellFormed(rs)
    ensures |b| == RoutinesLength(rs)
  {
    if rs == [] then []
    else
      assert AllWellFormed(rs[1..]) by {
        assert forall i :: 0 <= i < |rs[1..]| ==> rs[1..][i] == rs[i + 1];
      }
      EncodeRoutine(rs[0]) + EncodeRoutines(rs[1..])
  }

  /** Routines written back to back are read back, in order, by the routine
      loop. */
  lemma {:induction false} RoutineListRoundTrip(rs: seq<Routine>)
    requires AllWellFormed(rs)
    ensures RoutineList(EncodeRoutines(rs)) == Ok(rs)
  {
    if rs != [] {
      assert AllWellFormed(rs[1..]) by {
        assert forall i :: 0 <= i < |rs[1..]| ==> rs[1..][i] == rs[i + 1];
      }
      var tail := EncodeRoutines(rs[1..]);
      RoutineRoundTrip(rs[0], tail);
      assert EncodeRoutine(rs[0]) + tail == EncodeRoutines(rs);
      assert EncodeRoutines(rs)[rs[0].RawLength()..] == tail;
      RoutineListRoundTrip(rs[1..]);
      assert [rs[0]] + rs[1..] == rs;
    }
  }

  /** The 32-byte header: the magic word, the type-table offset, the type
      count, the unnamed count and the four reserved words. */
  function EncodeHeader(typeOffset: u32, numTypes: u32, unnamed: u32, reserved: seq<u32>): (b: seq<byte>)
    requires |reserved| == 4
    ensures |b| == HEADER_LENGTH
  {
    U32Bytes(SYMTAB_MAGIC) + U32Bytes(typeOffset) + U32Bytes(numTypes) + U32Bytes(unnamed)
      + U32Bytes(reserved[0]) + U32Bytes(reserved[1]) + U32Bytes(reserved[2]) + U32Bytes(reserved[3])
  }

  /** Where the header fields sit, whatever follows the header. */
  lemma HeaderLayout(typeOffset: u32, numTypes: u32, unnamed: u32, reserved: seq<u32>, tail: seq<byte>)
    requires |reserved| == 4
    ensures var b := EncodeHeader(typeOffset, numTypes, unnamed, reserved) + tail;
            U32At(b, 0) == SYMTAB_MAGIC && U32At(b, 4) == typeOffset && U32At(b, 8) == numTypes
            && U32At(b, 12) == unnamed && Reserved(b) == reserved && b[HEADER_LENGTH..] == tail
  {
    var b := EncodeHeader(typeOffset, numTypes, unnamed, reserved) + tail;
    assert b[0..4] == U32Bytes(SYMTAB_MAGIC);
    assert b[4..8] == U32Bytes(typeOffset);
    assert b[8..12] == U32Bytes(numTypes);
    assert b[12..16] == U32Bytes(unnamed);
    assert b[16..20] == U32Bytes(reserved[0]);
    assert b[20..24] == U32Bytes(reserved[1]);
    assert b[24..28] == U32Bytes(reserved[2]);
    assert b[28..32] == U32Bytes(reserved[3]);
    assert b[HEADER_LENGTH..] == tail;
    U32RoundTrip(SYMTAB_MAGIC);
    U32RoundTrip(typeOffset);
    U32RoundTrip(numTypes);
    U32RoundTrip(unnamed);
    U32RoundTrip(reserved[0]);
    U32RoundTrip(reserved[1]);
    U32RoundTrip(reserved[2]);
    U32RoundTrip(reserved[3]);
  }

  /** A symbol table with no type table: the header (type-table offset and
      type count zero) followed by its routines. */
  function EncodeSymbolTable(st: SymbolTable): (b: seq<byte>)
    requires AllWellFormed(st.routines) && |st.reserved| == 4
    ensures |b| == HEADER_LENGTH + RoutinesLength(st.routines)
  {
    EncodeHeader(0, 0, st.unnamed, st.reserved) + EncodeRoutines(st.routines)
  }

  /** A symbol table without types is read back from its bytes. */
  lemma {:induction false} SymbolTableRoundTrip(st: SymbolTable)
    requires AllWellFormed(st.routines) && |st.reserved| == 4 && st.types == []
    ensures DecodeSymbolTable(EncodeSymbolTable(st)) == Ok(st)
  {
    var b := EncodeSymbolTable(st);
    SymbolTableLayout(st);
    RoutineListRoundTrip(st.routines);
    assert TypesAt(b, 0, 0) == Ok([]);
  }

  /** Where the header fields and the routines of a symbol table's bytes sit. */
  lemma SymbolTableLayout(st: SymbolTable)
    requires AllWellFormed(st.routines) && |st.reserved| == 4
    ensures var b := EncodeSymbolTable(st);
            U32At(b, 0) == SYMTAB_MAGIC && U32At(b, 4) == 0 && U32At(b, 8) == 0
            && U32At(b, 12) == st.unnamed && Reserved(b) == st.reserved
            && b[HEADER_LENGTH..] == EncodeRoutines(st.routines)
  {
    HeaderLayout(0, 0, st.unnamed, st.reserved, EncodeRoutines(st.routines));
  }

  // =====================================================================
  // Symbol tables with a type table
  // =====================================================================

  /** The bytes of a symbol table laid out with its type table: the
      header, the routines, then the type table at the offset the header
      gives (offset and count zero when there are no types). */
  predicate Encodable(st: SymbolTable)
  {
    AllWellFormed(st.routines) && |st.reserved| == 4
    && TypeTables.AllWritable(st.types) && |st.types| < 0x1_0000_0000
    && HEADER_LENGTH + RoutinesLength(st.routines) < 0x1_0000_0000
  }

  /** The offset of the type table: right after the routines, or 0 for no
      type table. */
  function TypeOffset(st: SymbolTable): u32
    requires Encodable(st)
  {
    if st.types == [] then 0 else HEADER_LENGTH + RoutinesLength(st.routines)
  }

  /** The table's bytes take its `raw_length` plus four bytes per type:
      `raw_length` counts two bytes of each entry's six-byte header. */
  function EncodeSymbolTableWithTypes(st: SymbolTable): (b: seq<byte>)
    requires Encodable(st)
    ensures |b| == st.RawLength() + 4 * |st.types|
  {
    TypeTables.EncodedTableLength(st.types);
    EncodeHeader(TypeOffset(st), |st.types|, st.unnamed, st.reserved)
      + (EncodeRoutines(st.routines) + TypeTables.EncodeTable(st.types))
  }

  /** As written, the routine loop runs from the end of the header to the
      end of the symbol table, over the type table as well: the routines it
      reads, if any, span the type table's bytes too, so a table with types
      is never read back. */
  lemma TypedSymbolTableMisread(st: SymbolTable)
    requires Encodable(st) && st.types != []
    ensures var r := DecodeSymbolTable(EncodeSymbolTableWithTypes(st));
            r.Ok? ==> RoutinesLength(r.value.routines)
                      == RoutinesLength(st.routines) + |TypeTables.EncodeTable(st.types)|
    ensures DecodeSymbolTable(EncodeSymbolTableWithTypes(st)) != Ok(st)
  {
    var table := TypeTables.EncodeTable(st.types);
    HeaderLayout(TypeOffset(st), |st.types|, st.unnamed, st.reserved, EncodeRoutines(st.routines) + table);
    assert |table| >= 6 by {
      assert table == TypeTables.EncodeEntry(st.types[0]) + TypeTables.EncodeTable(st.types[1..]);
    }
  }

  /** For instance, a table with no routines whose first type is neither a
      pointer nor an array panics: that type's kind tag is read as a routine
      type, and only 0 and 1 are routine types. */
  lemma TypedSymbolTablePanics(st: SymbolTable)
    requires Encodable(st) && st.routines == [] && st.types != []
    requires TypeTables.KindTag(TypeTables.KindOf(st.types[0].typ)) > 1
    ensures DecodeSymbolTable(EncodeSymbolTableWithTypes(st)) == Err(Panic)
  {
    var d := st.types[0];
    var table := TypeTables.EncodeTable(st.types);
    var tag := TypeTables.KindTag(TypeTables.KindOf(d.typ));
    var b := EncodeSymbolTableWithTypes(st);
    HeaderLayout(TypeOffset(st), |st.types|, st.unnamed, st.reserved, EncodeRoutines(st.routines) + table);
    assert b[HEADER_LENGTH..] == table;
    assert table == U16Bytes(tag) + U32Bytes(d.id) + TypeTables.EncodeType(d.typ)
                    + TypeTables.EncodeTable(st.types[1..]);
    TypeTables.EntryHeader(tag, d.id, TypeTables.EncodeType(d.typ), TypeTables.EncodeTable(st.types[1..]));
    assert DecodeRoutine(table) == Err(BadRoutineType);
  }

  /** The routine bytes as the layout intends them: from the end of the
      header up to the type table, or to the end when there is none. */
  function RoutineRegion(value: seq<byte>, typeOffset: u32): (r: Result<seq<byte>>)
    requires |value| >= HEADER_LENGTH
    ensures r.Ok? ==> |r.value| == (if typeOffset == 0 then |value| else typeOffset) - HEADER_LENGTH
    ensures r.Err? ==> r.error == Panic
  {
    if typeOffset == 0 then Ok(value[HEADER_LENGTH..])
    else if typeOffset < HEADER_LENGTH || typeOffset > |value| then Err(Panic)
    else Ok(value[HEADER_LENGTH..typeOffset])
  }

  /** `SymbolTable::try_from` with the routine loop stopping at the type
      table and the corrected Pascal-enum arm in the type table. Without a
      type table it is the reader as written; with one, the routines read
      cover exactly the bytes between header and type table. */
  function DecodeSymbolTableIntended(value: seq<byte>): (r: Result<SymbolTable>)
    ensures |value| >= HEADER_LENGTH && U32At(value, 4) == 0 ==> r == DecodeSymbolTable(value)
    ensures r.Ok? ==> |value| >= HEADER_LENGTH && U32At(value, 0) == SYMTAB_MAGIC
    ensures r.Ok? && U32At(value, 4) != 0 ==> HEADER_LENGTH + RoutinesLength(r.value.routines) == U32At(value, 4)
    ensures r.Err? ==> r.error == Panic || r.error == BadMagic
  {
    if |value| < 4 then Err(Panic)
    else if U32At(value, 0) != SYMTAB_MAGIC then Err(BadMagic)
    else if |value| < HEADER_LENGTH then Err(Panic)
    else
      var region :- RoutineRegion(value, U32At(value, 4));
      var routines :- RoutineList(region);
      var types :- TypesAtIntended(value, U32At(value, 4), U32At(value, 8));
      Ok(SymbolTable(U32At(value, 12), Reserved(value), routines, types))
  }

  /** With the routine loop stopping at the type table, every encodable
      symbol table is read back: header words, routines and types, in
      order. */
  lemma SymbolTableIntendedRoundTrip(st: SymbolTable)
    requires Encodable(st)
    ensures DecodeSymbolTableIntended(EncodeSymbolTableWithTypes(st)) == Ok(st)
  {
    var b := EncodeSymbolTableWithTypes(st);
    EncodedParts(st);
    RoutineListRoundTrip(st.routines);
    assert RoutineList(EncodeRoutines(st.routines)) == Ok(st.routines);
  }

  /** The parts of a symbol table's bytes as the intended reader finds
      them: the header words, the routine region and the type table. */
  lemma EncodedParts(st: SymbolTable)
    requires Encodable(st)
    ensures var b := EncodeSymbolTableWithTypes(st);
            |b| >= HEADER_LENGTH && U32At(b, 0) == SYMTAB_MAGIC && U32At(b, 4) == TypeOffset(st)
            && U32At(b, 8) == |st.types| && U32At(b, 12) == st.unnamed && Reserved(b) == st.reserved
            && RoutineRegion(b, U32At(b, 4)) == Ok(EncodeRoutines(st.routines))
            && TypesAtIntended(b, U32At(b, 4), U32At(b, 8)) == Ok(st.types)
  {
    var routines := EncodeRoutines(st.routines);
    var table := TypeTables.EncodeTable(st.types);
    HeaderLayout(TypeOffset(st), |st.types|, st.unnamed, st.reserved, routines + table);
    if st.types == [] {
      assert EncodeSymbolTableWithTypes(st)[HEADER_LENGTH..] == routines;
    } else {
      TypeTableParts(st);
    }
  }

  /** The routine bytes and the type table of a table written with types. */
  lemma TypeTableParts(st: SymbolTable)
    requires Encodable(st) && st.types != []
    ensures var b := EncodeSymbolTableWithTypes(st);
            var off := HEADER_LENGTH + RoutinesLength(st.routines);
            off <= |b| && b[HEADER_LENGTH..off] == EncodeRoutines(st.routines)
            && TypeTables.DecodeTypeTable(b[off..], |st.types|) == Ok(TypeTables.TypeTable(st.types))
  {
    var routines := EncodeRoutines(st.routines);
    var table := TypeTables.EncodeTable(st.types);
    var b := EncodeSymbolTableWithTypes(st);
    var head := EncodeHeader(TypeOffset(st), |st.types|, st.unnamed, st.reserved);
    assert b == head + routines + table;
    var off := HEADER_LENGTH + RoutinesLength(st.routines);
    assert b[HEADER_LENGTH..off] == routines;
    assert b[off..] == table + [];
    TypeTables.TypeTableRoundTrip(st.types, []);
  }
}

=== FILE: type_records.dfy ===
/** The debug type records of the symbol table's type table
    (src/types_m68k.rs): pointer, array, struct, enum and the Pascal array,
    range, set, enum and string records, each with its parser (`From<&[u8]>`
    or `TryFrom<&[u8]>`), its big-endian serialiser (`serialize_out`) and its
    `raw_length`.

    A parser reads the record from the front of a byte slice and ignores what
    follows; a slice too short for the record makes the Rust code panic, which
    is `Err(Panic)` here. A serialiser produces the record's bytes, or
    `Err(InvalidInput)` when a field cannot be written (an `Undefined` type, a
    non-basic enum base type, more than 65535 members).
 */
module TypeRecords {
  import opened Outcomes
  import opened Util
  import opened DataTypes

  // =====================================================================
  // Pointer: u16 number, u32 type
  // =====================================================================

  datatype Pointer = Pointer(number: u16, typ: DataType) {
    function RawLength(): nat { 6 }

    /** `Pointer::serialize_out`: the number, then the type code. */
    function Serialize(): (r: Result<seq<byte>>)
      ensures r.Ok? <==> typ != Undefined
      ensures r.Ok? ==> |r.value| == RawLength()
    {
      var t :- ToU32(typ);
      Ok(U16Bytes(number) + U32Bytes(t))
    }
  }

  /** `Pointer::from`. */
  function ParsePointer(value: seq<byte>): (r: Result<Pointer>)
    ensures r.Ok? <==> |value| >= 6
    ensures r.Ok? ==> Canonical(r.value.typ)
  {
    if |value| < 6 then Err(Panic)
    else Ok(Pointer(U16At(value, 0), FromU32(U32At(value, 2))))
  }

  /** Serialising then parsing a pointer restores every field. */
  lemma {:induction false} PointerRoundTrip(p: Pointer, rest: seq<byte>)
    requires Canonical(p.typ)
    ensures ParsePointer(p.Serialize().value + rest) == Ok(p)
  {
    var t := ToU32(p.typ).value;
    var b := p.Serialize().value + rest;
    assert b[0..2] == U16Bytes(p.number) && b[2..6] == U32Bytes(t);
    U16RoundTrip(p.number);
    U32RoundTrip(t);
    TypeRoundTrip(p.typ);
  }

  /** Parsing reads exactly `raw_length` bytes, and serialising the result
      gives them back. */
  lemma {:induction false} PointerParseSerialize(value: seq<byte>)
    requires |value| >= 6
    ensures ParsePointer(value).value.Serialize() == Ok(value[..6])
  {
    CodeRoundTrip(U32At(value, 2));
    U16AtIsBytes(value, 0);
    U32AtIsBytes(value, 2);
    assert value[..6] == value[0..2] + value[2..6];
  }

  // =====================================================================
  // Array: u32 size, u32 element size, u32 type
  // =====================================================================

  datatype Array = Array(size: u32, esize: u32, typ: DataType) {
    function RawLength(): nat { 12 }

    /** `Array::serialize_out`. */
    function Serialize(): (r: Result<seq<byte>>)
      ensures r.Ok? <==> typ != Undefined
      ensures r.Ok? ==> |r.value| == RawLength()
    {
      var t :- ToU32(typ);
      Ok(U32Bytes(size) + U32Bytes(esize) + U32Bytes(t))
    }
  }

  /** `Array::from`. */
  function ParseArray(value: seq<byte>): (r: Result<Array>)
    ensures r.Ok? <==> |value| >= 12
    ensures r.Ok? ==> Canonical(r.value.typ)
  {
    if |value| < 12 then Err(Panic)
    else Ok(Array(U32At(value, 0), U32At(value, 4), FromU32(U32At(value, 8))))
  }

  lemma {:induction false} ArrayRoundTrip(a: Array, rest: seq<byte>)
    requires Canonical(a.typ)
    ensures ParseArray(a.Serialize().value + rest) == Ok(a)
  {
    var t := ToU32(a.typ).value;
    var b := a.Serialize().value + rest;
    assert b[0..4] == U32Bytes(a.size) && b[4..8] == U32Bytes(a.esize) && b[8..12] == U32Bytes(t);
    U32RoundTrip(a.size);
    U32RoundTrip(a.esize);
    U32RoundTrip(t);
    TypeRoundTrip(a.typ);
  }

  lemma {:induction false} ArrayParseSerialize(value: seq<byte>)
    requires |value| >= 12
    ensures ParseArray(value).value.Serialize() == Ok(value[..12])
  {
    CodeRoundTrip(U32At(value, 8));
    U32AtIsBytes(value, 0);
    U32AtIsBytes(value, 4);
    U32AtIsBytes(value, 8);
    assert value[..12] == value[0..4] + value[4..8] + value[8..12];
  }

  // =====================================================================
  // StructMember: u32 name id, u32 type, u32 offset
  // =====================================================================

  datatype StructMember = StructMember(nameId: u32, typ: DataType, offset: u32) {
    function RawLength(): nat { 12 }

    /** `StructMember::serialize_out`. */
    function Serialize(): (r: Result<seq<byte>>)
      ensures r.Ok? <==> typ != Undefined
      ensures r.Err? ==> r.error == InvalidInput
      ensures r.Ok? ==> |r.value| == RawLength()
    {
      var t :- ToU32(typ);
      Ok(U32Bytes(nameId) + U32Bytes(t) + U32Bytes(offset))
    }
  }

  /** `StructMember::from`. */
  function ParseStructMember(value: seq<byte>): (r: Result<StructMember>)
    ensures r.Ok? <==> |value| >= 12
    ensures r.Ok? ==> Canonical(r.value.typ)
  {
    if |value| < 12 then Err(Panic)
    else Ok(StructMember(U32At(value, 0), FromU32(U32At(value, 4)), U32At(value, 8)))
  }

  lemma {:induction false} StructMemberRoundTrip(m: StructMember, rest: seq<byte>)
    requires Canonical(m.typ)
    ensures ParseStructMember(m.Serialize().value + rest) == Ok(m)
  {
    var t := ToU32(m.typ).value;
    var b := m.Serialize().value + rest;
    assert b[0..4] == U32Bytes(m.nameId) && b[4..8] == U32Bytes(t) && b[8..12] == U32Bytes(m.offset);
    U32RoundTrip(m.nameId);
    U32RoundTrip(t);
    U32RoundTrip(m.offset);
    TypeRoundTrip(m.typ);
  }

  lemma {:induction false} StructMemberParseSerialize(value: seq<byte>)
    requires |value| >= 12
    ensures ParseStructMember(value).value.Serialize() == Ok(value[..12])
  {
    CodeRoundTrip(U32At(value, 4));
    U32AtIsBytes(value, 0);
    U32AtIsBytes(value, 4);
    U32AtIsBytes(value, 8);
    assert value[..12] == value[0..4] + value[4..8] + value[8..12];
  }

  // =====================================================================
  // Struct: u32 name id, u32 size, u16 member count, then the members
  // =====================================================================

  datatype Struct = Struct(nameId: u32, size: u32, members: seq<StructMember>) {
    /** `Struct::raw_length`: the 10-byte header and 12 bytes per member. */
    function RawLength(): nat { 10 + 12 * |members| }

    /** `Struct::serialize_out`: the header with a 16-bit member count, then
        every member; fails when the count does not fit in 16 bits or a
        member's type is `Undefined`. */
    function Serialize(): (r: Result<seq<byte>>)
      ensures r.Ok? <==> |members| <= 0xFFFF && AllTypesDefined(members)
      ensures r.Ok? ==> |r.value| == RawLength()
    {
      if |members| > 0xFFFF then Err(InvalidInput)
      else
        var body :- SerializeStructMembers(members);
        Ok(U32Bytes(nameId) + U32Bytes(size) + U16Bytes(|members|) + body)
    }
  }

  predicate AllTypesDefined(ms: seq<StructMember>)
  {
    forall i :: 0 <= i < |ms| ==> ms[i].typ != Undefined
  }

  predicate AllTypesCanonical(ms: seq<StructMember>)
  {
    forall i :: 0 <= i < |ms| ==> Canonical(ms[i].typ)
  }

  /** The members of a struct written one after the other. */
  function SerializeStructMembers(ms: seq<StructMember>): (r: Result<seq<byte>>)
    ensures r.Ok? <==> AllTypesDefined(ms)
    ensures r.Ok? ==> |r.value| == 12 * |ms|
  {
    if ms == [] then Ok([])
    else
      var head :- ms[0].Serialize();
      var tail :- SerializeStructMembers(ms[1..]);
      assert AllTypesDefined(ms) by {
        assert forall i :: 1 <= i < |ms| ==> ms[i] == ms[1..][i - 1];
      }
      Ok(head + tail)
  }

  /** What `Struct::from` computes: the header, then `n` members read 12
      bytes apart from offset 10; a slice too short for them panics. */
  function DecodeStruct(value: seq<byte>): (r: Result<Struct>)
    ensures r.Ok? ==> r.value.RawLength() <= |value| && |r.value.members| <= 0xFFFF
    ensures r.Ok? ==> AllTypesCanonical(r.value.members)
  {
    if |value| < 10 then Err(Panic)
    else
      var n := U16At(value, 8);
      if |value| < 10 + 12 * n then Err(Panic)
      else Ok(Struct(U32At(value, 0), U32At(value, 4), StructMembersAt(value, n)))
  }

  /** The `n` members that follow a struct header. */
  function StructMembersAt(value: seq<byte>, n: nat): (ms: seq<StructMember>)
    requires 10 + 12 * n <= |value|
    ensures |ms| == n && AllTypesCanonical(ms)
  {
    seq(n, k requires 0 <= k < n => ParseStructMember(value[10 + 12 * k..]).value)
  }

  /** `Struct::from`: the header, then a loop reading `num_members` members
      and advancing the slice by each member's `raw_length`. */
  method ParseStruct(value: seq<byte>) returns (r: Result<Struct>)
    ensures r == DecodeStruct(value)
  {
    if |value| < 10 {
      return Err(Panic);
    }
    var data := value;
    var name := U32At(data, 0);
    var size := U32At(data, 4);
    var numMembers := U16At(data, 8);
    data := data[10..];

    var members: seq<StructMember> := [];
    var idx := 0;
    while idx < numMembers
      invariant 0 <= idx <= numMembers
      invariant 10 + 12 * idx <= |value|
      invariant data == value[10 + 12 * idx..]
      invariant |members| == idx
      invariant forall k :: 0 <= k < idx ==> members[k] == ParseStructMember(value[10 + 12 * k..]).value
    {
      var sm := ParseStructMember(data);
      if sm.Err? {
        return Err(Panic);
      }
      data := data[sm.value.RawLength()..];
      members := members + [sm.value];
      idx := idx + 1;
    }
    assert members == StructMembersAt(value, numMembers);
    r := Ok(Struct(name, size, members));
  }

  lemma {:induction false} StructMembersSerializeAt(ms: seq<StructMember>, k: nat)
    requires SerializeStructMembers(ms).Ok? && k < |ms|
    ensures SerializeStructMembers(ms).value[12 * k..12 * k + 12] == ms[k].Serialize().value
  {
    var head := ms[0].Serialize().value;
    var tail := SerializeStructMembers(ms[1..]).value;
    assert SerializeStructMembers(ms).value == head + tail;
    if k > 0 {
      StructMembersSerializeAt(ms[1..], k - 1);
      assert (head + tail)[12 * k..12 * k + 12] == tail[12 * (k - 1)..12 * (k - 1) + 12];
    }
  }

  /** Serialising then parsing a struct restores it, members in order. */
  lemma {:induction false} StructRoundTrip(s: Struct, rest: seq<byte>)
    requires s.Serialize().Ok? && AllTypesCanonical(s.members)
    ensures DecodeStruct(s.Serialize().value + rest) == Ok(s)
  {
    var n := |s.members|;
    var body := SerializeStructMembers(s.members).value;
    var b := s.Serialize().value + rest;
    assert b[0..4] == U32Bytes(s.nameId) && b[4..8] == U32Bytes(s.size) && b[8..10] == U16Bytes(n);
    U32RoundTrip(s.nameId);
    U32RoundTrip(s.size);
    U16RoundTrip(n);
    assert b[10..10 + 12 * n] == body;
    StructMembersReadBack(s.members, b);
  }

  /** Members written from offset 10 are read back there. */
  lemma {:induction false} StructMembersReadBack(ms: seq<StructMember>, b: seq<byte>)
    requires SerializeStructMembers(ms).Ok? && AllTypesCanonical(ms)
    requires 10 + 12 * |ms| <= |b| && b[10..10 + 12 * |ms|] == SerializeStructMembers(ms).value
    ensures StructMembersAt(b, |ms|) == ms
  {
    forall k | 0 <= k < |ms|
      ensures StructMembersAt(b, |ms|)[k] == ms[k]
    {
      StructMemberReadBack(ms, b, k);
    }
  }

  /** Member `k` of them. */
  lemma {:induction false} StructMemberReadBack(ms: seq<StructMember>, b: seq<byte>, k: nat)
    requires SerializeStructMembers(ms).Ok? && AllTypesCanonical(ms) && k < |ms|
    requires 10 + 12 * |ms| <= |b| && b[10..10 + 12 * |ms|] == SerializeStructMembers(ms).value
    ensures ParseStructMember(b[10 + 12 * k..]).value == ms[k]
  {
    StructMembersSerializeAt(ms, k);
    SliceOfSlice(b, 10, 10 + 12 * |ms|, 12 * k, 12 * k + 12);
    assert b[10 + 12 * k..] == b[10 + 12 * k..22 + 12 * k] + b[22 + 12 * k..];
    StructMemberRoundTrip(ms[k], b[22 + 12 * k..]);
  }

  /** A struct's members, written one after the other. */
  lemma StructMembersCons(ms: seq<StructMember>, head: seq<byte>, tail: seq<byte>)
    requires ms != [] && ms[0].Serialize() == Ok(head) && SerializeStructMembers(ms[1..]) == Ok(tail)
    ensures SerializeStructMembers(ms) == Ok(head + tail)
  {
  }

  /** `ms` are the members read 12 bytes apart from `off`, one after the
      other. */
  predicate MembersReadFrom(value: seq<byte>, off: nat, ms: seq<StructMember>)
    decreases |ms|
  {
    ms != [] ==>
      && off + 12 <= |value| && ms[0] == ParseStructMember(value[off..]).value
      && MembersReadFrom(value, off + 12, ms[1..])
  }

  /** The members after a struct header, from the `j`-th on, are read 12
      bytes apart from their offset. */
  lemma {:induction false} StructMembersAtRead(value: seq<byte>, n: nat, j: nat)
    requires 10 + 12 * n <= |value| && j <= n
    ensures MembersReadFrom(value, 10 + 12 * j, StructMembersAt(value, n)[j..])
    decreases n - j
  {
    if j < n {
      var ms := StructMembersAt(value, n);
      StructMembersAtRead(value, n, j + 1);
      assert ms[j..][1..] == ms[j + 1..];
      assert ms[j..][0] == ParseStructMember(value[10 + 12 * j..]).value;
    }
  }

  lemma {:induction false} StructMembersParseSerialize(value: seq<byte>, off: nat, ms: seq<StructMember>)
    requires off + 12 * |ms| <= |value| && MembersReadFrom(value, off, ms)
    ensures SerializeStructMembers(ms) == Ok(value[off..off + 12 * |ms|])
    decreases |ms|
  {
    if ms != [] {
      var end := off + 12 * |ms|;
      var head := value[off..off + 12];
      var tail := value[off + 12..end];
      StructMemberParseSerialize(value[off..]);
      assert value[off..][..12] == head;
      StructMembersParseSerialize(value, off + 12, ms[1..]);
      assert off + 12 + 12 * |ms[1..]| == end;
      StructMembersCons(ms, head, tail);
      SliceSplit(value, off, off + 12, end);
    } else {
      assert value[off..off] == [];
    }
  }

  /** A parsed struct occupies exactly its `raw_length` bytes: serialising
      it gives back the bytes that were read. */
  lemma {:induction false} StructParseSerialize(value: seq<byte>)
    requires DecodeStruct(value).Ok?
    ensures DecodeStruct(value).value.Serialize() == Ok(value[..DecodeStruct(value).value.RawLength()])
  {
    var s := DecodeStruct(value).value;
    StructMembersAtRead(value, |s.members|, 0);
    assert s.members[0..] == s.members;
    StructMembersParseSerialize(value, 10, s.members);
    StructBytes(value, s);
  }

  /** A struct whose fields are those stored in `value` and whose members
      serialise to the bytes after the header serialises to its own
      bytes. */
  lemma {:induction false} StructBytes(value: seq<byte>, s: Struct)
    requires 10 + 12 * |s.members| <= |value| && |s.members| == U16At(value, 8)
    requires s.nameId == U32At(value, 0) && s.size == U32At(value, 4)
    requires SerializeStructMembers(s.members) == Ok(value[10..10 + 12 * |s.members|])
    ensures s.Serialize() == Ok(value[..s.RawLength()])
  {
    var n := |s.members|;
    var body := value[10..10 + 12 * n];
    U32AtIsBytes(value, 0);
    U32AtIsBytes(value, 4);
    U16AtIsBytes(value, 8);
    HeaderSplit(value, 10, 12 * n);
    assert s.Serialize() == Ok(U32Bytes(s.nameId) + U32Bytes(s.size) + U16Bytes(n) + body);
  }

  /** A record's bytes are its 4-byte, 4-byte and (h - 8)-byte header fields
      followed by its `m`-byte body. */
  lemma {:induction false} HeaderSplit(d: seq<byte>, h: nat, m: nat)
    requires 8 <= h && h + m <= |d|
    ensures d[..h + m] == d[0..4] + d[4..8] + d[8..h] + d[h..h + m]
  {
  }

  // =====================================================================
  // EnumMember: u32 name id, u32 value
  // =====================================================================

  datatype EnumMember = EnumMember(nameId: u32, value: u32) {
    function RawLength(): nat { 8 }

    /** `EnumMember::serialize_out`. */
    function Serialize(): (r: seq<byte>)
      ensures |r| == RawLength()
    {
      U32Bytes(nameId) + U32Bytes(value)
    }
  }

  /** `EnumMember::from`, also the read in the member loop of
      `Enum::try_from`. */
  function ParseEnumMember(value: seq<byte>): (r: Result<EnumMember>)
    ensures r.Ok? <==> |value| >= 8
  {
    if |value| < 8 then Err(Panic)
    else Ok(EnumMember(U32At(value, 0), U32At(value, 4)))
  }

  lemma {:induction false} EnumMemberRoundTrip(m: EnumMember, rest: seq<byte>)
    ensures ParseEnumMember(m.Serialize() + rest) == Ok(m)
  {
    var b := m.Serialize() + rest;
    assert b[0..4] == U32Bytes(m.nameId) && b[4..8] == U32Bytes(m.value);
    U32RoundTrip(m.nameId);
    U32RoundTrip(m.value);
  }

  lemma {:induction false} EnumMemberParseSerialize(value: seq<byte>)
    requires |value| >= 8
    ensures ParseEnumMember(value).value.Serialize() == value[..8]
  {
    U32AtIsBytes(value, 0);
    U32AtIsBytes(value, 4);
    assert value[..8] == value[0..4] + value[4..8];
  }

  // =====================================================================
  // Enum: u32 name id, u16 base type, u16 member count, then the members
  // =====================================================================

  datatype Enum = Enum(nameId: u32, typ: DataType, members: seq<EnumMember>) {
    /** `Enum::raw_length`: the 8-byte header and 8 bytes per member. */
    function RawLength(): nat { 8 + 8 * |members| }

    /** `Enum::serialize_out`: the base type is written as a 16-bit code, so
        only a basic type can be written. */
    function Serialize(): (r: Result<seq<byte>>)
      ensures r.Ok? <==> typ.Basic? && |members| <= 0xFFFF
      ensures r.Ok? ==> |r.value| == RawLength()
    {
      var t :- ToU16(typ);
      if |members| > 0xFFFF then Err(InvalidInput)
      else Ok(U32Bytes(nameId) + U16Bytes(t) + U16Bytes(|members|) + SerializeEnumMembers(members))
    }
  }

  function SerializeEnumMembers(ms: seq<EnumMember>): (r: seq<byte>)
    ensures |r| == 8 * |ms|
  {
    if ms == [] then [] else ms[0].Serialize() + SerializeEnumMembers(ms[1..])
  }

  /** What `Enum::try_from` computes. The members are read before the base
      type is looked at, so a short slice panics even when the base type is
      bad; a base code that is not a basic type is `BadEnumType`. */
  function DecodeEnum(value: seq<byte>): (r: Result<Enum>)
    ensures r.Ok? ==> r.value.RawLength() <= |value| && |r.value.members| <= 0xFFFF
    ensures r.Ok? ==> r.value.typ.Basic?
    ensures r.Err? && |value| >= 8 && |value| >= 8 + 8 * U16At(value, 6) ==> r.error == BadEnumType
  {
    if |value| < 8 then Err(Panic)
    else
      var n := U16At(value, 6);
      if |value| < 8 + 8 * n then Err(Panic)
      else
        match FromU32(U16At(value, 4))
        case Basic(b) => Ok(Enum(U32At(value, 0), Basic(b), EnumMembersAt(value, n)))
        case _ => Err(BadEnumType)
  }

  function EnumMembersAt(value: seq<byte>, n: nat): (ms: seq<EnumMember>)
    requires 8 + 8 * n <= |value|
    ensures |ms| == n
  {
    seq(n, k requires 0 <= k < n => ParseEnumMember(value[8 + 8 * k..]).value)
  }

  /** `Enum::try_from`: the header, the member loop, then the base-type
      check. */
  method ParseEnum(value: seq<byte>) returns (r: Result<Enum>)
    ensures r == DecodeEnum(value)
  {
    if |value| < 8 {
      return Err(Panic);
    }
    var data := value;
    var name := U32At(data, 0);
    var baseId := U16At(data, 4);
    var numMembers := U16At(data, 6);
    data := data[8..];

    var members: seq<EnumMember> := [];
    var idx := 0;
    while idx < numMembers
      invariant 0 <= idx <= numMembers
      invariant 8 + 8 * idx <= |value|
      invariant data == value[8 + 8 * idx..]
      invariant |members| == idx
      invariant forall k :: 0 <= k < idx ==> members[k] == ParseEnumMember(value[8 + 8 * k..]).value
    {
      var m := ParseEnumMember(data);
      if m.Err? {
        return Err(Panic);
      }
      members := members + [m.value];
      data := data[8..];
      idx := idx + 1;
    }
    assert members == EnumMembersAt(value, numMembers);

    match FromU32(baseId) {
      case Basic(b) =>
        r := Ok(Enum(name, Basic(b), members));
      case _ =>
        r := Err(BadEnumType);
    }
  }

  lemma {:induction false} EnumMembersSerializeAt(ms: seq<EnumMember>, k: nat)
    requires k < |ms|
    ensures SerializeEnumMembers(ms)[8 * k..8 * k + 8] == ms[k].Serialize()
  {
    var head := ms[0].Serialize();
    var tail := SerializeEnumMembers(ms[1..]);
    assert SerializeEnumMembers(ms) == head + tail;
    if k > 0 {
      EnumMembersSerializeAt(ms[1..], k - 1);
      assert (head + tail)[8 * k..8 * k + 8] == tail[8 * (k - 1)..8 * (k - 1) + 8];
    }
  }

  /** The 8 + 8n layout written by `serialize_out` is the one `try_from`
      reads: an enum with a basic base type round-trips. */
  lemma {:induction false} EnumRoundTrip(e: Enum, rest: seq<byte>)
    requires e.Serialize().Ok?
    ensures DecodeEnum(e.Serialize().value + rest) == Ok(e)
  {
    var n := |e.members|;
    var t := ToU16(e.typ).value;
    var body := SerializeEnumMembers(e.members);
    var b := e.Serialize().value + rest;
    assert b[0..4] == U32Bytes(e.nameId) && b[4..6] == U16Bytes(t) && b[6..8] == U16Bytes(n);
    U32RoundTrip(e.nameId);
    U16RoundTrip(t);
    U16RoundTrip(n);
    BasicCodeInverse(e.typ.basic);
    assert b[8..8 + 8 * n] == body;
    EnumMembersReadBack(e.members, b);
  }

  /** Members written from offset 8 are read back there. */
  lemma {:induction false} EnumMembersReadBack(ms: seq<EnumMember>, b: seq<byte>)
    requires 8 + 8 * |ms| <= |b| && b[8..8 + 8 * |ms|] == SerializeEnumMembers(ms)
    ensures EnumMembersAt(b, |ms|) == ms
  {
    forall k | 0 <= k < |ms|
      ensures EnumMembersAt(b, |ms|)[k] == ms[k]
    {
      EnumMemberReadBack(ms, b, k);
    }
  }

  /** Member `k` of them. */
  lemma {:induction false} EnumMemberReadBack(ms: seq<EnumMember>, b: seq<byte>, k: nat)
    requires k < |ms| && 8 + 8 * |ms| <= |b| && b[8..8 + 8 * |ms|] == SerializeEnumMembers(ms)
    ensures ParseEnumMember(b[8 + 8 * k..]).value == ms[k]
  {
    EnumMembersSerializeAt(ms, k);
    SliceOfSlice(b, 8, 8 + 8 * |ms|, 8 * k, 8 * k + 8);
    assert b[8 + 8 * k..] == b[8 + 8 * k..16 + 8 * k] + b[16 + 8 * k..];
    EnumMemberRoundTrip(ms[k], b[16 + 8 * k..]);
  }

  /** `ms` are the members read 8 bytes apart from `off`, one after the
      other. */
  predicate EnumMembersReadFrom(value: seq<byte>, off: nat, ms: seq<EnumMember>)
    decreases |ms|
  {
    ms != [] ==>
      && off + 8 <= |value| && ms[0] == ParseEnumMember(value[off..]).value
      && EnumMembersReadFrom(value, off + 8, ms[1..])
  }

  /** The members after an enum header, from the `j`-th on, are read 8
      bytes apart from their offset. */
  lemma {:induction false} EnumMembersAtRead(value: seq<byte>, n: nat, j: nat)
    requires 8 + 8 * n <= |value| && j <= n
    ensures EnumMembersReadFrom(value, 8 + 8 * j, EnumMembersAt(value, n)[j..])
    decreases n - j
  {
    if j < n {
      var ms := EnumMembersAt(value, n);
      EnumMembersAtRead(value, n, j + 1);
      assert ms[j..][1..] == ms[j + 1..];
      assert ms[j..][0] == ParseEnumMember(value[8 + 8 * j..]).value;
    }
  }

  lemma {:induction false} EnumMembersParseSerialize(value: seq<byte>, off: nat, ms: seq<EnumMember>)
    requires off + 8 * |ms| <= |value| && EnumMembersReadFrom(value, off, ms)
    ensures SerializeEnumMembers(ms) == value[off..off + 8 * |ms|]
    decreases |ms|
  {
    if ms != [] {
      var end := off + 8 * |ms|;
      EnumMemberParseSerialize(value[off..]);
      assert value[off..][..8] == value[off..off + 8];
      EnumMembersParseSerialize(value, off + 8, ms[1..]);
      assert off + 8 + 8 * |ms[1..]| == end;
      SliceSplit(value, off, off + 8, end);
    } else {
      assert value[off..off] == [];
    }
  }

  /** A parsed enum occupies exactly its `raw_length` bytes. */
  lemma {:induction false} EnumParseSerialize(value: seq<byte>)
    requires DecodeEnum(value).Ok?
    ensures DecodeEnum(value).value.Serialize() == Ok(value[..DecodeEnum(value).value.RawLength()])
  {
    var e := DecodeEnum(value).value;
    EnumMembersAtRead(value, |e.members|, 0);
    assert e.members[0..] == e.members;
    EnumMembersParseSerialize(value, 8, e.members);
    EnumBytes(value, e);
  }

  /** An enum whose fields are those stored in `value` and whose members
      serialise to the bytes after the header serialises to its own
      bytes. */
  lemma {:induction false} EnumBytes(value: seq<byte>, e: Enum)
    requires 8 + 8 * |e.members| <= |value| && |e.members| == U16At(value, 6)
    requires e.nameId == U32At(value, 0) && e.typ == FromU32(U16At(value, 4)) && e.typ.Basic?
    requires SerializeEnumMembers(e.members) == value[8..8 + 8 * |e.members|]
    ensures e.Serialize() == Ok(value[..e.RawLength()])
  {
    var n := |e.members|;
    U32AtIsBytes(value, 0);
    U16AtIsBytes(value, 4);
    U16AtIsBytes(value, 6);
    assert value[..8 + 8 * n] == value[0..4] + value[4..6] + value[6..8] + value[8..8 + 8 * n];
  }

  // =====================================================================
  // PascalArray: u32 packed, u32 size, u32 index id, u32 element type,
  // u32 name id
  // =====================================================================

  datatype PascalArray = PascalArray(packed: bool, size: u32, iid: u32, eid: DataType, nameId: u32) {
    function RawLength(): nat { 20 }

    /** `PascalArray::serialize_out`: `packed` is written as 0 or 1. */
    function Serialize(): (r: Result<seq<byte>>)
      ensures r.Ok? <==> eid != Undefined
      ensures r.Ok? ==> |r.value| == RawLength()
    {
      var e :- ToU32(eid);
      Ok(U32Bytes(if packed then 1 else 0) + U32Bytes(size) + U32Bytes(iid) + U32Bytes(e) + U32Bytes(nameId))
    }
  }

  /** `PascalArray::from`: any non-zero packed word means packed. */
  function ParsePascalArray(value: seq<byte>): (r: Result<PascalArray>)
    ensures r.Ok? <==> |value| >= 20
    ensures r.Ok? ==> Canonical(r.value.eid)
  {
    if |value| < 20 then Err(Panic)
    else Ok(PascalArray(U32At(value, 0) != 0, U32At(value, 4), U32At(value, 8),
                        FromU32(U32At(value, 12)), U32At(value, 16)))
  }

  lemma {:induction false} PascalArrayRoundTrip(a: PascalArray, rest: seq<byte>)
    requires Canonical(a.eid)
    ensures ParsePascalArray(a.Serialize().value + rest) == Ok(a)
  {
    var e := ToU32(a.eid).value;
    var p := if a.packed then 1 else 0;
    var b := a.Serialize().value + rest;
    assert b[0..4] == U32Bytes(p) && b[4..8] == U32Bytes(a.size) && b[8..12] == U32Bytes(a.iid)
        && b[12..16] == U32Bytes(e) && b[16..20] == U32Bytes(a.nameId);
    U32RoundTrip(p);
    U32RoundTrip(a.size);
    U32RoundTrip(a.iid);
    U32RoundTrip(e);
    U32RoundTrip(a.nameId);
    TypeRoundTrip(a.eid);
  }

  /** Parsing then serialising gives back the 20 bytes read, except that a
      non-zero packed word is normalised to 1. */
  lemma {:induction false} PascalArrayParseSerialize(value: seq<byte>)
    requires |value| >= 20
    ensures ParsePascalArray(value).value.Serialize()
            == Ok(U32Bytes(if U32At(value, 0) != 0 then 1 else 0) + value[4..20])
  {
    var a := ParsePascalArray(value).value;
    var e := U32At(value, 12);
    CodeRoundTrip(e);
    FourWords(value, 4);
    var pw := U32Bytes(if U32At(value, 0) != 0 then 1 else 0);
    var w1, w2, w3, w4 := U32Bytes(a.size), U32Bytes(a.iid), U32Bytes(e), U32Bytes(a.nameId);
    assert a.Serialize().value == pw + w1 + w2 + w3 + w4;
    assert pw + w1 + w2 + w3 + w4 == pw + (w1 + w2 + w3 + w4);
  }

  /** Sixteen bytes are the four words they hold. */
  lemma {:induction false} FourWords(d: seq<byte>, i: nat)
    requires i + 16 <= |d|
    ensures d[i..i + 16] == U32Bytes(U32At(d, i)) + U32Bytes(U32At(d, i + 4))
                           + U32Bytes(U32At(d, i + 8)) + U32Bytes(U32At(d, i + 12))
  {
    U32AtIsBytes(d, i);
    U32AtIsBytes(d, i + 4);
    U32AtIsBytes(d, i + 8);
    U32AtIsBytes(d, i + 12);
    assert d[i..i + 16] == d[i..i + 4] + d[i + 4..i + 8] + d[i + 8..i + 12] + d[i + 12..i + 16];
  }

  // =====================================================================
  // PascalRange: u32 name id, u32 type, u32 size, u32 lower, u32 upper
  // =====================================================================

  datatype PascalRange = PascalRange(nameId: u32, typ: DataType, size: u32, lower: u32, upper: u32) {
    function RawLength(): nat { 20 }

    /** `PascalRange::serialize_out`. */
    function Serialize(): (r: Result<seq<byte>>)
      ensures r.Ok? <==> typ != Undefined
      ensures r.Ok? ==> |r.value| == RawLength()
    {
      var t :- ToU32(typ);
      Ok(U32Bytes(nameId) + U32Bytes(t) + U32Bytes(size) + U32Bytes(lower) + U32Bytes(upper))
    }
  }

  /** `PascalRange::from`. */
  function ParsePascalRange(value: seq<byte>): (r: Result<PascalRange>)
    ensures r.Ok? <==> |value| >= 20
    ensures r.Ok? ==> Canonical(r.value.typ)
  {
    if |value| < 20 then Err(Panic)
    else Ok(PascalRange(U32At(value, 0), FromU32(U32At(value, 4)), U32At(value, 8),
                        U32At(value, 12), U32At(value, 16)))
  }

  lemma {:induction false} PascalRangeRoundTrip(p: PascalRange, rest: seq<byte>)
    requires Canonical(p.typ)
    ensures ParsePascalRange(p.Serialize().value + rest) == Ok(p)
  {
    var t := ToU32(p.typ).value;
    var b := p.Serialize().value + rest;
    assert b[0..4] == U32Bytes(p.nameId) && b[4..8] == U32Bytes(t) && b[8..12] == U32Bytes(p.size)
        && b[12..16] == U32Bytes(p.lower) && b[16..20] == U32Bytes(p.upper);
    U32RoundTrip(p.nameId);
    U32RoundTrip(t);
    U32RoundTrip(p.size);
    U32RoundTrip(p.lower);
    U32RoundTrip(p.upper);
    TypeRoundTrip(p.typ);
  }

  lemma {:induction false} PascalRangeParseSerialize(value: seq<byte>)
    requires |value| >= 20
    ensures ParsePascalRange(value).value.Serialize() == Ok(value[..20])
  {
    CodeRoundTrip(U32At(value, 4));
    U32AtIsBytes(value, 0);
    U32AtIsBytes(value, 4);
    U32AtIsBytes(value, 8);
    U32AtIsBytes(value, 12);
    U32AtIsBytes(value, 16);
    assert value[..20] == value[0..4] + value[4..8] + value[8..12] + value[12..16] + value[16..20];
  }

  // =====================================================================
  // PascalSet: u32 name id, u32 base type, u32 size
  // =====================================================================

  datatype PascalSet = PascalSet(nameId: u32, base: DataType, size: u32) {
    function RawLength(): nat { 12 }

    /** `PascalSet::serialize_out`. */
    function Serialize(): (r: Result<seq<byte>>)
      ensures r.Ok? <==> base != Undefined
      ensures r.Ok? ==> |r.value| == RawLength()
    {
      var t :- ToU32(base);
      Ok(U32Bytes(nameId) + U32Bytes(t) + U32Bytes(size))
    }
  }

  /** `PascalSet::from`. */
  function ParsePascalSet(value: seq<byte>): (r: Result<PascalSet>)
    ensures r.Ok? <==> |value| >= 12
    ensures r.Ok? ==> Canonical(r.value.base)
  {
    if |value| < 12 then Err(Panic)
    else Ok(PascalSet(U32At(value, 0), FromU32(U32At(value, 4)), U32At(value, 8)))
  }

  lemma {:induction false} PascalSetRoundTrip(p: PascalSet, rest: seq<byte>)
    requires Canonical(p.base)
    ensures ParsePascalSet(p.Serialize().value + rest) == Ok(p)
  {
    var t := ToU32(p.base).value;
    var b := p.Serialize().value + rest;
    assert b[0..4] == U32Bytes(p.nameId) && b[4..8] == U32Bytes(t) && b[8..12] == U32Bytes(p.size);
    U32RoundTrip(p.nameId);
    U32RoundTrip(t);
    U32RoundTrip(p.size);
    TypeRoundTrip(p.base);
  }

  lemma {:induction false} PascalSetParseSerialize(value: seq<byte>)
    requires |value| >= 12
    ensures ParsePascalSet(value).value.Serialize() == Ok(value[..12])
  {
    CodeRoundTrip(U32At(value, 4));
    U32AtIsBytes(value, 0);
    U32AtIsBytes(value, 4);
    U32AtIsBytes(value, 8);
    assert value[..12] == value[0..4] + value[4..8] + value[8..12];
  }

  // =====================================================================
  // PascalString: u32 size, u32 name id
  // =====================================================================

  datatype PascalString = PascalString(size: u32, nameId: u32) {
    function RawLength(): nat { 8 }

    /** `PascalString::serialize_out`: the size comes first. */
    function Serialize(): (r: seq<byte>)
      ensures |r| == RawLength()
    {
      U32Bytes(size) + U32Bytes(nameId)
    }
  }

  /** `PascalString::from`. */
  function ParsePascalString(value: seq<byte>): (r: Result<PascalString>)
    ensures r.Ok? <==> |value| >= 8
  {
    if |value| < 8 then Err(Panic)
    else Ok(PascalString(U32At(value, 0), U32At(value, 4)))
  }

  lemma {:induction false} PascalStringRoundTrip(p: PascalString, rest: seq<byte>)
    ensures ParsePascalString(p.Serialize() + rest) == Ok(p)
  {
    var b := p.Serialize() + rest;
    assert b[0..4] == U32Bytes(p.size) && b[4..8] == U32Bytes(p.nameId);
    U32RoundTrip(p.size);
    U32RoundTrip(p.nameId);
  }

  lemma {:induction false} PascalStringParseSerialize(value: seq<byte>)
    requires |value| >= 8
    ensures ParsePascalString(value).value.Serialize() == value[..8]
  {
    U32AtIsBytes(value, 0);
    U32AtIsBytes(value, 4);
    assert value[..8] == value[0..4] + value[4..8];
  }

  // =====================================================================
  // PascalEnum: u32 name id, u32 member count, then u32 members
  // =====================================================================

  datatype PascalEnum = PascalEnum(nameId: u32, members: seq<u32>) {
    /** `PascalEnum::raw_length`: the 8-byte header and 4 bytes per member. */
    function RawLength(): nat { 8 + 4 * |members| }

    /** `PascalEnum::serialize_out`: the member count is written as
        `len() as u32`, which keeps the count's low 32 bits. */
    function Serialize(): (r: seq<byte>)
      ensures |r| == RawLength()
    {
      U32Bytes(nameId) + U32Bytes(|members| % 0x1_0000_0000) + WordsBytes(members)
    }
  }

  /** `<[u8; N]>::try_from(&[u8])` followed by `unwrap`: only a slice of
      exactly `n` bytes converts; any other length panics. */
  function TryIntoArray(s: seq<byte>, n: nat): (r: Result<seq<byte>>)
    ensures r.Ok? <==> |s| == n
    ensures r.Ok? ==> r.value == s
    ensures r.Err? ==> r.error == Panic
  {
    if |s| == n then Ok(s) else Err(Panic)
  }

  /** `PascalEnum::from` as written: the count field `data[4..8]` is four
      bytes, but it is converted into a `[u8; 2]` for `convert_be_u16`. */
  function ParsePascalEnumAsWritten(value: seq<byte>): (r: Result<PascalEnum>)
    ensures r.Err? ==> r.error == Panic
  {
    if |value| < 8 then Err(Panic)
    else
      var name := U32At(value, 0);
      var count :- TryIntoArray(value[4..8], 2);
      PascalEnumMembers(value, name, BeU16(count))
  }

  /** The `n` 32-bit members that follow the 8-byte header. */
  function PascalEnumMembers(value: seq<byte>, name: u32, n: nat): (r: Result<PascalEnum>)
    ensures r.Ok? <==> 8 + 4 * n <= |value|
    ensures r.Ok? ==> r.value.nameId == name && |r.value.members| == n
  {
    if |value| < 8 + 4 * n then Err(Panic)
    else Ok(PascalEnum(name, seq(n, k requires 0 <= k < n => U32At(value, 8 + 4 * k))))
  }

  /** The parse that matches `serialize_out` and `raw_length`: the count is
      the 32-bit word at offset 4. */
  function DecodePascalEnum(value: seq<byte>): (r: Result<PascalEnum>)
    ensures r.Ok? ==> r.value.RawLength() <= |value|
  {
    if |value| < 8 then Err(Panic)
    else PascalEnumMembers(value, U32At(value, 0), U32At(value, 4))
  }

  /** The parse of `DecodePascalEnum`, written as the member loop of
      `PascalEnum::from`. */
  method ParsePascalEnum(value: seq<byte>) returns (r: Result<PascalEnum>)
    ensures r == DecodePascalEnum(value)
  {
    if |value| < 8 {
      return Err(Panic);
    }
    var data := value;
    var name := U32At(data, 0);
    var numMembers := U32At(data, 4);
    data := data[8..];

    var members: seq<u32> := [];
    var idx := 0;
    while idx < numMembers
      invariant 0 <= idx <= numMembers
      invariant 8 + 4 * idx <= |value|
      invariant data == value[8 + 4 * idx..]
      invariant |members| == idx
      invariant forall k :: 0 <= k < idx ==> members[k] == U32At(value, 8 + 4 * k)
    {
      if |data| < 4 {
        return Err(Panic);
      }
      members := members + [U32At(data, 0)];
      data := data[4..];
      idx := idx + 1;
    }
    assert members == PascalEnumMembers(value, name, numMembers).value.members;
    r := Ok(PascalEnum(name, members));
  }

  /** As written, `PascalEnum::from` panics on every input. */
  lemma {:induction false} PascalEnumAsWrittenPanics(value: seq<byte>)
    ensures ParsePascalEnumAsWritten(value) == Err(Panic)
  {
  }

  /** So a pascal enum record written by `serialize_out` is never read back
      by the code as written, while the corrected parse restores it. */
  lemma {:induction false} PascalEnumAsWrittenRejectsOwnOutput(e: PascalEnum)
    requires |e.members| < 0x1_0000_0000
    ensures ParsePascalEnumAsWritten(e.Serialize()) == Err(Panic)
    ensures DecodePascalEnum(e.Serialize()) == Ok(e)
  {
    PascalEnumRoundTrip(e, []);
    assert e.Serialize() + [] == e.Serialize();
  }

  /** With the count read as the u32 that `serialize_out` writes, a pascal
      enum round-trips. */
  lemma {:induction false} PascalEnumRoundTrip(e: PascalEnum, rest: seq<byte>)
    requires |e.members| < 0x1_0000_0000
    ensures DecodePascalEnum(e.Serialize() + rest) == Ok(e)
  {
    var n := |e.members|;
    var b := e.Serialize() + rest;
    PascalEnumLayout(e, rest);
    assert PascalEnumMembers(b, e.nameId, n).value.members == e.members;
  }

  /** The fields of a written pascal enum at their offsets. */
  lemma {:induction false} PascalEnumLayout(e: PascalEnum, rest: seq<byte>)
    requires |e.members| < 0x1_0000_0000
    ensures var b := e.Serialize() + rest;
            && U32At(b, 0) == e.nameId && U32At(b, 4) == |e.members|
            && forall k | 0 <= k < |e.members| :: U32At(b, 8 + 4 * k) == e.members[k]
  {
    var n := |e.members|;
    var p := U32Bytes(e.nameId) + U32Bytes(n);
    var b := e.Serialize() + rest;
    assert b == p + (WordsBytes(e.members) + rest);
    assert b[0..4] == U32Bytes(e.nameId) && b[4..8] == U32Bytes(n);
    U32RoundTrip(e.nameId);
    U32RoundTrip(n);
    MembersAfter(p, e.members, rest);
  }

  /** Words written after an 8-byte header are read at 8, 12, ... */
  lemma {:induction false} MembersAfter(p: seq<byte>, ws: seq<u32>, rest: seq<byte>)
    requires |p| == 8
    ensures forall k | 0 <= k < |ws| :: U32At(p + (WordsBytes(ws) + rest), 8 + 4 * k) == ws[k]
  {
    forall k | 0 <= k < |ws|
      ensures U32At(p + (WordsBytes(ws) + rest), 8 + 4 * k) == ws[k]
    {
      WordsAtAfter(p, ws, rest, k, 8 + 4 * k);
    }
  }
}

=== FILE: type_table.dfy ===
/** The type table of a symbol table (src/types_m68k.rs, `OtherDataType`,
    `TypeDefinition`, `TypeParseState` and `TypeTable`).

    A table is a run of entries, each a 16-bit kind tag (0 to 8), a 32-bit
    type id and the record of that kind. `TypeTable::try_from` reads the
    count of entries it is told to read with a state machine: read a tag and
    an id, decode the record, commit it and advance past it.
 */
module TypeTables {
  import opened Outcomes
  import opened Util
  import opened TypeRecords
  import DataTypes

  /** `OtherDataType`: a type defined by the table. */
  datatype OtherDataType =
    | Undefined
    | TypePointer(pointer: Pointer)
    | TypeArray(array: Array)
    | TypeStruct(strukt: Struct)
    | TypeEnum(enumeration: Enum)
    | TypePascalArray(pascalArray: PascalArray)
    | TypePascalRange(range: PascalRange)
    | TypePascalSet(pascalSet: PascalSet)
    | TypePascalEnum(pascalEnum: PascalEnum)
    | TypePascalString(pascalString: PascalString)
  {
    /** `OtherDataType::raw_length`: the length of the record itself. */
    function RawLength(): nat
    {
      match this
      case Undefined => 0
      case TypePointer(p) => p.RawLength()
      case TypeArray(a) => a.RawLength()
      case TypeStruct(s) => s.RawLength()
      case TypeEnum(e) => e.RawLength()
      case TypePascalArray(a) => a.RawLength()
      case TypePascalRange(r) => r.RawLength()
      case TypePascalSet(s) => s.RawLength()
      case TypePascalEnum(e) => e.RawLength()
      case TypePascalString(s) => s.RawLength()
    }
  }

  /** `TypeDefinition`: a type and the id that type codes refer to it by. */
  datatype TypeDefinition = TypeDefinition(typ: OtherDataType, id: u32) {
    /** `TypeDefinition::raw_length`: two bytes more than the record. */
    function RawLength(): nat { 2 + typ.RawLength() }
  }

  function SumRawLength(ts: seq<TypeDefinition>): nat
  {
    if ts == [] then 0 else ts[0].RawLength() + SumRawLength(ts[1..])
  }

  /** `TypeTable`, a vector of definitions in table order. */
  datatype TypeTable = TypeTable(table: seq<TypeDefinition>) {
    /** `TypeTable::raw_length`: two bytes per entry plus the entries'
        `raw_length`s. */
    function RawLength(): nat { 2 * |table| + SumRawLength(table) }
  }

  // ---------------------------------------------------------------------
  // Tags (`RawOtherDataType`, `TypeParseState::try_from`)
  // ---------------------------------------------------------------------

  /** The nine record kinds, in tag order. */
  datatype TypeKind =
    | KindPointer | KindArray | KindStruct | KindEnum | KindPascalArray
    | KindRange | KindSet | KindPascalEnum | KindPascalString

  /** The `RawOtherDataType` discriminant of a kind. */
  function KindTag(k: TypeKind): u16
  {
    match k
    case KindPointer => 0
    case KindArray => 1
    case KindStruct => 2
    case KindEnum => 3
    case KindPascalArray => 4
    case KindRange => 5
    case KindSet => 6
    case KindPascalEnum => 7
    case KindPascalString => 8
  }

  /** The kind a tag selects: tags 0 to 8 select one kind each, every other
      tag selects none. */
  function KindOfTag(tag: u16): (r: Option<TypeKind>)
    ensures r.Some? <==> tag <= 8
    ensures r.Some? ==> KindTag(r.value) == tag
  {
    match tag
    case 0 => Some(KindPointer)
    case 1 => Some(KindArray)
    case 2 => Some(KindStruct)
    case 3 => Some(KindEnum)
    case 4 => Some(KindPascalArray)
    case 5 => Some(KindRange)
    case 6 => Some(KindSet)
    case 7 => Some(KindPascalEnum)
    case 8 => Some(KindPascalString)
    case _ => None
  }

  /** Each kind is selected by its own tag only. */
  lemma KindTagInverse(k: TypeKind)
    ensures KindTag(k) <= 8
    ensures KindOfTag(KindTag(k)) == Some(k)
  {
  }

  /** The kind of a defined type. */
  function KindOf(t: OtherDataType): TypeKind
    requires t != Undefined
  {
    match t
    case TypePointer(_) => KindPointer
    case TypeArray(_) => KindArray
    case TypeStruct(_) => KindStruct
    case TypeEnum(_) => KindEnum
    case TypePascalArray(_) => KindPascalArray
    case TypePascalRange(_) => KindRange
    case TypePascalSet(_) => KindSet
    case TypePascalEnum(_) => KindPascalEnum
    case TypePascalString(_) => KindPascalString
  }

  /** `TypeParseState`. The nine `Parse...(id)` states are one state carrying
      the kind. */
  datatype TypeParseState =
    | ParseTag
    | Parse(kind: TypeKind, id: u32)
    | CommitType(id: u32, typ: OtherDataType)
    | End

  /** `TypeParseState::try_from((tag, id))`. */
  function StateOfTag(tag: u16, id: u32): (r: Result<TypeParseState>)
    ensures r.Ok? <==> tag <= 8
    ensures r.Ok? ==> r.value.Parse? && r.value.id == id && KindTag(r.value.kind) == tag
    ensures r.Err? ==> r.error == BadTypeTag
  {
    match KindOfTag(tag)
    case Some(k) => Ok(Parse(k, id))
    case None => Err(BadTypeTag)
  }

  // ---------------------------------------------------------------------
  // Record decoding (the `Parse...` arms)
  // ---------------------------------------------------------------------

  /** The record a `Parse...` state decodes from the front of `data`. The
      pascal enum is read with its count as a 32-bit word (see
      `TypeRecords.DecodePascalEnum`). Only the enum arm returns an error of
      its own; every other failure is a panic. */
  function DecodeRecord(kind: TypeKind, data: seq<byte>): (r: Result<OtherDataType>)
    ensures r.Ok? ==> r.value != Undefined && KindOf(r.value) == kind
    ensures r.Ok? ==> r.value.RawLength() <= |data|
    ensures r.Err? ==> r.error == Panic || (kind == KindEnum && r.error == BadEnumType)
  {
    if IsPascalKind(kind) then DecodePascalRecord(kind, data) else DecodeCRecord(kind, data)
  }

  /** The kinds whose records describe Pascal types. */
  predicate IsPascalKind(kind: TypeKind)
  {
    kind.KindPascalArray? || kind.KindRange? || kind.KindSet? || kind.KindPascalEnum? || kind.KindPascalString?
  }

  /** The arms for pointers, arrays, structs and enums. */
  function DecodeCRecord(kind: TypeKind, data: seq<byte>): (r: Result<OtherDataType>)
    requires !IsPascalKind(kind)
    ensures r.Ok? ==> r.value != Undefined && KindOf(r.value) == kind
    ensures r.Ok? ==> r.value.RawLength() <= |data|
    ensures r.Err? ==> r.error == Panic || (kind == KindEnum && r.error == BadEnumType)
  {
    match kind
    case KindPointer => var p :- ParsePointer(data); Ok(TypePointer(p))
    case KindArray => var a :- ParseArray(data); Ok(TypeArray(a))
    case KindStruct => var s :- DecodeStruct(data); Ok(TypeStruct(s))
    case KindEnum => var e :- DecodeEnum(data); Ok(TypeEnum(e))
  }

  /** The arms for the Pascal arrays, ranges, sets, enums and strings. */
  function DecodePascalRecord(kind: TypeKind, data: seq<byte>): (r: Result<OtherDataType>)
    requires IsPascalKind(kind)
    ensures r.Ok? ==> r.value != Undefined && KindOf(r.value) == kind
    ensures r.Ok? ==> r.value.RawLength() <= |data|
    ensures r.Err? ==> r.error == Panic
  {
    match kind
    case KindPascalArray => var a :- ParsePascalArray(data); Ok(TypePascalArray(a))
    case KindRange => var r :- ParsePascalRange(data); Ok(TypePascalRange(r))
    case KindSet => var s :- ParsePascalSet(data); Ok(TypePascalSet(s))
    case KindPascalEnum => var e :- DecodePascalEnum(data); Ok(TypePascalEnum(e))
    case KindPascalString => var s :- ParsePascalString(data); Ok(TypePascalString(s))
  }

  /** The `Parse...` arms, calling the looping record parsers. */
  method ParseRecord(kind: TypeKind, data: seq<byte>) returns (r: Result<OtherDataType>)
    ensures r == DecodeRecord(kind, data)
  {
    match kind {
      case KindStruct =>
        var s := ParseStruct(data);
        r := if s.Ok? then Ok(TypeStruct(s.value)) else Err(s.error);
      case KindEnum =>
        var e := ParseEnum(data);
        r := if e.Ok? then Ok(TypeEnum(e.value)) else Err(e.error);
      case KindPascalEnum =>
        var e := ParsePascalEnum(data);
        r := if e.Ok? then Ok(TypePascalEnum(e.value)) else Err(e.error);
      case _ =>
        r := DecodeRecord(kind, data);
    }
  }

  // ---------------------------------------------------------------------
  // The table state machine (`TypeTable::try_from`)
  // ---------------------------------------------------------------------

  /** Reading a tag leads to a parse state, and a parse state to a commit. */
  function Rank(s: TypeParseState): nat
  {
    match s
    case ParseTag => 2
    case Parse(_, _) => 1
    case _ => 0
  }

  /** The machine run from `state` on the unread bytes `data`, with
      `remaining` entries still to commit and `types` committed so far. */
  function Run(state: TypeParseState, data: seq<byte>, remaining: nat, types: seq<TypeDefinition>)
    : Result<seq<TypeDefinition>>
    decreases remaining, Rank(state)
  {
    match state
    case End => Ok(types)
    case ParseTag =>
      if |data| < 6 then Err(Panic)
      else
        var next :- Unwrap(StateOfTag(U16At(data, 0), U32At(data, 2)));
        Run(next, data[6..], remaining, types)
    case Parse(kind, id) =>
      var typ :- DecodeRecord(kind, data);
      Run(CommitType(id, typ), data, remaining, types)
    case CommitType(id, typ) =>
      if |data| < typ.RawLength() || remaining == 0 then Err(Panic)
      else
        var left := remaining - 1;
        Run(if left != 0 then ParseTag else End, data[typ.RawLength()..], left,
            types + [TypeDefinition(typ, id)])
  }

  /** What `TypeTable::try_from((data, num_types))` computes. */
  function DecodeTypeTable(data: seq<byte>, numTypes: u32): Result<TypeTable>
  {
    if numTypes == 0 then Ok(TypeTable([]))
    else
      var types :- Run(ParseTag, data, numTypes, []);
      Ok(TypeTable(types))
  }

  /** `TypeTable::try_from`: the state machine as a loop. */
  method ParseTypeTable(value: seq<byte>, numTypes: u32) returns (r: Result<TypeTable>)
    ensures r == DecodeTypeTable(value, numTypes)
  {
    if numTypes == 0 {
      return Ok(TypeTable([]));
    }
    var data := value;
    var types: seq<TypeDefinition> := [];
    var remaining: nat := numTypes;
    var state := ParseTag;
    while state != End
      invariant Run(state, data, remaining, types) == Run(ParseTag, value, numTypes, [])
      decreases remaining, Rank(state)
    {
      match state {
        case ParseTag =>
          if |data| < 6 {
            return Err(Panic);
          }
          var tag := U16At(data, 0);
          var id := U32At(data, 2);
          data := data[6..];
          var next := StateOfTag(tag, id);
          if next.Err? {
            return Err(Panic);
          }
          state := next.value;
        case Parse(kind, id) =>
          var typ := ParseRecord(kind, data);
          if typ.Err? {
            return Err(typ.error);
          }
          state := CommitType(id, typ.value);
        case CommitType(id, typ) =>
          if |data| < typ.RawLength() || remaining == 0 {
            return Err(Panic);
          }
          data := data[typ.RawLength()..];
          types := types + [TypeDefinition(typ, id)];
          remaining := remaining - 1;
          state := if remaining != 0 then ParseTag else End;
      }
    }
    r := Ok(TypeTable(types));
  }

  // ---------------------------------------------------------------------
  // Properties of the table reader
  // ---------------------------------------------------------------------

  /** A state agrees with its count of entries still to commit: the machine
      stops exactly when none remain. */
  predicate Live(state: TypeParseState, remaining: nat)
  {
    state.End? <==> remaining == 0
  }

  /** A run keeps the entries committed before it, in order, and commits
      exactly `remaining` more. */
  lemma {:induction false} RunCommitsRemaining(state: TypeParseState, data: seq<byte>, remaining: nat,
                                               types: seq<TypeDefinition>)
    requires Live(state, remaining)
    ensures Run(state, data, remaining, types).Ok? ==>
              var out := Run(state, data, remaining, types).value;
              |out| == |types| + remaining && out[..|types|] == types
    decreases remaining, Rank(state)
  {
    match state
    case End =>
    case ParseTag =>
      if |data| >= 6 {
        var next := StateOfTag(U16At(data, 0), U32At(data, 2));
        if next.Ok? {
          RunCommitsRemaining(next.value, data[6..], remaining, types);
        }
      }
    case Parse(kind, id) =>
      var typ := DecodeRecord(kind, data);
      if typ.Ok? {
        RunCommitsRemaining(CommitType(id, typ.value), data, remaining, types);
      }
    case CommitType(id, typ) =>
      if |data| >= typ.RawLength() && remaining != 0 {
        var left := remaining - 1;
        var more := types + [TypeDefinition(typ, id)];
        RunCommitsRemaining(if left != 0 then ParseTag else End, data[typ.RawLength()..], left, more);
        if Run(state, data, remaining, types).Ok? {
          var out := Run(state, data, remaining, types).value;
          assert out[..|more|] == more;
          assert out[..|types|] == more[..|types|];
        }
      }
  }

  /** A table of count 0 is empty without a byte being read, and a table
      that decodes has exactly `num_types` entries. */
  lemma TypeTableCount(data: seq<byte>, numTypes: u32)
    ensures numTypes == 0 ==> DecodeTypeTable(data, numTypes) == Ok(TypeTable([]))
    ensures DecodeTypeTable(data, numTypes).Ok? ==> |DecodeTypeTable(data, numTypes).value.table| == numTypes
  {
    if numTypes != 0 {
      RunCommitsRemaining(ParseTag, data, numTypes, []);
    }
  }

  /** The first entry carries the id that follows the first tag, and its
      kind is the one that tag selects. */
  lemma TypeTableFirstEntry(data: seq<byte>, numTypes: u32)
    requires numTypes != 0 && DecodeTypeTable(data, numTypes).Ok?
    ensures |data| >= 6 && |DecodeTypeTable(data, numTypes).value.table| == numTypes
    ensures var first := DecodeTypeTable(data, numTypes).value.table[0];
            first.id == U32At(data, 2) && first.typ != Undefined
            && KindTag(KindOf(first.typ)) == U16At(data, 0)
  {
    TypeTableCount(data, numTypes);
    var out := Run(ParseTag, data, numTypes, []);
    assert |data| >= 6;
    var next := StateOfTag(U16At(data, 0), U32At(data, 2));
    assert next.Ok?;
    assert out == Run(next.value, data[6..], numTypes, []);
    var rec := DecodeRecord(next.value.kind, data[6..]);
    assert rec.Ok?;
    var first := TypeDefinition(rec.value, next.value.id);
    assert out == Run(CommitType(first.id, first.typ), data[6..], numTypes, []);
    var left := numTypes - 1;
    var after := data[6..][first.typ.RawLength()..];
    assert [] + [first] == [first];
    assert out == Run(if left != 0 then ParseTag else End, after, left, [first]);
    RunCommitsRemaining(if left != 0 then ParseTag else End, after, left, [first]);
    assert out.value[..1] == [first];
  }

  /** A tag above 8 makes `try_from(..).unwrap()` panic. */
  lemma BadTagPanics(data: seq<byte>, numTypes: u32)
    requires numTypes != 0 && |data| >= 6 && U16At(data, 0) > 8
    ensures DecodeTypeTable(data, numTypes) == Err(Panic)
  {
  }

  // ---------------------------------------------------------------------
  // The layout the reader expects
  // ---------------------------------------------------------------------

  /** A type whose record `serialize_out` writes and whose fields survive
      the trip through their codes. */
  predicate Writable(t: OtherDataType)
  {
    match t
    case Undefined => false
    case TypePointer(p) => DataTypes.Canonical(p.typ)
    case TypeArray(a) => DataTypes.Canonical(a.typ)
    case TypeStruct(s) => |s.members| <= 0xFFFF && AllTypesCanonical(s.members)
    case TypeEnum(e) => e.typ.Basic? && |e.members| <= 0xFFFF
    case TypePascalArray(a) => DataTypes.Canonical(a.eid)
    case TypePascalRange(r) => DataTypes.Canonical(r.typ)
    case TypePascalSet(s) => DataTypes.Canonical(s.base)
    case TypePascalEnum(e) => |e.members| < 0x1_0000_0000
    case TypePascalString(_) => true
  }

  /** The record bytes of a writable type, as its `serialize_out` writes
      them. */
  function EncodeType(t: OtherDataType): (r: seq<byte>)
    requires Writable(t)
    ensures |r| == t.RawLength()
  {
    match t
    case TypePointer(p) => p.Serialize().value
    case TypeArray(a) => a.Serialize().value
    case TypeStruct(s) =>
      assert AllTypesDefined(s.members) by {
        forall i | 0 <= i < |s.members| ensures s.members[i].typ != DataTypes.Undefined {
          assert DataTypes.Canonical(s.members[i].typ);
        }
      }
      s.Serialize().value
    case TypeEnum(e) => e.Serialize().value
    case TypePascalArray(a) => a.Serialize().value
    case TypePascalRange(r) => r.Serialize().value
    case TypePascalSet(s) => s.Serialize().value
    case TypePascalEnum(e) => e.Serialize()
    case TypePascalString(s) => s.Serialize()
  }

  /** One table entry: the kind tag, the id, the record. */
  function EncodeEntry(d: TypeDefinition): (r: seq<byte>)
    requires Writable(d.typ)
    ensures |r| == 6 + d.typ.RawLength()
  {
    U16Bytes(KindTag(KindOf(d.typ))) + U32Bytes(d.id) + EncodeType(d.typ)
  }

  predicate AllWritable(ts: seq<TypeDefinition>)
  {
    forall i :: 0 <= i < |ts| ==> Writable(ts[i].typ)
  }

  /** The entries of a table one after the other. */
  function EncodeTable(ts: seq<TypeDefinition>): (r: seq<byte>)
    requires AllWritable(ts)
  {
    if ts == [] then [] else EncodeEntry(ts[0]) + EncodeTable(ts[1..])
  }

  /** A writable record is decoded from its own bytes, whatever follows. */
  lemma RecordRoundTrip(t: OtherDataType, rest: seq<byte>)
    requires Writable(t)
    ensures DecodeRecord(KindOf(t), EncodeType(t) + rest) == Ok(t)
  {
    if IsPascalKind(KindOf(t)) {
      PascalRecordRoundTrip(t, rest);
    } else {
      CRecordRoundTrip(t, rest);
    }
  }

  lemma CRecordRoundTrip(t: OtherDataType, rest: seq<byte>)
    requires Writable(t) && !IsPascalKind(KindOf(t))
    ensures DecodeCRecord(KindOf(t), EncodeType(t) + rest) == Ok(t)
  {
    match t
    case TypePointer(p) => PointerRoundTrip(p, rest);
    case TypeArray(a) => ArrayRoundTrip(a, rest);
    case TypeStruct(s) => StructRoundTrip(s, rest);
    case TypeEnum(e) => EnumRoundTrip(e, rest);
  }

  lemma PascalRecordRoundTrip(t: OtherDataType, rest: seq<byte>)
    requires Writable(t) && IsPascalKind(KindOf(t))
    ensures DecodePascalRecord(KindOf(t), EncodeType(t) + rest) == Ok(t)
  {
    match t
    case TypePascalArray(a) => PascalArrayRoundTrip(a, rest);
    case TypePascalRange(r) => PascalRangeRoundTrip(r, rest);
    case TypePascalSet(s) => PascalSetRoundTrip(s, rest);
    case TypePascalEnum(e) => PascalEnumRoundTrip(e, rest);
    case TypePascalString(s) => PascalStringRoundTrip(s, rest);
  }

  /** The machine reads one encoded entry: its tag, its id, its record,
      then commits it and moves past it. */
  lemma EntryStep(d: TypeDefinition, tail: seq<byte>, n: nat, done: seq<TypeDefinition>)
    requires Writable(d.typ) && n >= 1
    ensures Run(ParseTag, EncodeEntry(d) + tail, n, done)
            == Run(if n - 1 != 0 then ParseTag else End, tail, n - 1, done + [d])
  {
    var tag := KindTag(KindOf(d.typ));
    var body := EncodeType(d.typ);
    var data := EncodeEntry(d) + tail;
    EntryHeader(tag, d.id, body, tail);
    KindTagInverse(KindOf(d.typ));
    RecordRoundTrip(d.typ, tail);
    assert (body + tail)[|body|..] == tail;
    assert Run(ParseTag, data, n, done) == Run(Parse(KindOf(d.typ), d.id), body + tail, n, done);
    assert Run(Parse(KindOf(d.typ), d.id), body + tail, n, done) == Run(CommitType(d.id, d.typ), body + tail, n, done);
  }

  /** The six header bytes of an entry give back its tag and its id. */
  lemma EntryHeader(tag: u16, id: u32, body: seq<byte>, tail: seq<byte>)
    ensures var data := U16Bytes(tag) + U32Bytes(id) + body + tail;
            |data| >= 6 && U16At(data, 0) == tag && U32At(data, 2) == id && data[6..] == body + tail
  {
    var data := U16Bytes(tag) + U32Bytes(id) + body + tail;
    assert data[0..2] == U16Bytes(tag);
    assert data[2..6] == U32Bytes(id);
    U16RoundTrip(tag);
    U32RoundTrip(id);
  }

  lemma {:induction false} RunEncoded(ts: seq<TypeDefinition>, rest: seq<byte>, done: seq<TypeDefinition>)
    requires ts != [] && AllWritable(ts)
    ensures Run(ParseTag, EncodeTable(ts) + rest, |ts|, done) == Ok(done + ts)
  {
    var d := ts[0];
    assert AllWritable(ts[1..]) by {
      assert forall i :: 0 <= i < |ts[1..]| ==> ts[1..][i] == ts[i + 1];
    }
    var tail := EncodeTable(ts[1..]) + rest;
    assert EncodeTable(ts) + rest == EncodeEntry(d) + tail;
    EntryStep(d, tail, |ts|, done);
    if |ts| > 1 {
      RunEncoded(ts[1..], rest, done + [d]);
      AppendHead(done, ts);
    } else {
      assert [d] == ts;
    }
  }

  /** Reading the encoding of a table, followed by any bytes, gives the
      table back: every entry, with its id and kind, in order. */
  lemma {:induction false} TypeTableRoundTrip(ts: seq<TypeDefinition>, rest: seq<byte>)
    requires AllWritable(ts) && |ts| < 0x1_0000_0000
    ensures DecodeTypeTable(EncodeTable(ts) + rest, |ts|) == Ok(TypeTable(ts))
  {
    if ts != [] {
      RunEncoded(ts, rest, []);
      assert [] + ts == ts;
      assert Run(ParseTag, EncodeTable(ts) + rest, |ts|, []) == Ok(ts);
    }
  }

  /** The bytes an entry occupies are six more than the record, while
      `TypeTable::raw_length` counts four more: a table occupies its
      `raw_length` plus two bytes per entry. */
  lemma {:induction false} EncodedTableLength(ts: seq<TypeDefinition>)
    requires AllWritable(ts)
    ensures |EncodeTable(ts)| == TypeTable(ts).RawLength() + 2 * |ts|
  {
    if ts != [] {
      assert AllWritable(ts[1..]) by {
        assert forall i :: 0 <= i < |ts[1..]| ==> ts[1..][i] == ts[i + 1];
      }
      EncodedTableLength(ts[1..]);
    }
  }

  // ---------------------------------------------------------------------
  // The Pascal-enum arm as written
  // ---------------------------------------------------------------------

  /** The record a `Parse...` state decodes with the arms as written: the
      Pascal-enum arm calls `PascalEnum::from`, which panics on every input
      (`TypeRecords.ParsePascalEnumAsWritten`); the other arms are those of
      `DecodeRecord`. */
  function DecodeRecordAsWritten(kind: TypeKind, data: seq<byte>): (r: Result<OtherDataType>)
    ensures kind == KindPascalEnum ==> r == Err(Panic)
    ensures kind != KindPascalEnum ==> r == DecodeRecord(kind, data)
  {
    if kind == KindPascalEnum then
      // `PascalEnum::from` fails on every input (TypeRecords.PascalEnumAsWrittenPanics)
      Err(ParsePascalEnumAsWritten(data).error)
    else DecodeRecord(kind, data)
  }

  /** The table machine with the arms as written. */
  function RunAsWritten(state: TypeParseState, data: seq<byte>, remaining: nat, types: seq<TypeDefinition>)
    : Result<seq<TypeDefinition>>
    decreases remaining, Rank(state)
  {
    match state
    case End => Ok(types)
    case ParseTag =>
      if |data| < 6 then Err(Panic)
      else
        var next :- Unwrap(StateOfTag(U16At(data, 0), U32At(data, 2)));
        RunAsWritten(next, data[6..], remaining, types)
    case Parse(kind, id) =>
      var typ :- DecodeRecordAsWritten(kind, data);
      RunAsWritten(CommitType(id, typ), data, remaining, types)
    case CommitType(id, typ) =>
      if |data| < typ.RawLength() || remaining == 0 then Err(Panic)
      else
        var left := remaining - 1;
        RunAsWritten(if left != 0 then ParseTag else End, data[typ.RawLength()..], left,
                     types + [TypeDefinition(typ, id)])
  }

  /** What `TypeTable::try_from((data, num_types))` computes as written. */
  function DecodeTypeTableAsWritten(data: seq<byte>, numTypes: u32): Result<TypeTable>
  {
    if numTypes == 0 then Ok(TypeTable([]))
    else
      var types :- RunAsWritten(ParseTag, data, numTypes, []);
      Ok(TypeTable(types))
  }

  /** Some entry of `ts` defines a Pascal enum. */
  predicate HasPascalEnum(ts: seq<TypeDefinition>)
  {
    ts != [] && (ts[0].typ.TypePascalEnum? || HasPascalEnum(ts[1..]))
  }

  /** Outside a commit, the machine as written fails wherever the corrected
      one fails, and where the corrected one reads entries it reads the same
      ones, unless one of them is a Pascal enum: then it panics. */
  lemma {:induction false} RunAsWrittenAgrees(state: TypeParseState, data: seq<byte>, remaining: nat,
                                              types: seq<TypeDefinition>)
    requires !state.CommitType?
    ensures Run(state, data, remaining, types).Err? ==> RunAsWritten(state, data, remaining, types).Err?
    ensures Run(state, data, remaining, types).Ok? ==>
              var out := Run(state, data, remaining, types).value;
              |types| <= |out| && out[..|types|] == types
              && RunAsWritten(state, data, remaining, types)
                 == if HasPascalEnum(out[|types|..]) then Err(Panic) else Ok(out)
    decreases remaining, Rank(state)
  {
    match state
    case End =>
      assert types[|types|..] == [];
    case ParseTag =>
      if |data| >= 6 {
        var next := StateOfTag(U16At(data, 0), U32At(data, 2));
        if next.Ok? {
          RunAsWrittenAgrees(next.value, data[6..], remaining, types);
        }
      }
    case Parse(kind, id) =>
      var typ := DecodeRecord(kind, data);
      if typ.Ok? && |data| >= typ.value.RawLength() && remaining != 0 {
        var d := TypeDefinition(typ.value, id);
        var left := remaining - 1;
        var more := types + [d];
        var next := if left != 0 then ParseTag else End;
        var after := data[typ.value.RawLength()..];
        assert Run(state, data, remaining, types) == Run(next, after, left, more);
        RunAsWrittenAgrees(next, after, left, more);
        if Run(next, after, left, more).Ok? {
          var out := Run(next, after, left, more).value;
          assert out[..|types|] == more[..|types|] == types;
          assert out[|types|..][0] == more[|types|] == d;
          assert out[|types|..][1..] == out[|more|..];
          if kind != KindPascalEnum {
            assert RunAsWritten(state, data, remaining, types) == RunAsWritten(next, after, left, more);
          }
        }
      }
  }

  /** The table reader as written agrees with the corrected one on every
      table without a Pascal enum; a table that the corrected reader reads
      and that holds a Pascal enum makes it panic; and it fails wherever the
      corrected reader fails. */
  lemma TypeTableAsWritten(data: seq<byte>, numTypes: u32)
    ensures DecodeTypeTable(data, numTypes).Err? ==> DecodeTypeTableAsWritten(data, numTypes).Err?
    ensures DecodeTypeTable(data, numTypes).Ok? ==>
              DecodeTypeTableAsWritten(data, numTypes)
              == if HasPascalEnum(DecodeTypeTable(data, numTypes).value.table) then Err(Panic)
                 else DecodeTypeTable(data, numTypes)
  {
    if numTypes != 0 {
      RunAsWrittenAgrees(ParseTag, data, numTypes, []);
      if Run(ParseTag, data, numTypes, []).Ok? {
        var out := Run(ParseTag, data, numTypes, []).value;
        assert out[0..] == out;
      }
    }
  }

  /** `TypeTable::try_from` as written: the loop of ParseTypeTable with the
      Pascal-enum arm calling `PascalEnum::from`. */
  method ParseTypeTableAsWritten(value: seq<byte>, numTypes: u32) returns (r: Result<TypeTable>)
    ensures r == DecodeTypeTableAsWritten(value, numTypes)
  {
    if numTypes == 0 {
      return Ok(TypeTable([]));
    }
    var data := value;
    var types: seq<TypeDefinition> := [];
    var remaining: nat := numTypes;
    var state := ParseTag;
    while state != End
      invariant RunAsWritten(state, data, remaining, types) == RunAsWritten(ParseTag, value, numTypes, [])
      decreases remaining, Rank(state)
    {
      match state {
        case ParseTag =>
          if |data| < 6 {
            return Err(Panic);
          }
          var tag := U16At(data, 0);
          var id := U32At(data, 2);
          data := data[6..];
          var next := StateOfTag(tag, id);
          if next.Err? {
            return Err(Panic);
          }
          state := next.value;
        case Parse(kind, id) =>
          var typ: Result<OtherDataType>;
          if kind == KindPascalEnum {
            typ := Err(ParsePascalEnumAsWritten(data).error);
          } else {
            typ := ParseRecord(kind, data);
          }
          if typ.Err? {
            return Err(typ.error);
          }
          state := CommitType(id, typ.value);
        case CommitType(id, typ) =>
          if |data| < typ.RawLength() || remaining == 0 {
            return Err(Panic);
          }
          data := data[typ.RawLength()..];
          types := types + [TypeDefinition(typ, id)];
          remaining := remaining - 1;
          state := if remaining != 0 then ParseTag else End;
      }
    }
    r := Ok(TypeTable(types));
  }

  /** A first entry with tag 7 makes the reader as written panic. */
  lemma PascalEnumTagPanics(data: seq<byte>, numTypes: u32)
    requires numTypes != 0 && |data| >= 6 && U16At(data, 0) == 7
    ensures DecodeTypeTableAsWritten(data, numTypes) == Err(Panic)
  {
    var id := U32At(data, 2);
    assert StateOfTag(7, id) == Ok(Parse(KindPascalEnum, id));
    assert RunAsWritten(ParseTag, data, numTypes, []) == RunAsWritten(Parse(KindPascalEnum, id), data[6..], numTypes, []);
    assert DecodeRecordAsWritten(KindPascalEnum, data[6..]) == Err(Panic);
  }

  /** As written, an encoded table reads back exactly when none of its
      entries is a Pascal enum; one Pascal enum makes the read panic. */
  lemma TypeTableAsWrittenRoundTrip(ts: seq<TypeDefinition>, rest: seq<byte>)
    requires AllWritable(ts) && |ts| < 0x1_0000_0000
    ensures DecodeTypeTableAsWritten(EncodeTable(ts) + rest, |ts|)
            == if HasPascalEnum(ts) then Err(Panic) else Ok(TypeTable(ts))
  {
    TypeTableRoundTrip(ts, rest);
    TypeTableAsWritten(EncodeTable(ts) + rest, |ts|);
  }
}

=== FILE: util.dfy ===
/** Big-endian integer decoding and the CodeWarrior name-table hash
    (src/util.rs).

    Every multi-byte field of the object and library formats is big-endian,
    whatever the host byte order; the decoders below read a fixed-size group
    of bytes, and the `...Bytes` encoders are the `to_be_bytes` writes the
    serialisers use.
 */
module Util {

  type byte = x: int | 0 <= x < 0x100
  type u16 = x: int | 0 <= x < 0x1_0000
  type u32 = x: int | 0 <= x < 0x1_0000_0000
  type i16 = x: int | -0x8000 <= x < 0x8000
  type i32 = x: int | -0x8000_0000 <= x < 0x8000_0000

  /** `NAMEHASH`: the number of buckets of the name-table hash. */
  const NAMEHASH: u16 := 1024

  // ---------------------------------------------------------------------
  // Big-endian encoders (`u16::to_be_bytes`, `u32::to_be_bytes`)
  // ---------------------------------------------------------------------

  function U16Bytes(x: u16): (r: seq<byte>)
    ensures |r| == 2
  {
    [x / 0x100, x % 0x100]
  }

  function U32Bytes(x: u32): (r: seq<byte>)
    ensures |r| == 4
  {
    U16Bytes(x / 0x1_0000) + U16Bytes(x % 0x1_0000)
  }

  // ---------------------------------------------------------------------
  // Big-endian decoders (`convert_be_u16`, `convert_be_u32`,
  // `convert_be_i16`, `convert_be_i32`)
  // ---------------------------------------------------------------------

  /** `convert_be_u16`: the first byte is the most significant one, so the
      result is the number whose big-endian encoding is `d`. */
  function BeU16(d: seq<byte>): (r: u16)
    requires |d| == 2
  {
    (d[0] as int) * 0x100 + d[1]
  }

  /** `convert_be_u32`: the number whose big-endian encoding is `d`. */
  function BeU32(d: seq<byte>): (r: u32)
    requires |d| == 4
  {
    BeU16(d[..2]) * 0x1_0000 + BeU16(d[2..])
  }

  /** The number read is the one whose big-endian encoding is `d`. */
  lemma BeU16Bytes(d: seq<byte>)
    requires |d| == 2
    ensures U16Bytes(BeU16(d)) == d
  {
  }

  lemma BeU32Bytes(d: seq<byte>)
    requires |d| == 4
    ensures U32Bytes(BeU32(d)) == d
  {
    var hi := BeU16(d[..2]);
    var lo := BeU16(d[2..]);
    BeU16Bytes(d[..2]);
    BeU16Bytes(d[2..]);
    SplitHalves(hi, lo);
    assert d == d[..2] + d[2..];
  }

  /** A 32-bit word is its high half shifted up by 16 bits plus its low half. */
  lemma SplitHalves(hi: u16, lo: u16)
    ensures (hi * 0x1_0000 + lo) / 0x1_0000 == hi
    ensures (hi * 0x1_0000 + lo) % 0x1_0000 == lo
  {
  }

  /** `convert_be_i16`: the two's-complement reading of the same bytes. */
  function BeI16(d: seq<byte>): (r: i16)
    requires |d| == 2
    ensures r % 0x1_0000 == BeU16(d)
    ensures r < 0 <==> d[0] >= 0x80
  {
    var u: int := BeU16(d);
    if u < 0x8000 then u else u - 0x1_0000
  }

  /** `convert_be_i32`: the two's-complement reading of the same bytes. */
  function BeI32(d: seq<byte>): (r: i32)
    requires |d| == 4
    ensures r % 0x1_0000_0000 == BeU32(d)
    ensures r < 0 <==> d[0] >= 0x80
  {
    var u: int := BeU32(d);
    if u < 0x8000_0000 then u else u - 0x1_0000_0000
  }

  lemma U16RoundTrip(x: u16)
    ensures BeU16(U16Bytes(x)) == x
  {
  }

  lemma U32RoundTrip(x: u32)
    ensures BeU32(U32Bytes(x)) == x
  {
    var d := U32Bytes(x);
    assert d[..2] == U16Bytes(x / 0x1_0000);
    assert d[2..] == U16Bytes(x % 0x1_0000);
    U16RoundTrip(x / 0x1_0000);
    U16RoundTrip(x % 0x1_0000);
  }

  /** The two's-complement bytes of a 32-bit signed value. */
  function I32Bytes(x: i32): (r: seq<byte>)
    ensures |r| == 4
  {
    U32Bytes(x % 0x1_0000_0000)
  }

  lemma I32RoundTrip(x: i32)
    ensures BeI32(I32Bytes(x)) == x
  {
    U32RoundTrip(x % 0x1_0000_0000);
  }

  /** All four bytes set read as -1: the end-of-list marker of a
      statement-location list. */
  lemma AllOnesIsMinusOne()
    ensures BeI32([0xFF, 0xFF, 0xFF, 0xFF]) == -1
  {
  }

  /** The 16-bit field at offset `i`: `convert_be_u16(&d[i..i + 2])`. */
  function U16At(d: seq<byte>, i: nat): u16
    requires i + 2 <= |d|
  {
    BeU16(d[i..i + 2])
  }

  /** The 32-bit field at offset `i`: `convert_be_u32(&d[i..i + 4])`. */
  function U32At(d: seq<byte>, i: nat): u32
    requires i + 4 <= |d|
  {
    BeU32(d[i..i + 4])
  }

  /** A field written with `to_be_bytes` is read back at its offset. */
  lemma U16AtBytes(a: seq<byte>, x: u16, b: seq<byte>)
    ensures U16At(a + U16Bytes(x) + b, |a|) == x
  {
    assert (a + U16Bytes(x) + b)[|a|..|a| + 2] == U16Bytes(x);
    U16RoundTrip(x);
  }

  lemma U32AtBytes(a: seq<byte>, x: u32, b: seq<byte>)
    ensures U32At(a + U32Bytes(x) + b, |a|) == x
  {
    assert (a + U32Bytes(x) + b)[|a|..|a| + 4] == U32Bytes(x);
    U32RoundTrip(x);
  }

  /** A 16-bit field between two runs of bytes: it is read back at its
      offset and the bytes after it are what follows. */
  lemma U16Field(a: seq<byte>, x: u16, b: seq<byte>)
    ensures U16At(a + (U16Bytes(x) + b), |a|) == x
    ensures (a + (U16Bytes(x) + b))[|a| + 2..] == b
  {
    assert (a + (U16Bytes(x) + b))[|a|..|a| + 2] == U16Bytes(x);
    U16RoundTrip(x);
  }

  /** Words written back to back with `to_be_bytes`. */
  function WordsBytes(ws: seq<u32>): (r: seq<byte>)
    ensures |r| == 4 * |ws|
  {
    if ws == [] then [] else U32Bytes(ws[0]) + WordsBytes(ws[1..])
  }

  /** Each of the words is read back at its offset, whatever follows. */
  lemma {:induction false} WordsAt(ws: seq<u32>, tail: seq<byte>, i: nat)
    requires i < |ws|
    ensures U32At(WordsBytes(ws) + tail, 4 * i) == ws[i]
  {
    var d := WordsBytes(ws) + tail;
    if i == 0 {
      assert d[0..4] == U32Bytes(ws[0]);
      U32RoundTrip(ws[0]);
    } else {
      var d' := WordsBytes(ws[1..]) + tail;
      assert d == U32Bytes(ws[0]) + d';
      assert d[4 * i..4 * i + 4] == d'[4 * (i - 1)..4 * (i - 1) + 4];
      WordsAt(ws[1..], tail, i - 1);
    }
  }

  /** The same, with the words after a run of other bytes: word `i` is
      read at offset `at`. */
  lemma {:induction false} WordsAtAfter(p: seq<byte>, ws: seq<u32>, tail: seq<byte>, i: nat, at: nat)
    requires i < |ws| && at == |p| + 4 * i
    ensures U32At(p + (WordsBytes(ws) + tail), at) == ws[i]
  {
    var d := p + (WordsBytes(ws) + tail);
    assert d[at..at + 4] == (WordsBytes(ws) + tail)[4 * i..4 * i + 4];
    WordsAt(ws, tail, i);
  }

  /** A slice of a slice is a slice of the whole. */
  lemma SliceOfSlice(b: seq<byte>, lo: nat, hi: nat, i: nat, j: nat)
    requires lo <= hi <= |b| && i <= j <= hi - lo
    ensures b[lo..hi][i..j] == b[lo + i..lo + j]
  {
    var c := b[lo..hi];
    forall t | 0 <= t < j - i
      ensures c[i..j][t] == b[lo + i..lo + j][t]
    {
      assert c[i + t] == b[lo + i + t];
    }
  }

  /** A slice is the two slices either side of a point within it. */
  lemma SliceSplit(b: seq<byte>, lo: nat, mid: nat, hi: nat)
    requires lo <= mid <= hi <= |b|
    ensures b[lo..hi] == b[lo..mid] + b[mid..hi]
  {
  }

  /** A field is read from its own bytes only. */
  lemma U32AtPrefix(d: seq<byte>, i: nat, n: nat)
    requires i + 4 <= n <= |d|
    ensures U32At(d[..n], i) == U32At(d, i)
  {
    assert d[..n][i..i + 4] == d[i..i + 4];
  }

  lemma U16AtPrefix(d: seq<byte>, i: nat, n: nat)
    requires i + 2 <= n <= |d|
    ensures U16At(d[..n], i) == U16At(d, i)
  {
    assert d[..n][i..i + 2] == d[i..i + 2];
  }

  /** The bytes of a field are the encoding of the value read there. */
  lemma U32AtIsBytes(d: seq<byte>, i: nat)
    requires i + 4 <= |d|
    ensures U32Bytes(U32At(d, i)) == d[i..i + 4]
  {
    BeU32Bytes(d[i..i + 4]);
  }

  lemma U16AtIsBytes(d: seq<byte>, i: nat)
    requires i + 2 <= |d|
    ensures U16Bytes(U16At(d, i)) == d[i..i + 2]
  {
    BeU16Bytes(d[i..i + 2]);
  }

  // ---------------------------------------------------------------------
  // The name-table hash (`nametable_hash`)
  // ---------------------------------------------------------------------

  /** `(u >> 3) | (u << 5)` on a `u8`: the two shifted parts never overlap,
      so the `|` is an addition and the `<<` keeps only the low eight bits.
      The result is `u` rotated right by three bits. */
  function Ror3(u: byte): (r: byte)
    ensures r == u / 8 + (u % 8) * 32
  {
    u / 8 + (u * 32) % 0x100
  }

  /** The byte folded over a name: it starts at 0 and, for each byte `c` of
      the name, becomes `ror3(u) + c` with wrapping `u8` addition. */
  function HashFold(s: seq<byte>): byte
  {
    if s == [] then 0 else HashStep(HashFold(s[..|s| - 1]), s[|s| - 1])
  }

  /** One round of the fold: `u.rotate_right(3).wrapping_add(c)`. */
  function HashStep(u: byte, c: byte): byte
  {
    (Ror3(u) + c) % 0x100
  }

  /** What `nametable_hash` computes, in closed form: zero when the low byte
      of the length is zero (the empty name among them), and otherwise the
      length modulo 4 above the folded byte. */
  function NameHash(name: seq<byte>): u16
  {
    if |name| % 0x100 == 0 then 0 else (|name| % 4) * 0x100 + HashFold(name)
  }

  /** `(hashval << 8) | u` on a `u16` whose `hashval` is below 256, then
      masked with `NAMEHASH - 1`, keeps two bits of the length. */
  lemma ShiftJoinMask(n: nat, u: byte)
    requires n % 0x100 != 0
    ensures (n % 0x100 * 0x100) % 0x1_0000 + u < 0x1_0000
    ensures ((n % 0x100 * 0x100) % 0x1_0000 + u) % NAMEHASH == (n % 4) * 0x100 + u
  {
    var l := n % 0x100;
    assert n == 0x100 * (n / 0x100) + l;
    assert l % 4 == n % 4;
  }

  /** `nametable_hash`, as the source computes it: the length's low byte,
      a byte-by-byte loop over the name, then a shift, an or and a mask. */
  method NametableHash(name: seq<byte>) returns (h: u16)
    ensures h == NameHash(name)
  {
    var hashval: u16 := |name| % 0x100;  // (name.len() as u32 & 0x00ff) as u16
    if hashval != 0 {
      var u: byte := 0;
      var i := 0;
      while i < |name|
        invariant 0 <= i <= |name|
        invariant u == HashFold(name[..i])
      {
        var prefix := name[..i + 1];
        assert prefix[..i] == name[..i];
        assert prefix[|prefix| - 1] == name[i];
        u := HashStep(u, name[i]);
        i := i + 1;
      }
      assert name[..|name|] == name;
      ShiftJoinMask(|name|, u);
      hashval := (hashval * 0x100) % 0x1_0000 + u;
    }
    h := hashval % NAMEHASH;  // hashval & (NAMEHASH - 1)
  }

  /** Every hash indexes one of the `NAMEHASH` buckets. */
  lemma NameHashBound(name: seq<byte>)
    ensures NameHash(name) < NAMEHASH
  {
  }

  /** The empty name hashes to 0. */
  lemma NameHashEmpty()
    ensures NameHash([]) == 0
  {
  }

  /** Only the length modulo 4 and the folded byte reach the result: two
      names whose lengths agree modulo 4 (and are not multiples of 256) and
      whose folded bytes agree hash alike. */
  lemma NameHashLengthMod4(a: seq<byte>, b: seq<byte>)
    requires |a| % 0x100 != 0 && |b| % 0x100 != 0
    requires |a| % 4 == |b| % 4 && HashFold(a) == HashFold(b)
    ensures NameHash(a) == NameHash(b)
  {
  }
}
